=== FILE: README.md ===
# Natours in Dafny

A model of the core of Natours, a tour-booking application with an Express and
Mongoose backend and a React frontend, together with proofs about that model.

The backend part covers:

- the user and tour schemas: defaults, validators, the pre-save hooks, the find
  hooks that hide inactive users and secret tours, and the aggregate hook;
- authentication: token issuing, `protect`, `restrictTo`, login and signup, and
  the forgot, reset and update password flows;
- the user, review and tour controllers;
- the generic CRUD handlers of the handler factory;
- the three route tables and their mounting in the application, run by a
  small interpreter of Express routing.

The frontend part covers:

- the API service: auth headers, error messages, session storage and request
  shaping;
- the session state of the auth provider;
- the route guard;
- the account, login and signup forms;
- the profile-photo component;
- the header's display helpers;
- the tour hooks.

Each module is one source file, except `Routes`, which covers the three
routers (tour.routes.ts, user.routes.ts and review.routes.ts) together with
the mounts of app.ts. Each module keeps the source's form:

- Pure decisions and validators are functions.
- Code that updates state is a class whose methods state their whole new state.
  This covers Mongoose documents, Express requests, collections,
  `localStorage`, React component state and hook state.
- Routing tables are values that an interpreter runs.

Libraries are inputs. bcrypt, jsonwebtoken, SHA-256, slugify and
`validator.isEmail` are function-typed parameters. What an API call or `fetch`
resolves to, or rejects with, is an input to the code that awaits it. An async
React handler is split at its `await`: one method runs the part before it and
another runs the part after it settles.

Shared modules:

- `Common`: option, roles, request values with JavaScript truthiness, errors and
  replies.
- `Strings`: trimming, `split`, the email regular expression and decimal text.
- `Store`: a collection with its find filter.
- `Express`: the request object.
- `Js`: JSON values, truthiness and property access as the frontend's code uses
  them.

## Model

| member | source | states |
|---|---|---|
| `Common.ParseRole` | backend/src/models/user.model.ts:45-49 | only "user", "guide", "lead-guide" and "admin" are accepted, each as its own role |
| `Common.ParseRoleName` | backend/src/models/user.model.ts:45-49 | every role's name parses back to that role |
| `UserModel.FindHookHidesInactive` | backend/src/models/user.model.ts:97-101 | a lookup by id finds a stored user exactly when the user is active |
| `UserModel.PasswordFieldsValidMeansConfirmed` | backend/src/models/user.model.ts:50-67 | passing the password validators means the confirmation equals the password and the password is at least 8 long |
| `UserModel.CorrectPassword` | backend/src/models/user.model.ts:103-109 | with no stored hash, or an empty one, the answer is false whatever the candidate |
| `UserModel.ChangedPasswordAfter` | backend/src/models/user.model.ts:111-125 | a user whose password was never changed never counts as changed after a token |
| `UserModel.ChangedAfterIffIssuedBefore` | backend/src/models/user.model.ts:111-125 | a token counts as older than a change exactly when the whole second it was issued in ended by the change |
| `UserModel.TokenIssuedAfterSaveAccepted` | backend/src/models/user.model.ts:90-95 | since the hook backdates the change by one second, a token issued at or after the save is never refused |
| `UserModel.UserDocument.Hydrate` | backend/src/models/user.model.ts:29-76 | a loaded document holds the stored record, is not new and has no modified password |
| `UserModel.UserDocument.Create` | backend/src/models/user.model.ts:34-75 | a new user gets its email lower-cased by the setter, photo "default.jpg", role "user", active true and no other field set |
| `UserModel.UserDocument.SetPassword` | backend/dist/controllers/auth.controller.js:162-163 | assigning the password fields changes only them, and marks the path modified only when the value changes |
| `UserModel.UserDocument.CreatePasswordResetToken` | backend/src/models/user.model.ts:127-138 | the raw token is returned, and only its SHA-256 digest and an expiry ten minutes ahead are stored |
| `UserModel.UserDocument.ClearResetToken` | backend/dist/controllers/auth.controller.js:142-143 | clears both reset fields and nothing else |
| `UserModel.UserDocument.HashPasswordHook` | backend/src/models/user.model.ts:78-88 | a modified non-empty password is replaced by its bcrypt hash and the confirmation dropped; otherwise nothing changes |
| `UserModel.UserDocument.PasswordChangedAtHook` | backend/src/models/user.model.ts:90-95 | a password change on an existing document is recorded one second in the past; new documents and unchanged passwords are left alone |
| `UserModel.UserDocument.Save` | backend/src/models/user.model.ts:56-95 | a validated save fails with 400, writing nothing, exactly when the password validators fail; otherwise the record the two hooks leave is written |
| `UserModel.SavedRecord` | backend/src/models/user.model.ts:78-95 | the hooks touch only password, confirmation and change date, as each hook's condition says |
| `AuthController.CreateSendToken` | backend/dist/controllers/auth.controller.js:32-51 | the token goes into an httpOnly "jwt" cookie that is secure only in production and expires the configured number of days ahead; the user is sent without the password |
| `AuthController.BearerToken` | backend/dist/controllers/auth.controller.js:77-84 | a token is read only from a header starting with "Bearer", and it is never empty and never holds a space |
| `AuthController.BearerTokenIsSecondPiece` | backend/dist/controllers/auth.controller.js:77-81 | the token is the second space-separated piece, whatever follows the scheme word or a further space |
| `AuthController.BearerHeaderRoundTrip` | backend/dist/controllers/auth.controller.js:77-81 | "Bearer " followed by a token gives that token back |
| `AuthController.NoBearerNoToken` | backend/dist/controllers/auth.controller.js:78-84 | without the "Bearer" prefix no token is read |
| `AuthController.Authenticate` | backend/dist/controllers/auth.controller.js:75-107 | access is granted exactly when there is a token, it verifies, its user is still there and active, and the password did not change after issue; every refusal is a 401 |
| `AuthController.TokenBeforePasswordChangeRefused` | backend/dist/controllers/auth.controller.js:96-99 | a token issued before the last password change is refused |
| `AuthController.IssuedTokenGrantsAccess` | backend/dist/controllers/auth.controller.js:27-107 | a freshly issued token, sent as the frontend sends it, grants access to its user |
| `AuthController.Protect` | backend/dist/controllers/auth.controller.js:75-107 | on success the caller is put on the request and the chain continues; every failure is a 401 and leaves the request alone |
| `AuthController.RestrictTo` | backend/dist/controllers/auth.controller.js:108-116 | passes exactly when a caller is on the request and its role is listed; otherwise 403 |
| `AuthController.Login` | backend/dist/controllers/auth.controller.js:61-74 | 400 without email or password; the same 401 for an unknown email and for a wrong password; a success is a token for an active user whose email is the lower-cased one given and whose password matches; and whenever such a user exists and every such user accepts the password, login succeeds |
| `AuthController.Signup` | backend/dist/controllers/auth.controller.js:52-60 | succeeds exactly when the validators pass and the lower-cased email is free; then stores exactly one user with that email, the default photo, role "user", active and a hashed password, answers 201, and keeps every stored email lower-case |
| `AuthController.SignupThenLogin` | backend/dist/controllers/auth.controller.js:52-74 | whoever signs up can then log in with the same password and the email written in any case |
| `AuthController.ForgotPassword` | backend/dist/controllers/auth.controller.js:118-147 | 404 exactly when no active user has the lower-cased email; otherwise the token is mailed and its digest and expiry saved, or both are cleared again with a 500 when mailing fails |
| `AuthController.PasswordSet` | backend/dist/controllers/auth.controller.js:162-166 | a new password is hashed, the confirmation dropped and the change dated one second back; the other fields stay |
| `AuthController.ResetPassword` | backend/dist/controllers/auth.controller.js:148-170 | only an unexpired matching token resets, and only with valid passwords; on success the new password is stored hashed (the stored one is not selected, so it always counts as changed), the change is dated one second back, both reset fields are cleared and the user matches no reset query any more |
| `AuthController.UpdatePassword` | backend/dist/controllers/auth.controller.js:171-191 | 401 without a caller, then 404 when the user is gone, then 401 for a wrong current password; only then is the password replaced |
| `AuthController.ResetTwice` | backend/dist/controllers/auth.controller.js:148-170 | when one user holds a token's digest, a second reset with that token is refused |
| `UserController.MulterFilter` | backend/src/controllers/user.controller.ts:12-22 | a file is kept exactly when its MIME type starts with "image"; otherwise the request fails with the "Not an image!" error |
| `UserController.PhotoFilename` | backend/src/controllers/user.controller.ts:39 | the stored name starts with "user-", the id and "-" |
| `UserController.PhotoFilenameInjective` | backend/src/controllers/user.controller.ts:39 | for ids without "-", different users or different milliseconds never share a file name |
| `UserController.PhotoFilenamePieces` | backend/src/controllers/user.controller.ts:39 | the name splits on "-" into "user", the id and the timestamp part |
| `UserController.ResizeUserPhoto` | backend/src/controllers/user.controller.ts:31-49 | continues when there is no file; a file without a caller is a 401; otherwise the file is named "user-id-timestamp.jpeg" |
| `UserController.FilterObj` | backend/src/controllers/user.controller.ts:51-57 | the result holds exactly the allowed keys of the object, with their values; it is the `Filtered` map that `SelfUpdate` uses |
| `UserController.GetMe` | backend/src/controllers/user.controller.ts:59-62 | sets the id param to the caller's id (removes it when there is no caller) and always continues |
| `UserController.GetMyPhoto` | backend/src/controllers/user.controller.ts:64-83 | 401 without a caller, 404 when the user is not found, otherwise the stored photo |
| `UserController.SelfUpdate` | backend/src/controllers/user.controller.ts:122-124 | the update holds at most name, email and photo; name and email come from the body, filtered as `FilterObj` does |
| `UserController.ApplySelfUpdate` | backend/src/controllers/user.controller.ts:130-137 | only name, email and photo can differ; role, password and active stay; a new email is stored lower-cased, so a lower-case email stays lower-case |
| `UserController.UpdateMe` | backend/src/controllers/user.controller.ts:110-146 | password fields are refused with 400 first; without a caller it is 401 with no update; no record's role, password or active flag ever changes |
| `UserController.SelfUpdateKeepsEmailsLowercase` | backend/src/models/user.model.ts:38 | a self-update keeps every stored email lower-case |
| `UserController.DeleteMe` | backend/src/controllers/user.controller.ts:148-160 | the caller's record is kept but made inactive, after which no lookup finds it; 204 |
| `HandlerFactory.DeleteOne` | backend/src/controllers/handlerFactory.ts:16-28 | an id that is not an ObjectId text is a CastError (400) and a missing id a 404, both with the store unchanged; otherwise exactly that record is removed and the answer is 204 |
| `HandlerFactory.DeleteTwice` | backend/src/controllers/handlerFactory.ts:16-28 | after a successful delete, deleting the same id again is a 404 |
| `HandlerFactory.UpdateOne` | backend/src/controllers/handlerFactory.ts:30-47 | an id that is not an ObjectId text is a CastError before anything else; then an invalid body is a ValidationError (400); a missing id is a 404; an update giving the record another record's unique key is a 400 naming the path; otherwise the stored record becomes the updated one, sent with 200; unique keys stay unique |
| `HandlerFactory.CreateOne` | backend/src/controllers/handlerFactory.ts:49-59 | a rejected body, or one whose unique key is already stored, is a 400 with nothing stored; otherwise exactly one record is added and sent with 201; unique keys stay unique |
| `HandlerFactory.GetOne` | backend/src/controllers/handlerFactory.ts:61-80 | a CastError for an id that is not an ObjectId text; 404 when the lookup finds nothing; otherwise the visible stored record, populated only when options are given |
| `HandlerFactory.NestedTourId` | backend/src/controllers/handlerFactory.ts:86 | a tour filter applies exactly when the tourId param is present and non-empty |
| `HandlerFactory.GetAll` | backend/src/controllers/handlerFactory.ts:82-104 | every listed record is stored and visible, and belongs to the route's tour on a nested route; results equals the length of the list |
| `ReviewController.DefaultKey` | backend/src/controllers/review.controller.ts:17-18 | a truthy key is kept; a falsy one takes the value (or is removed when the value is undefined); other keys stay |
| `ReviewController.SetTourUserIds` | backend/src/controllers/review.controller.ts:11-20 | a missing tour becomes the route's tourId, a missing user becomes the caller's id, and the request always continues |
| `ReviewController.NestedReviewHasTourAndUser` | backend/src/controllers/review.controller.ts:11-20 | on a nested route with a caller, a review body always names a tour and an author, its own when given |
| `TourModel.ParseDifficulty` | backend/src/models/tour.model.ts:67-74 | only "easy", "medium" and "difficult" are accepted, each as its own difficulty |
| `TourModel.CheckName` | backend/src/models/tour.model.ts:49-57 | a name is valid exactly when, once trimmed, it is 10 to 40 characters long; the stored name is the trimmed one |
| `TourModel.BlankNameIsMissing` | backend/src/models/tour.model.ts:49-57 | a name of white space only is reported as missing |
| `TourModel.StoredNameRevalidates` | backend/src/models/tour.model.ts:49-57 | a stored name passes its validators again unchanged |
| `TourModel.CheckDifficulty` | backend/src/models/tour.model.ts:67-74 | valid exactly for the three names; missing, null or empty is "required" |
| `TourModel.CheckRequiredNumber` | backend/src/models/tour.model.ts:59-66 | valid exactly for a value that casts to a number (a number, a boolean or an integer text), which is kept; missing, null and the empty text are "required" |
| `TourModel.CheckOptionalNumber` | backend/src/models/tour.model.ts:82-85 | the default when absent, null for null or the empty text, otherwise the cast number; only a text that is not a number is refused |
| `TourModel.CheckRatingsAverage` | backend/src/models/tour.model.ts:75-81 | 4.5 by default; otherwise valid exactly when `Number()` of the value, which the setter computes first, lies between 1 and 5, and that value is kept |
| `TourModel.NullRatingRefused` | backend/src/models/tour.model.ts:75-81 | a null rating is refused as below 1.0, since the setter turns it into 0 |
| `TourModel.CheckPriceDiscount` | backend/src/models/tour.model.ts:90-100 | on create a discount is absent, or casts to a number strictly below the price; a null discount passes exactly when 0 is below the price, and a text that is not a number is a cast error |
| `TourModel.CheckRequiredText` | backend/src/models/tour.model.ts:101-113 | a valid required text is non-empty, trimmed when the path trims |
| `TourModel.CheckSecretTour` | backend/src/models/tour.model.ts:121-124 | false by default; true exactly for the values Mongoose casts to true; null is kept as null; anything outside the Boolean cast is refused |
| `TourModel.SlugHook` | backend/src/models/tour.model.ts:186-189 | every save sets the slug from the name and changes nothing else |
| `TourModel.NewTour` | backend/src/models/tour.model.ts:47-189 | a created tour has a trimmed name of valid length, the slug of that name, a discount below the price and the defaults for left-out fields; an invalid name, difficulty or discount (a null one included when the price is not positive) creates nothing |
| `TourModel.NumberPath` | backend/src/models/tour.model.ts:59-89 | a number path not in the update keeps its value; one in it takes the cast number |
| `TourModel.QuantityPath` | backend/src/models/tour.model.ts:82-85 | an update without the quantity keeps it; a null quantity is stored as null; any other is `Number()` of the value given |
| `TourModel.SecretPath` | backend/src/models/tour.model.ts:121-124 | an update without the flag keeps it; otherwise it is true exactly for values that cast to true |
| `TourModel.ApplyTourUpdate` | backend/src/models/tour.model.ts:47-189 | an update leaves the slug, the secret flag and the discount alone unless the body sets them, since document hooks do not run; a new name is trimmed |
| `TourModel.ApplyTourUpdateCasts` | backend/src/models/tour.model.ts:59-124 | after an update the secret flag is set exactly for values that cast to true, a new price is `Number()` of the value given, and a null quantity is stored as null |
| `TourModel.TourSchema` | backend/src/models/tour.model.ts:47-196 | the generic handlers create, validate and update tours through the schema's own rules; tours have no tour filter; the unique key is the name |
| `TourModel.NameTakenIsKeyTaken` | backend/src/models/tour.model.ts:52 | the schema's unique key is taken exactly when another stored tour has the same name |
| `TourModel.UniqueNamesAreUniqueKeys` | backend/src/models/tour.model.ts:52 | unique names are exactly unique keys of the tour schema |
| `TourModel.AggregateHookAsWritten` | backend/src/models/tour.model.ts:214-218 | the secret-tour match goes in front of every pipeline |
| `TourModel.GeoNearPipelineRefusedAsWritten` | backend/src/models/tour.model.ts:214-218 | as written, a pipeline starting with `$geoNear` becomes one MongoDB refuses |
| `TourModel.AggregateHook` | backend/src/models/tour.model.ts:214-218 | corrected: the match goes after a leading `$geoNear`, and first otherwise |
| `TourModel.AggregateHookKeepsPipelineAccepted` | backend/src/models/tour.model.ts:214-218 | the corrected hook keeps every accepted pipeline accepted and inserts exactly one match, keeping the stages in order |
| `TourController.AliasTopTours` | backend/src/controllers/tour.controller.ts:42-51 | sets limit, sort and fields to the top-five preset, keeps every other query key and continues |
| `TourController.GetTour` | backend/src/controllers/tour.controller.ts:21-39 | 404 exactly when no non-secret tour has the slug; otherwise a stored non-secret tour with that slug |
| `TourController.ParseLatLng` | backend/src/controllers/tour.controller.ts:140-145 | accepted parts are the first two comma-separated pieces, both non-empty |
| `TourController.SplitPrefix` | backend/src/controllers/tour.controller.ts:140 | the first two pieces of a split, joined by the separator, start the string |
| `TourController.JoinPrefix` | backend/src/controllers/tour.controller.ts:140 | joining two or more pieces starts with the first two joined |
| `TourController.LatLngRoundTrip` | backend/src/controllers/tour.controller.ts:140-145 | a well-formed "lat,lng" passes the guard and gives back its two parts |
| `TourController.LatLngNeedsComma` | backend/src/controllers/tour.controller.ts:140-145 | text without a comma is refused |
| `TourController.UnitOf` | backend/src/controllers/tour.controller.ts:142-143 | miles exactly for "mi"; every other unit is kilometres |
| `TourController.GetToursWithin` | backend/src/controllers/tour.controller.ts:137-168 | a malformed lat,lng is the 400 case; a query the database rejects forwards its error, which is always so for a NaN coordinate or radius; the answer is 200 exactly when the guard passes and the query runs, and then exactly the non-secret tours inside the area are listed, with their count |
| `TourController.SetToSeq` | backend/src/controllers/tour.controller.ts:154-158 | the query result lists each selected document once |
| `TourController.GetDistances` | backend/src/controllers/tour.controller.ts:170-212 | the guard comes first; otherwise the pipeline, after the corrected hook, is one MongoDB accepts, and the answer is 200 exactly when its `$geoNear` point is accepted, so a 200 never comes from a NaN or out-of-bounds point |
| `TourController.NearRefusesNaN` | backend/src/controllers/tour.controller.ts:173-195 | "abc,def" passes the lat,lng guard, yet its NaN point is refused |
| `TourController.NearDecidedByBounds` | backend/src/controllers/tour.controller.ts:173-195 | any two integers pass the guard as "lat,lng", and the `$geoNear` point then runs exactly when it is within ±90 and ±180 |
| `TourController.DistancesPipelineRefusedAsWritten` | backend/src/controllers/tour.controller.ts:186-203 | with the hook as written, the distances pipeline is refused |
| `TourController.GetAllTours` | backend/src/controllers/tour.controller.ts:15 | secret tours are never listed |
| `TourController.CreateTour` | backend/src/controllers/tour.controller.ts:16 | a created tour has a valid name, the slug of that name and a name no stored tour has, and is the only record added; a duplicate name is a 400; names stay unique |
| `TourController.UpdateTour` | backend/src/controllers/tour.controller.ts:17 | an update setting priceDiscount is always refused; a secret tour cannot be updated; the slug stays unless the body sets it; the updated name is no other tour's; names stay unique |
| `TourController.DeleteTour` | backend/src/controllers/tour.controller.ts:18 | only a non-secret tour can be deleted, and only it is removed; a malformed id is a CastError, every other failure a 404, and a failure changes nothing |
| `Routes.MatchPrefix` | backend/src/routes/tour.routes.ts:23 | a matched pattern is never longer than the path |
| `Routes.Guard` | backend/dist/controllers/auth.controller.js:75-116 | protect then restrictTo continues exactly for a granted caller with a listed role; otherwise protect's 401 or a 403 |
| `Routes.LoginRequired` | backend/dist/controllers/auth.controller.js:75-107 | protect alone continues exactly for a granted request |
| `Routes.StepDecides` | backend/dist/controllers/auth.controller.js:75-116 | protect and restrictTo are the only middleware that stop a request; every other one continues and keeps the caller |
| `Routes.MatchPrefixSound` | backend/src/routes/tour.routes.ts:23-52 | a matched pattern's literals are in the path and its params are captured |
| `Routes.PassMany` | backend/src/routes/user.routes.ts:29-51 | layers a request goes past leave its outcome unchanged |
| `Routes.ProtectLayer` | backend/src/routes/user.routes.ts:38 | `router.use(protect)` fails a refused request and records a granted caller |
| `Routes.RestrictLayer` | backend/src/routes/user.routes.ts:47 | `router.use(restrictTo(roles))` fails an unlisted caller with 403 and lets the others on |
| `Routes.RouteLayer` | backend/src/routes/tour.routes.ts:43-52 | a matching route whose chain settles the request decides it |
| `Routes.OpenChainReaches` | backend/src/routes/tour.routes.ts:26 | a chain of always-continuing middleware reaches its endpoint after running them |
| `Routes.RestrictedChain` | backend/src/routes/review.routes.ts:18-27 | restrictTo in front of an open chain fails an unlisted caller with 403 and otherwise reaches the endpoint |
| `Routes.GuardedChain` | backend/src/routes/tour.routes.ts:30-32 | protect, restrictTo and an endpoint decide exactly as Guard says |
| `Routes.MatchPrefixSucceeds` | backend/src/routes/tour.routes.ts:23-52 | a pattern matches when its literals are there and each param has a non-empty segment |
| `Routes.ReachesOpenRouteFrom` | backend/src/routes/tour.routes.ts:23-52 | a request that passes the earlier layers and matches an open route reaches its endpoint |
| `Routes.ReachesOpenRoute` | backend/src/routes/tour.routes.ts:23-52 | the same from the start of a router, with nobody logged in |
| `Routes.TopToursRunsAliasFirst` | backend/src/routes/tour.routes.ts:26 | `/top-5-cheap` is public and runs the alias before the list |
| `Routes.TourStatsPublic` | backend/src/routes/tour.routes.ts:28 | `/tour-stats` is public |
| `Routes.MonthlyPlanAccess` | backend/src/routes/tour.routes.ts:30-32 | `/monthly-plan/:year` needs a login and the role admin, lead-guide or guide |
| `Routes.LongPathsPassEarlyLayers` | backend/src/routes/tour.routes.ts:23-32 | longer paths go past the nested mount and the short routes |
| `Routes.ToursWithinMatches` | backend/src/routes/tour.routes.ts:34-36 | the tours-within pattern matches when every param is non-empty |
| `Routes.ToursWithinPublic` | backend/src/routes/tour.routes.ts:34-36 | `/tours-within/...` is public |
| `Routes.DistancesPublic` | backend/src/routes/tour.routes.ts:40 | `/distances/...` is public |
| `Routes.AllToursPublic` | backend/src/routes/tour.routes.ts:43-45 | listing the tours is public |
| `Routes.CreateTourAccess` | backend/src/routes/tour.routes.ts:43-46 | creating a tour needs a login and the role admin or lead-guide |
| `Routes.OneIdPassesEarlyLayers` | backend/src/routes/tour.routes.ts:23-46 | a one-segment path goes past the first eight layers unless it is a named GET route |
| `Routes.TourLookupPublic` | backend/src/routes/tour.routes.ts:48-50 | reading one tour is public, with the segment as the id param |
| `Routes.UpdateTourAccess` | backend/src/routes/tour.routes.ts:48-51 | updating a tour needs a login and the role admin or lead-guide |
| `Routes.DeleteTourAccess` | backend/src/routes/tour.routes.ts:48-52 | deleting a tour needs a login and the role admin or lead-guide |
| `Routes.TourChangesNeedStaff` | backend/src/routes/tour.routes.ts:23-52 | outside the nested review mount, every change that reaches an endpoint came from an admin or lead-guide |
| `Routes.OtherVerbsPass` | backend/src/routes/tour.routes.ts:43-52 | among the last routes only the one of the request's method can take it |
| `Routes.NestedReviewsHandOver` | backend/src/routes/tour.routes.ts:23 | `/:tourId/reviews...` goes to the review router with the tour id; only when it answers nothing do the tour routes try |
| `Routes.ReviewLoginWall` | backend/src/routes/review.routes.ts:16 | no review route runs without a login |
| `Routes.ListReviewsAccess` | backend/src/routes/review.routes.ts:18-20 | listing reviews needs a login only and sees the inherited params |
| `Routes.GetReviewAccess` | backend/src/routes/review.routes.ts:23-25 | reading a review needs a login only |
| `Routes.CreateReviewAccess` | backend/src/routes/review.routes.ts:18-21 | writing a review needs a login and the role user, and setTourUserIds runs first |
| `Routes.UpdateReviewAccess` | backend/src/routes/review.routes.ts:23-26 | changing a review needs a login and the role user or admin |
| `Routes.DeleteReviewAccess` | backend/src/routes/review.routes.ts:23-27 | deleting a review needs a login and the role user or admin |
| `Routes.NestedReviewListSeesTourId` | backend/src/routes/review.routes.ts:13 | the nested review list needs a login and, through mergeParams, sees the tour id |
| `Routes.NestedReviewCreateSeesTourId` | backend/src/routes/review.routes.ts:13-21 | the nested review create needs the role user and sees the tour id |
| `Routes.WithoutMergeParamsTourIdIsLost` | backend/src/routes/review.routes.ts:13 | without mergeParams the nested list would not see the tour id |
| `Routes.MonthlyPlanShadowedByReviews` | backend/src/routes/tour.routes.ts:23-32 | `GET /monthly-plan/reviews` is taken by the nested review list, registered first |
| `Routes.SignupPublic` | backend/src/routes/user.routes.ts:29 | signing up is public |
| `Routes.LoginPublic` | backend/src/routes/user.routes.ts:30 | logging in is public |
| `Routes.ForgotPasswordPublic` | backend/src/routes/user.routes.ts:31 | asking for a reset token is public |
| `Routes.ResetPasswordPublic` | backend/src/routes/user.routes.ts:32 | resetting with a token is public, with the token as a param |
| `Routes.UserPhotoPublic` | backend/src/routes/user.routes.ts:35 | stored photos are served without a login |
| `Routes.PublicUserLayersPass` | backend/src/routes/user.routes.ts:29-35 | any other request goes past the public routes |
| `Routes.UserLoginWall` | backend/src/routes/user.routes.ts:38 | every other user route is refused without a login and otherwise continues with the caller recorded |
| `Routes.UpdateMyPasswordAccess` | backend/src/routes/user.routes.ts:41 | changing one's password needs a login and no role |
| `Routes.MeAccess` | backend/src/routes/user.routes.ts:42 | `/me` needs a login and runs getMe before getUser |
| `Routes.MyPhotoAccess` | backend/src/routes/user.routes.ts:43 | `/me/photo` needs a login and no role |
| `Routes.UpdateMeAccess` | backend/src/routes/user.routes.ts:44 | `/updateMe` needs a login and runs the upload, then the resize, then the update |
| `Routes.DeleteMeAccess` | backend/src/routes/user.routes.ts:45 | `/deleteMe` needs a login and no role |
| `Routes.AccountLayersPass` | backend/src/routes/user.routes.ts:41-45 | any other request goes past the account routes |
| `Routes.UserAdminWall` | backend/src/routes/user.routes.ts:47 | every later user route needs a login and the role admin; restrictTo does not reach earlier routes |
| `Routes.ListUsersAccess` | backend/src/routes/user.routes.ts:50 | listing users needs the role admin |
| `Routes.CreateUserAccess` | backend/src/routes/user.routes.ts:50 | `POST /users` needs the role admin |
| `Routes.GetUserAccess` | backend/src/routes/user.routes.ts:51 | reading a user by id needs the role admin |
| `Routes.UpdateUserAccess` | backend/src/routes/user.routes.ts:51 | changing a user by id needs the role admin |
| `Routes.DeleteUserAccess` | backend/src/routes/user.routes.ts:51 | deleting a user by id needs the role admin |
| `Routes.AppToursMount` | backend/src/app.ts:118 | `/api/v1/tours...` is decided by the tour router alone |
| `Routes.AppUsersMount` | backend/src/app.ts:119 | `/api/v1/users...` is decided by the user router alone |
| `Routes.AppReviewsMount` | backend/src/app.ts:120 | `/api/v1/reviews...` is decided by the review router alone |
| `Strings.TrimStart` | backend/src/models/tour.model.ts:53 | only leading white space is dropped, and the result does not start with white space |
| `Strings.TrimEnd` | backend/src/models/tour.model.ts:53 | only trailing white space is dropped, and the result does not end with white space |
| `Strings.TrimmedIsFixpoint` | backend/src/models/tour.model.ts:53 | trimming a trimmed string changes nothing |
| `Strings.TrimEmptyIffAllSpace` | frontend/src/components/AccountForm.tsx:54-58 | `!s.trim()` holds exactly for strings of white space only |
| `Strings.Split` | backend/src/controllers/tour.controller.ts:140 | `split` on one character gives at least one piece, and no piece holds the separator |
| `Strings.JoinSplit` | backend/src/controllers/tour.controller.ts:140 | joining the pieces of a split gives the string back |
| `Strings.SplitJoin` | backend/dist/controllers/auth.controller.js:80 | splitting pieces free of the separator, once joined, gives the pieces back |
| `Strings.FirstPiece` | backend/dist/controllers/auth.controller.js:80 | the first piece is the longest prefix without the separator |
| `Strings.DecimalRoundTrip` | backend/src/controllers/user.controller.ts:39 | the decimal text of a number reads back as that number |
| `Strings.NatToDecimalInjective` | backend/src/controllers/user.controller.ts:39 | different numbers have different decimal texts |
| `Strings.IntegerText` | backend/src/models/tour.model.ts:59-62 | a digit string reads as its decimal value, with an optional sign; a result is only given for a text ending in a digit |
| `Strings.NumberText` | backend/src/models/tour.model.ts:59-62 | `Number()` of a text: 0 for blank text, otherwise the trimmed text read as an integer |
| `Strings.NumberTextRoundTrip` | backend/src/models/tour.model.ts:59-62 | the decimal text of any integer reads back as that integer |
| `Strings.Lower` | backend/src/models/user.model.ts:38 | lower-casing keeps the length and maps each letter A to Z to its lower-case form, leaving every other character |
| `Strings.LowerIdempotent` | backend/src/models/user.model.ts:38 | lower-casing a lower-cased text changes nothing |
| `Store.JsNumber` | backend/src/models/tour.model.ts:80 | `Number()`: null is 0, booleans are 0 and 1, numbers stay, texts are read as numbers |
| `Store.NumberCast` | backend/src/models/tour.model.ts:59-91 | the Number cast: null and the empty text give null, numbers and booleans cast, a text that is not a number is exactly the cast error, and a cast number agrees with `Number()` |
| `Store.NumberCastOfText` | backend/src/models/tour.model.ts:59-91 | the decimal text of any integer casts to that integer |
| `Store.BooleanCast` | backend/src/models/tour.model.ts:121-124 | the Boolean cast: true exactly for true, "true", 1, "1" and "yes"; false exactly for their opposites; null stays null; anything else is the cast error |
| `Store.BooleanCastOfText` | backend/src/models/tour.model.ts:121-124 | a boolean, and the text `String()` gives for it, both cast back to that boolean |
| `Strings.EmailPatternCorrect` | frontend/src/components/AccountForm.tsx:60 | the scan that tests `/\S+@\S+\.\S+/` agrees with the pattern's meaning |
| `ApiService.LocalStorage.GetItem` | frontend/src/services/api.ts:80 | a stored key gives its value, a missing one nothing |
| `ApiService.LocalStorage.SetItem` | frontend/src/contexts/AuthContext.tsx:35 | stores one key and changes no other |
| `ApiService.GetAuthHeaders` | frontend/src/services/api.ts:79-85 | the JSON content type is always sent; Authorization is sent exactly when a non-empty token is stored, as "Bearer " and the token |
| `ApiService.AuthHeaderRoundTrip` | frontend/src/services/api.ts:79-85 | the backend reads the stored token back from the Authorization header the client sends |
| `ApiService.ErrorText` | frontend/src/pages/Signup.tsx:60-63 | an Error's message, or the fallback for anything else thrown |
| `ApiService.HandleResponse` | frontend/src/services/api.ts:87-100 | an ok response gives its body; otherwise the error message is the body's truthy message, else "Request failed", or the status text when there is no readable body |
| `ApiService.BackendMessageWins` | frontend/src/services/api.ts:87-97 | a backend failure with a message shows that message |
| `ApiService.IsAuthenticated` | frontend/src/services/api.ts:234-236 | true exactly when a non-empty token is stored |
| `ApiService.Logout` | frontend/src/services/api.ts:238-241 | removes token and user, and nothing else; afterwards the client is not authenticated |
| `ApiService.UploadPhotoRequest` | frontend/src/services/api.ts:222-231 | a PATCH of the photo form to users/updateMe whose only header is Authorization |
| `ApiService.UploadWithoutTokenSendsNull` | frontend/src/services/api.ts:226 | with no token stored the header is "Bearer null", which the backend reads as the token "null" |
| `ApiService.CreateBookingRequest` | frontend/src/services/api.ts:194-204 | a POST to bookings whose body is the booking data with the tour id |
| `ApiService.BookingsNotMounted` | frontend/src/services/api.ts:198 | the backend has no route for the bookings path |
| `ApiService.CreateReviewRequest` | frontend/src/services/api.ts:181-191 | a POST of the review to the tour's nested reviews path |
| `ApiService.CreateReviewReachesNestedRoute` | frontend/src/services/api.ts:185 | that request reaches the backend's review creation with the tour id, for a caller with the role user |
| `AuthContext.AuthProvider.constructor` | frontend/src/contexts/AuthContext.tsx:12-13 | no user, and loading |
| `AuthContext.AuthProvider.InitializeAuth` | frontend/src/contexts/AuthContext.tsx:15-31 | getMe is asked exactly when a token is stored; the user the corrected read gives is adopted, a failure logs out, and loading ends on every path |
| `AuthContext.GetOneAnswer` | backend/src/controllers/handlerFactory.ts:74-79 | `getOne` answers success with the document under `data.data` |
| `AuthContext.GetMeKeepsWrapperAsWritten` | frontend/src/contexts/AuthContext.tsx:20-21 | as written, a reload adopts the wrapper `{ data: user }`, which is not the user and has no name and no role |
| `AuthContext.GetMeUserUnwraps` | frontend/src/contexts/AuthContext.tsx:20-21 | corrected: reading `response.data.data` adopts exactly the user the backend sent |
| `AuthContext.AuthProvider.Login` | frontend/src/contexts/AuthContext.tsx:33-37 | on success the token is stored and the user adopted; a failure changes nothing |
| `AuthContext.AuthProvider.Signup` | frontend/src/contexts/AuthContext.tsx:39-48 | the same effect on the stored token and the user as login |
| `AuthContext.AuthProvider.Logout` | frontend/src/contexts/AuthContext.tsx:50-53 | clears the session keys and the user |
| `AuthContext.AuthProvider.AdoptUpdatedUser` | frontend/src/contexts/AuthContext.tsx:55-72 | the answer's user replaces the current one; a failure leaves it |
| `AuthContext.LoginThenLogout` | frontend/src/contexts/AuthContext.tsx:33-53 | after login the user is set and the client is authenticated with a non-empty token; after logout it is not |
| `ProtectedRoute.Guard` | frontend/src/components/ProtectedRoute.tsx:11-45 | the spinner exactly while loading; a login redirect with the location exactly for a protected route without a user; home for a non-admin on an admin route or a user on a guest route; otherwise the children |
| `ProtectedRoute.DefaultsProtect` | frontend/src/components/ProtectedRoute.tsx:13-14 | by default a route is protected and open to every role |
| `ProtectedRoute.ChildrenOnlyForAllowed` | frontend/src/components/ProtectedRoute.tsx:29-44 | children show on an admin route only to an admin, on a guest route only to nobody, and otherwise only to a user |
| `ProtectedRoute.GuestAdminRouteNeverRenders` | frontend/src/components/ProtectedRoute.tsx:34-42 | a route that is both admin-only and guest-only never renders its children |
| `Header.GetUserImage` | frontend/src/components/Header.tsx:10-16 | "/users/" and the photo when it is truthy, else "/users/default.jpg" |
| `Header.FirstNameIsPrefix` | frontend/src/components/Header.tsx:47 | the displayed name is a prefix of the name with no space, followed by a space or the end |
| `Header.SingleNameShownWhole` | frontend/src/components/Header.tsx:47 | a name without a space is displayed whole |
| `Header.UserNav` | frontend/src/components/Header.tsx:31-59 | a logged-in user gets the logout and account links with avatar and first name; otherwise login and signup |
| `AccountForm.UserDataErrors` | frontend/src/components/AccountForm.tsx:51-66 | the name is required once trimmed; the email is required once trimmed, and is otherwise invalid exactly when it does not match the pattern |
| `AccountForm.PasswordDataErrors` | frontend/src/components/AccountForm.tsx:68-89 | the current password is required; the new one is required and at least 8 long; the confirmation is required and equal to it |
| `AccountForm.PasswordFormMatchesBackend` | frontend/src/components/AccountForm.tsx:68-89 | the form accepts a password change exactly when a current password is given and the backend's password validators accept the pair |
| `AccountForm.Cleared` | frontend/src/components/AccountForm.tsx:98-103 | a truthy error is cleared; anything else stays |
| `AccountForm.Form.constructor` | frontend/src/components/AccountForm.tsx:35-49 | the user's name and email, empty passwords, no errors |
| `AccountForm.Form.ValidateUserData` | frontend/src/components/AccountForm.tsx:51-66 | records the errors and reports whether there are none |
| `AccountForm.Form.ValidatePasswordData` | frontend/src/components/AccountForm.tsx:68-89 | records the errors and reports whether there are none |
| `AccountForm.Form.HandleUserDataChange` | frontend/src/components/AccountForm.tsx:91-104 | sets the typed field and clears that field's error only |
| `AccountForm.Form.HandlePasswordChange` | frontend/src/components/AccountForm.tsx:106-119 | sets the typed field and clears that field's error only |
| `AccountForm.Form.HandleUserDataSubmit` | frontend/src/components/AccountForm.tsx:121-126 | the data go out exactly when they are valid |
| `AccountForm.Form.HandlePasswordSubmit` | frontend/src/components/AccountForm.tsx:128-139 | the passwords go out exactly when valid, and the fields are then emptied; otherwise they stay as typed |
| `LoginForm.LoginDataErrors` | frontend/src/components/LoginForm.tsx:26-43 | an empty email is required and any other must match the pattern, untrimmed; a password must be given and at least 8 long |
| `LoginForm.WhitespaceEmailJudgedDifferently` | frontend/src/components/LoginForm.tsx:29-33 | an email of spaces is "invalid" on the login form but "required" on the account form |
| `LoginForm.Form.constructor` | frontend/src/components/LoginForm.tsx:19-24 | empty fields and no errors |
| `LoginForm.Form.ValidateForm` | frontend/src/components/LoginForm.tsx:26-43 | records the errors and reports whether there are none |
| `LoginForm.Form.HandleChange` | frontend/src/components/LoginForm.tsx:45-59 | sets the typed field and clears that field's error only |
| `LoginForm.Form.HandleSubmit` | frontend/src/components/LoginForm.tsx:61-67 | the data go out exactly when they are valid |
| `SignupPage.PasswordProblem` | frontend/src/pages/Signup.tsx:39-49 | a mismatch is reported first, then a password shorter than 8; matching passwords of 8 or more pass |
| `SignupPage.PasswordCheckMatchesBackend` | frontend/src/pages/Signup.tsx:39-49 | the page lets a pair through exactly when the backend's password validators accept it |
| `SignupPage.Page.constructor` | frontend/src/pages/Signup.tsx:16-23 | empty fields, not loading, no error |
| `SignupPage.Page.HandleSubmit` | frontend/src/pages/Signup.tsx:33-68 | a failed check sets its message and calls nothing; otherwise signup, then login with the same email and password, then "/"; a failure shows its message; loading ends on every path |
| `PhotoUpload.FileProblem` | frontend/src/components/ProfilePhotoUpload.tsx:20-29 | a file is accepted exactly when its type starts with "image/" and it is at most 5 MiB; the type is checked first |
| `PhotoUpload.AcceptedFilesPassMulter` | frontend/src/components/ProfilePhotoUpload.tsx:20 | every file the component sends passes the backend's upload filter |
| `PhotoUpload.ReadAnswer` | frontend/src/components/ProfilePhotoUpload.tsx:63-73 | a failed fetch, a status that is not ok, a body that is not JSON and a read on null all throw; a "success" status yields the new photo |
| `PhotoUpload.UpdateMeAnswerIsSuccess` | frontend/src/components/ProfilePhotoUpload.tsx:67-71 | the backend's updateMe answer is read as a success carrying the stored photo |
| `PhotoUpload.Uploader.constructor` | frontend/src/components/ProfilePhotoUpload.tsx:8-13 | the current photo defaults to "default.jpg"; not uploading, no preview |
| `PhotoUpload.Uploader.PhotoUrl` | frontend/src/components/ProfilePhotoUpload.tsx:87-90 | the preview when set, otherwise the server URL ending in the current photo |
| `PhotoUpload.Uploader.HandleFileSelect` | frontend/src/components/ProfilePhotoUpload.tsx:16-50 | no file does nothing; a rejected file alerts and changes nothing; an accepted one shows its preview and starts the upload with the stored token |
| `PhotoUpload.Uploader.UploadSettled` | frontend/src/components/ProfilePhotoUpload.tsx:52-81 | the new photo goes to the callback only on a success; a failure drops the preview; uploading ends on every path |
| `PhotoUpload.FailedUploadShowsStoredPhoto` | frontend/src/components/ProfilePhotoUpload.tsx:74-90 | after a failed upload the stored photo is shown again |
| `UseTours.Unwrap` | frontend/src/hooks/useTours.ts:20-21 | the nested data when truthy, else the response's data; a null answer throws |
| `UseTours.ListShapesUnwrap` | frontend/src/hooks/useTours.ts:16-21 | the backend's nested list and the flat shape both give the list, even when it is empty |
| `UseTours.ToursHook.constructor` | frontend/src/hooks/useTours.ts:6-8 | no tours, loading, no error |
| `UseTours.ToursHook.FetchStart` | frontend/src/hooks/useTours.ts:12-13 | loading, and the error cleared |
| `UseTours.ToursHook.FetchSettled` | frontend/src/hooks/useTours.ts:14-37 | an array payload becomes the tours; any other payload or a failure empties them and sets its message; loading ends |
| `UseTours.FetchBackendList` | frontend/src/hooks/useTours.ts:10-38 | a whole fetch of the backend's list holds exactly the documents sent, with no error |
| `UseTours.TourHook.constructor` | frontend/src/hooks/useTours.ts:55-57 | no tour, loading, no error |
| `UseTours.TourHook.SlugChanged` | frontend/src/hooks/useTours.ts:75-79 | a fetch starts exactly for a non-empty slug |
| `UseTours.TourHook.FetchStart` | frontend/src/hooks/useTours.ts:61-62 | loading, and the error cleared |
| `UseTours.TourHook.FetchSettled` | frontend/src/hooks/useTours.ts:59-73 | the tour becomes the response's data without unwrapping; a failure sets the message and keeps the tour |
| `UseTours.TourHookKeepsWrapper` | frontend/src/hooks/useTours.ts:65 | on the backend's tour answer this hook keeps the wrapper object, not the tour |
| `UseTours.JsonSmaller` | frontend/src/hooks/useTours.ts:65 | a value is never its own wrapper |
| `UseTour.Hook.constructor` | frontend/src/hooks/useTour.ts:6-8 | no tour, loading, no error |
| `UseTour.Hook.FetchStart` | frontend/src/hooks/useTour.ts:10-15 | an empty slug changes nothing, so loading stays at its first value; otherwise loading, and the error cleared |
| `UseTour.Hook.FetchSettled` | frontend/src/hooks/useTour.ts:16-29 | the tour becomes the unwrapped payload; a failure sets the message and keeps the tour; loading ends |
| `UseTour.BackendTourUnwraps` | frontend/src/hooks/useTour.ts:21-22 | the backend's tour answer unwraps to the tour itself |
| `UseTour.FetchFoundTour` | frontend/src/hooks/useTour.ts:10-30 | a whole fetch of a found tour shows the tour, with no error and no loading |

## Left out

- I/O is not modelled: the network, `fetch` and the sending of responses. Only the status and payload of each response are kept.
- Mail sending, the file system, the sharp image pipeline and `getUserPhoto`'s file serving are not modelled. Only mail success is an input.
- bcrypt, jsonwebtoken, SHA-256, `crypto.randomBytes`, slugify and `validator.isEmail` are uninterpreted function parameters. Their internals are not modelled.
- The clock is a parameter in milliseconds. Environment settings are inputs: JWT lifetime, cookie days, `NODE_ENV`, and the frontend's `VITE_API_URL` base address.
- Floating point is not modelled.
  - Tour numbers are integers.
  - `ratingsAverage` is kept in tenths, the precision its rounding setter leaves, so the setter's arithmetic is not modelled.
  - `durationWeeks` and the geospatial radius and distance arithmetic are not modelled. `getToursWithin`'s area test is an opaque predicate.
- TourController.GetToursWithin: whether the database runs the `$centerSphere` query is an input. The model states only that a NaN coordinate or radius (a word of lower-case letters) is refused; the bounds MongoDB puts on the centre and on the radius are not stated.
- TourController.GetDistances: whether the database runs the `$geoNear` stage is an input. The model states that a NaN coordinate is refused and that a point of two integer texts runs exactly inside ±90 and ±180; fractional coordinates are left to the input, since numeric texts are read as integers only. The status of the forwarded error stands for the error controller.
- The statistics pipelines are not modelled: `getTourStats` and `getMonthlyPlan`. The routes reach them, but their aggregation semantics are not modelled.
- The query middleware's timing log and guide population are not modelled.
- APIFeatures is not modelled. It is an opaque selection from the base query.
- The review schema is not part of this model. The review handlers are the generic ones.
- Express routing is modelled on segment lists. Case-insensitive matching, trailing slashes, HEAD requests and URL decoding are not modelled.
- Routes: only `protect` and `restrictTo` can stop a request on the way to its endpoint. Every other middleware continues.
- Routes.CreateUserAccess: `createUser`'s fixed 500 answer ("This route is not yet defined!") is not modelled beyond reaching it.
- Concurrency is not modelled. React renders between state updates, two requests racing, and the database's own ordering are not modelled. Each async handler is split at its `await`, and what happens between the two parts is not modelled.
- PhotoUpload.Uploader.HandleFileSelect: the preview's `FileReader` is taken to finish before the upload settles. If it finished after a failed upload, the preview would reappear.
- The `alert` calls are returned as messages, not shown.
- `hooks/useAuth` is not part of this model. The route guard takes the "still loading" flag as an input.
- Lengths are counted in characters. JavaScript counts UTF-16 code units, and the two differ outside the Basic Multilingual Plane.
- Tour hooks: a tour of `null` and one of `undefined` are both "no tour". A TypeError's message is engine-specific, so it is an input.
- Signup.tsx `handleInputChange` is not modelled, since the submit handler reads the form data as they are.
- Other frontend forms and pages are not part of this model.
- Strings.NumberText: only integer decimal texts, signed or not and with surrounding white space, are read. Fractions, exponents, hexadecimal, binary and octal forms and `Infinity` are treated as not a number, since floating point is not modelled.
- Store.NumberCast: inherits that limit of `NumberText`, so a fractional or exponent text is taken as a cast error. Dates, arrays and objects are not request values here.
- TourModel.CheckRequiredNumber: a number given as a fractional or exponent text is taken as a cast error. The source would accept it.
- TourModel.CheckOptionalNumber: the same limit on numeric texts as `CheckRequiredNumber`.
- TourModel.CheckRatingsAverage: the same limit on numeric texts. The rounding to tenths of a fractional rating is not modelled.
- TourModel.CheckPriceDiscount: the same limit on numeric texts. A discount that is absent and one stored as null are both `None`.
- TourModel.NewTour: the same limit on numeric texts, through the checks it runs.
- TourModel.ApplyTourUpdate: the same limit on numeric texts, through `TourUpdateValid`.
- Strings.Lower: only ASCII letters are lower-cased. JavaScript's `toLowerCase` also maps the other Unicode upper-case letters.
- Unique indexes: only the tour name (through the handler factory) and the user email are modelled.
- Error answers: the global error controller is not part of this model. The 400 given for a ValidationError, for a CastError and for a duplicate key (naming the path) stands in for what that controller sends.
- Common.IsObjectIdText: an id casts to an ObjectId when it is 24 hexadecimal digits. Older bson releases also took any 12-character text as an ObjectId; that reading is not modelled.
- HandlerFactory.GetAll: a nested `tourId` that does not cast to the type of the review's `tour` path would be a CastError; the review schema is not part of this model, so the id is compared as text.
- AuthContext.AuthProvider.InitializeAuth: takes the user that the corrected read gives. The as-written read is shown separately, by `AuthContext.GetMeKeepsWrapperAsWritten`.

## Findings

| source | as written | input that shows it | evidently intended | confidence | as-written member | corrected member |
|---|---|---|---|---|---|---|
| frontend/src/contexts/AuthContext.tsx:21 | on reload `initializeAuth` adopts `response.data` of the `getMe` answer | a reload with a stored token: `GET /users/me` answers `{ status: "success", data: { data: user } }` (backend/src/controllers/handlerFactory.ts:74-79), so the adopted "user" is `{ data: user }`, with no name and no role; the context's own test mocks `getMe` with the flat shape `{ status: "success", data: mockUser }` (frontend/src/contexts/__tests__/AuthContext.test.tsx:84-87), so the wrapper never reaches it | `setUser(response.data.data)`, matching `getMe`'s declared type `ApiResponse<{ data: User }>` (frontend/src/services/api.ts:214) | high; not executed | `AuthContext.GetMeKeepsWrapperAsWritten` | `AuthContext.GetMeUserUnwraps` |
| backend/src/models/tour.model.ts:214-218 | the aggregate hook unshifts a `$match` in front of every pipeline | `getDistances`, whose pipeline starts with `$geoNear` (backend/src/controllers/tour.controller.ts:186-203) | the match placed after a leading `$geoNear`, which MongoDB accepts only as the first stage | high; not executed | `TourModel.GeoNearPipelineRefusedAsWritten` | `TourModel.AggregateHookKeepsPipelineAccepted` |

=== FILE: account_form.dfy ===
/** The account settings form of the frontend
    (frontend/src/components/AccountForm.tsx): its two forms, their
    validation, change handlers and submit handlers. The callbacks it is
    given are not called here: each submit returns the data it hands them. */
module AccountForm {
  import opened Common
  import opened Strings
  import UserModel

  datatype UserData = UserData(name: string, email: string)
  datatype PasswordData = PasswordData(passwordCurrent: string, password: string, passwordConfirm: string)

  /** `Partial<UserData>` used as an error map: `None` is an absent key. */
  datatype UserErrors = UserErrors(name: Option<string>, email: Option<string>)
  datatype PasswordErrors = PasswordErrors(passwordCurrent: Option<string>, password: Option<string>,
                                           passwordConfirm: Option<string>)

  /** The inputs, by their `name` attribute. */
  datatype UserField = NameInput | EmailInput
  datatype PasswordField = CurrentInput | PasswordInput | ConfirmInput

  const NoUserErrors := UserErrors(None, None)
  const NoPasswordErrors := PasswordErrors(None, None, None)
  const EmptyPasswords := PasswordData("", "", "")

  /** The errors `validateUserData` finds: the name is required once
      trimmed; the email is required once trimmed and must then match
      `/\S+@\S+\.\S+/` as typed. */
  function UserDataErrors(d: UserData): (e: UserErrors)
    ensures e.name.Some? <==> AllSpace(d.name)
    ensures e.name.Some? ==> e.name.value == "Name is required"
    ensures AllSpace(d.email) ==> e.email == Some("Email is required")
    ensures !AllSpace(d.email) ==> (e.email.None? <==> EmailPatternMatches(d.email))
    ensures e.email.Some? && !AllSpace(d.email) ==> e.email.value == "Email is invalid"
  {
    TrimEmptyIffAllSpace(d.name);
    TrimEmptyIffAllSpace(d.email);
    EmailPatternCorrect(d.email);
    UserErrors(
      if Trim(d.name) == "" then Some("Name is required") else None,
      if Trim(d.email) == "" then Some("Email is required")
      else if !TestEmailPattern(d.email) then Some("Email is invalid")
      else None)
  }

  /** The errors `validatePasswordData` finds, at most one per field: the
      current password is required; the new one is required and then at
      least 8 long; the confirmation is required and then equal to it. */
  function PasswordDataErrors(d: PasswordData): (e: PasswordErrors)
    ensures e.passwordCurrent.Some? <==> d.passwordCurrent == ""
    ensures e.password.Some? <==> |d.password| < 8
    ensures e.passwordConfirm.Some? <==> d.passwordConfirm == "" || d.passwordConfirm != d.password
    ensures e.passwordCurrent.Some? ==> e.passwordCurrent.value == "Current password is required"
    ensures e.password.Some? ==>
              e.password.value == if d.password == "" then "New password is required"
                                  else "Password must be at least 8 characters"
    ensures e.passwordConfirm.Some? ==>
              e.passwordConfirm.value == if d.passwordConfirm == "" then "Password confirmation is required"
                                         else "Passwords do not match"
  {
    PasswordErrors(
      if d.passwordCurrent == "" then Some("Current password is required") else None,
      if d.password == "" then Some("New password is required")
      else if |d.password| < 8 then Some("Password must be at least 8 characters")
      else None,
      if d.passwordConfirm == "" then Some("Password confirmation is required")
      else if d.password != d.passwordConfirm then Some("Passwords do not match")
      else None)
  }

  /** The form accepts a password change exactly when a current password is
      given and the backend's own password validators would accept the new
      pair. */
  lemma PasswordFormMatchesBackend(d: PasswordData)
    ensures PasswordDataErrors(d) == NoPasswordErrors
            <==> d.passwordCurrent != "" && UserModel.PasswordFieldsValid(Some(d.password), Some(d.passwordConfirm))
  {
  }

  /** A field's error after typing in it: gone when it was a (truthy)
      message, as it was otherwise. */
  function Cleared(error: Option<string>): (r: Option<string>)
    ensures error.Some? && error.value != "" ==> r.None?
    ensures !(error.Some? && error.value != "") ==> r == error
  {
    if error.Some? && error.value != "" then None else error
  }

  class Form {
    var userData: UserData
    var passwordData: PasswordData
    var userErrors: UserErrors
    var passwordErrors: PasswordErrors

    /** The name and email start as the user's, the passwords empty, no errors. */
    constructor (name: string, email: string)
      ensures userData == UserData(name, email) && passwordData == EmptyPasswords
      ensures userErrors == NoUserErrors && passwordErrors == NoPasswordErrors
    {
      userData := UserData(name, email);
      passwordData := EmptyPasswords;
      userErrors := NoUserErrors;
      passwordErrors := NoPasswordErrors;
    }

    /** `validateUserData`: records the errors and tells whether there are none. */
    method ValidateUserData() returns (valid: bool)
      modifies this`userErrors
      ensures userErrors == UserDataErrors(userData)
      ensures valid <==> userErrors == NoUserErrors
    {
      var errors := UserDataErrors(userData);
      userErrors := errors;
      valid := errors == NoUserErrors;
    }

    /** `validatePasswordData`: records the errors and tells whether there are none. */
    method ValidatePasswordData() returns (valid: bool)
      modifies this`passwordErrors
      ensures passwordErrors == PasswordDataErrors(passwordData)
      ensures valid <==> passwordErrors == NoPasswordErrors
    {
      passwordErrors := PasswordDataErrors(passwordData);
      valid := passwordErrors.passwordCurrent.None? && passwordErrors.password.None?
               && passwordErrors.passwordConfirm.None?;
    }

    /** `handleUserDataChange`: sets the named field and clears that
        field's error only. */
    method HandleUserDataChange(field: UserField, value: string)
      modifies this`userData, this`userErrors
      ensures userData == if field == NameInput then old(userData).(name := value) else old(userData).(email := value)
      ensures userErrors == if field == NameInput then old(userErrors).(name := Cleared(old(userErrors).name))
                            else old(userErrors).(email := Cleared(old(userErrors).email))
    {
      match field
      case NameInput =>
        userData := userData.(name := value);
        if userErrors.name.Some? && userErrors.name.value != "" {
          userErrors := userErrors.(name := None);
        }
      case EmailInput =>
        userData := userData.(email := value);
        if userErrors.email.Some? && userErrors.email.value != "" {
          userErrors := userErrors.(email := None);
        }
    }

    /** `handlePasswordChange`: sets the named field and clears that
        field's error only. */
    method HandlePasswordChange(field: PasswordField, value: string)
      modifies this`passwordData, this`passwordErrors
      ensures passwordData == match field
                              case CurrentInput => old(passwordData).(passwordCurrent := value)
                              case PasswordInput => old(passwordData).(password := value)
                              case ConfirmInput => old(passwordData).(passwordConfirm := value)
      ensures passwordErrors == match field
                                case CurrentInput => old(passwordErrors).(passwordCurrent := Cleared(old(passwordErrors).passwordCurrent))
                                case PasswordInput => old(passwordErrors).(password := Cleared(old(passwordErrors).password))
                                case ConfirmInput => old(passwordErrors).(passwordConfirm := Cleared(old(passwordErrors).passwordConfirm))
    {
      match field
      case CurrentInput =>
        passwordData := passwordData.(passwordCurrent := value);
        if passwordErrors.passwordCurrent.Some? && passwordErrors.passwordCurrent.value != "" {
          passwordErrors := passwordErrors.(passwordCurrent := None);
        }
      case PasswordInput =>
        passwordData := passwordData.(password := value);
        if passwordErrors.password.Some? && passwordErrors.password.value != "" {
          passwordErrors := passwordErrors.(password := None);
        }
      case ConfirmInput =>
        passwordData := passwordData.(passwordConfirm := value);
        if passwordErrors.passwordConfirm.Some? && passwordErrors.passwordConfirm.value != "" {
          passwordErrors := passwordErrors.(passwordConfirm := None);
        }
    }

    /** `handleUserDataSubmit`: the current name and email go to
        `onUpdateUserData` exactly when they pass validation. */
    method HandleUserDataSubmit() returns (sent: Option<UserData>)
      modifies this`userErrors
      ensures userErrors == UserDataErrors(userData)
      ensures sent.Some? <==> UserDataErrors(userData) == NoUserErrors
      ensures sent.Some? ==> sent.value == userData
    {
      var valid := ValidateUserData();
      sent := if valid then Some(userData) else None;
    }

    /** `handlePasswordSubmit`: the passwords go to `onUpdatePassword`
        exactly when they pass validation, and then the three fields are
        emptied; a rejected submit leaves them as typed. */
    method HandlePasswordSubmit() returns (sent: Option<PasswordData>)
      modifies this`passwordData, this`passwordErrors
      ensures passwordErrors == PasswordDataErrors(old(passwordData))
      ensures sent.Some? <==> PasswordDataErrors(old(passwordData)) == NoPasswordErrors
      ensures sent.Some? ==> sent.value == old(passwordData) && passwordData == EmptyPasswords
      ensures sent.None? ==> passwordData == old(passwordData)
    {
      var valid := ValidatePasswordData();
      if valid {
        sent := Some(passwordData);
        passwordData := EmptyPasswords;
      } else {
        sent := None;
      }
    }
  }
}

=== FILE: api_service.dfy ===
/** The frontend's API client (frontend/src/services/api.ts): the headers it
    sends, how it turns a response into a value or an error, the session
    token in `localStorage`, and the requests that upload a photo, book a
    tour and write a review. `fetch` itself is not modelled: a response is
    an input. Request URLs are their path segments under the server root
    (`API_BASE_URL` at its default, http://localhost:3000/api/v1). */
module ApiService {
  import opened Common
  import opened Js
  import Auth = AuthController
  import Routes

  /** The browser's `localStorage`. */
  class LocalStorage {
    var items: map<string, string>

    constructor (items: map<string, string>)
      ensures this.items == items
    {
      this.items := items;
    }

    /** `localStorage.getItem(key)`; `None` is `null`. */
    function GetItem(key: string): (r: Option<string>)
      reads this
      ensures r.Some? <==> key in items
      ensures r.Some? ==> r.value == items[key]
    {
      if key in items then Some(items[key]) else None
    }

    /** `localStorage.setItem(key, value)`. */
    method SetItem(key: string, value: string)
      modifies this
      ensures items == old(items)[key := value]
    {
      items := items[key := value];
    }
  }

  /** The `User` the API answers with (`_id`, name, email, optional photo,
      role; the timestamps are not modelled). */
  datatype Profile = Profile(id: string, name: string, email: string, photo: Option<string>, role: string)

  type Headers = map<string, string>

  const BasePath: seq<string> := ["api", "v1"]

  /** A request as `fetch` is given it. */
  datatype HttpRequest = HttpRequest(verb: Routes.Method, path: seq<string>, headers: Headers, body: RequestBody)
  datatype RequestBody = JsonBody(value: Json) | PhotoForm

  /** `getAuthHeaders`: always the JSON content type; the Authorization
      header exactly when a truthy token is stored, carrying that token. */
  function GetAuthHeaders(storage: LocalStorage): (h: Headers)
    reads storage
    ensures "Content-Type" in h && h["Content-Type"] == "application/json"
    ensures "Authorization" in h <==> "token" in storage.items && storage.items["token"] != ""
    ensures "Authorization" in h ==> h["Authorization"] == "Bearer " + storage.items["token"]
    ensures h.Keys <= {"Content-Type", "Authorization"}
  {
    var token := storage.GetItem("token");
    var json := map["Content-Type" := "application/json"];
    if token.Some? && token.value != "" then json["Authorization" := "Bearer " + token.value] else json
  }

  /** A stored token without spaces reaches `protect` intact: the header
      the client builds is read back as exactly that token. */
  lemma AuthHeaderRoundTrip(storage: LocalStorage)
    requires "token" in storage.items && storage.items["token"] != "" && ' ' !in storage.items["token"]
    ensures Auth.BearerToken(Some(GetAuthHeaders(storage)["Authorization"])) == Some(storage.items["token"])
  {
    Auth.BearerHeaderRoundTrip(storage.items["token"]);
  }

  /** A response: `ok`, `statusText`, and its body as `response.json()`
      parses it (`None` when that throws). */
  datatype HttpResponse = HttpResponse(ok: bool, statusText: string, body: Option<Json>)

  /** What an async call rejects with: an `Error` with its message, or some
      other thrown value. */
  datatype Thrown = Error(message: string) | NonError
  datatype Fetched<+T> = Resolved(value: T) | Rejected(thrown: Thrown)

  /** `err instanceof Error ? err.message : fallback`. */
  function ErrorText(thrown: Thrown, fallback: string): (text: string)
    ensures thrown.Error? ==> text == thrown.message
    ensures thrown.NonError? ==> text == fallback
  {
    if thrown.Error? then thrown.message else fallback
  }

  const RequestFailed := "Request failed"

  /** `handleResponse`: an ok response resolves to its parsed body (and
      rejects with the parser's error when there is none); otherwise the
      error message is the body's truthy `message` (converted by `str`, the
      runtime's `String`, when it is not a string), else "Request failed";
      a body that cannot be read (not JSON, or `null`) gives the status
      text instead, else "Request failed". */
  function HandleResponse(r: HttpResponse, parseError: Thrown, str: Json -> string): (f: Fetched<Json>)
    ensures r.ok && r.body.Some? ==> f == Resolved(r.body.value)
    ensures r.ok && r.body.None? ==> f == Rejected(parseError)
    ensures !r.ok ==> f.Rejected? && f.thrown.Error?
    ensures !r.ok && r.body.Some? && !r.body.value.JNull? ==>
              var message := Get(r.body.value, "message");
              f.thrown.message == (if !IsTruthy(message) then RequestFailed
                                   else if message.value.JStr? then message.value.s
                                   else str(message.value))
    ensures !r.ok && (r.body.None? || r.body.value.JNull?) ==>
              f.thrown.message == (if r.statusText != "" then r.statusText else RequestFailed)
  {
    if r.ok then
      if r.body.Some? then Resolved(r.body.value) else Rejected(parseError)
    else
      var message :=
        if r.body.None? || r.body.value.JNull? then (if r.statusText != "" then r.statusText else RequestFailed)
        else
          var m := Get(r.body.value, "message");
          if !IsTruthy(m) then RequestFailed else if m.value.JStr? then m.value.s else str(m.value);
      Rejected(Error(message))
  }

  /** The error an API failure shows: the backend's own message whenever it
      sent one as a non-empty string, whatever the status text. */
  lemma BackendMessageWins(r: HttpResponse, parseError: Thrown, str: Json -> string, message: string)
    requires !r.ok && r.body == Some(JObj(map["status" := JStr("fail"), "message" := JStr(message)]))
    requires message != ""
    ensures HandleResponse(r, parseError, str) == Rejected(Error(message))
  {
  }

  /** `isAuthenticated`: a non-empty token is stored. */
  function IsAuthenticated(storage: LocalStorage): (b: bool)
    reads storage
    ensures b <==> "token" in storage.items && storage.items["token"] != ""
  {
    var token := storage.GetItem("token");
    token.Some? && token.value != ""
  }

  /** `logout`: exactly the "token" and "user" keys go. */
  method Logout(storage: LocalStorage)
    modifies storage
    ensures storage.items == old(storage.items) - {"token", "user"}
    ensures !IsAuthenticated(storage)
  {
    storage.items := storage.items - {"token"};
    storage.items := storage.items - {"user"};
  }

  /** `uploadPhoto`: PATCH /users/updateMe with the photo form and only an
      Authorization header, built from whatever `getItem` returns, `null`
      included. */
  function UploadPhotoRequest(storage: LocalStorage): (req: HttpRequest)
    reads storage
    ensures req.verb == Routes.PATCH && req.path == BasePath + ["users", "updateMe"] && req.body == PhotoForm
    ensures req.headers.Keys == {"Authorization"}
    ensures "token" in storage.items ==> req.headers["Authorization"] == "Bearer " + storage.items["token"]
  {
    var token := storage.GetItem("token");
    var shown := if token.Some? then token.value else "null";
    HttpRequest(Routes.PATCH, BasePath + ["users", "updateMe"], map["Authorization" := "Bearer " + shown], PhotoForm)
  }

  /** With no token stored, the upload still sends a Bearer header, and
      `protect` reads the four letters "null" as the token. */
  lemma UploadWithoutTokenSendsNull(storage: LocalStorage)
    requires "token" !in storage.items
    ensures UploadPhotoRequest(storage).headers["Authorization"] == "Bearer null"
    ensures Auth.BearerToken(Some(UploadPhotoRequest(storage).headers["Authorization"])) == Some("null")
  {
    Auth.BearerHeaderRoundTrip("null");
  }

  /** `createBooking`: POST /bookings with the auth headers and the body
      `{ tour: tourId, ...bookingData }`, in which a `tour` key of the
      booking data overrides the argument. */
  function CreateBookingRequest(storage: LocalStorage, tourId: string, bookingData: map<string, Json>): (req: HttpRequest)
    reads storage
    ensures req.verb == Routes.POST && req.path == BasePath + ["bookings"] && req.headers == GetAuthHeaders(storage)
    ensures req.body.JsonBody? && req.body.value.JObj?
    ensures req.body.value.fields.Keys == bookingData.Keys + {"tour"}
    ensures req.body.value.fields["tour"] == if "tour" in bookingData then bookingData["tour"] else JStr(tourId)
    ensures forall k | k in bookingData :: req.body.value.fields[k] == bookingData[k]
  {
    HttpRequest(Routes.POST, BasePath + ["bookings"], GetAuthHeaders(storage),
                JsonBody(JObj(map["tour" := JStr(tourId)] + bookingData)))
  }

  /** The backend mounts no bookings router, so every booking request ends
      in Express's 404, whoever sends it. */
  lemma BookingsNotMounted(storage: LocalStorage, tourId: string, bookingData: map<string, Json>,
                           auth: Auth.AuthResult)
    ensures var req := CreateBookingRequest(storage, tourId, bookingData);
            Routes.Dispatch(Routes.App, req.verb, req.path, auth).NoRoute?
  {
    var path := BasePath + ["bookings"];
    forall k | 0 <= k < 3 ensures Routes.Passes(Routes.App.layers[k], Routes.POST, path) {
      assert k in {0, 1, 2};
    }
    Routes.PassMany(Routes.App, 0, 3, Routes.POST, path, map[], Routes.Start, auth);
  }

  /** `createReview`: POST /tours/:tourId/reviews with the auth headers and
      the review data as body. */
  function CreateReviewRequest(storage: LocalStorage, tourId: string, reviewData: Json): (req: HttpRequest)
    reads storage
    ensures req.verb == Routes.POST && req.path == BasePath + ["tours", tourId, "reviews"]
    ensures req.headers == GetAuthHeaders(storage) && req.body == JsonBody(reviewData)
  {
    HttpRequest(Routes.POST, BasePath + ["tours", tourId, "reviews"], GetAuthHeaders(storage), JsonBody(reviewData))
  }

  /** The review request reaches the review router's `createOne` through
      the nested mount, for a caller with role user, with the tour id among
      the route params. */
  lemma CreateReviewReachesNestedRoute(storage: LocalStorage, tourId: string, reviewData: Json, auth: Auth.AuthResult)
    requires tourId != ""
    ensures var req := CreateReviewRequest(storage, tourId, reviewData);
            var o := Routes.Dispatch(Routes.App, req.verb, req.path, auth);
            && Routes.Decides(o, Routes.Factory(Routes.Reviews, Routes.CreateOneOp), Routes.Guard(auth, [User]))
            && (o.Reached? ==> "tourId" in o.params && o.params["tourId"] == tourId)
  {
    Routes.AppToursMount(Routes.POST, [tourId, "reviews"], auth);
    assert BasePath + ["tours", tourId, "reviews"] == ["api", "v1", "tours"] + [tourId, "reviews"];
    Routes.NestedReviewCreateSeesTourId(tourId, auth);
  }
}

=== FILE: auth_context.dfy ===
/** The session state of the frontend (frontend/src/contexts/AuthContext.tsx):
    the logged-in user, whether the stored session is still being checked,
    and the token in `localStorage`. Each API call is an input: the value it
    resolves to (the part of the response the provider reads) or what it
    rejects with. */
module AuthContext {
  import opened Common
  import opened ApiService
  import opened Js

  /** The body of `getOne`'s answer, which `GET /users/me` sends:
      `{ status: "success", data: { data: doc } }`. */
  function GetOneAnswer(doc: Json): (body: Json)
    ensures Get(body, "status") == Some(JStr("success"))
    ensures OptGet(Get(body, "data"), "data") == Some(doc)
  {
    JObj(map["status" := JStr("success"), "data" := JObj(map["data" := doc])])
  }

  /** `setUser(response.data)` as `initializeAuth` writes it: the value the
      provider adopts from the `getMe` answer. */
  function GetMeUserAsWritten(response: Json): Access {
    Member(Some(response), "data")
  }

  /** The read `initializeAuth` evidently intends, `response.data.data`. */
  function GetMeUser(response: Json): Access {
    Then(Member(Some(response), "data"), "data")
  }

  /** As written, a reload adopts the wrapper `{ data: user }` rather than
      the user: it is not the document, and it has no name and no role. */
  lemma GetMeKeepsWrapperAsWritten(doc: Json)
    ensures GetMeUserAsWritten(GetOneAnswer(doc)) == Read(Some(JObj(map["data" := doc])))
    ensures GetMeUserAsWritten(GetOneAnswer(doc)) != Read(Some(doc))
    ensures Get(JObj(map["data" := doc]), "name").None? && Get(JObj(map["data" := doc]), "role").None?
  {
    var wrapper := JObj(map["data" := doc]);
    assert wrapper.fields["data"] == doc;
    assert doc < wrapper;
  }

  /** The corrected read adopts exactly the document `getOne` sent. */
  lemma GetMeUserUnwraps(doc: Json)
    ensures GetMeUser(GetOneAnswer(doc)) == Read(Some(doc))
  {
  }

  /** `{ token, data: { user } }` of a login or signup answer. */
  datatype Session = Session(token: string, user: Profile)

  class AuthProvider {
    var user: Option<Profile>
    var loading: bool
    const storage: LocalStorage

    /** On mount: no user, and loading until the stored session is checked. */
    constructor (storage: LocalStorage)
      ensures user.None? && loading && this.storage == storage
    {
      user := None;
      loading := true;
      this.storage := storage;
    }

    /** `initializeAuth`: `getMe` is asked only when a non-empty token is
        stored; its user is adopted, and a failure logs out; loading ends on
        every path. `me` is the profile the corrected read `GetMeUser`
        yields; as written the provider adopts the wrapper instead
        (`GetMeKeepsWrapperAsWritten`). */
    method InitializeAuth(me: Fetched<Profile>) returns (askedMe: bool)
      modifies this, storage
      ensures askedMe <==> old(IsAuthenticated(storage))
      ensures !loading
      ensures !askedMe ==> user == old(user) && storage.items == old(storage.items)
      ensures askedMe && me.Resolved? ==> user == Some(me.value) && storage.items == old(storage.items)
      ensures askedMe && me.Rejected? ==> user == old(user) && storage.items == old(storage.items) - {"token", "user"}
    {
      var token := storage.GetItem("token");
      askedMe := token.Some? && token.value != "" && IsAuthenticated(storage);
      if askedMe {
        match me
        case Resolved(u) => user := Some(u);
        case Rejected(_) => ApiService.Logout(storage);
      }
      loading := false;
    }

    /** `login`: on success the token is stored and the user adopted; a
        rejected call changes nothing and is passed on. */
    method Login(response: Fetched<Session>) returns (thrown: Option<Thrown>)
      modifies this, storage
      ensures response.Resolved? ==>
                && thrown.None?
                && storage.items == old(storage.items)["token" := response.value.token]
                && user == Some(response.value.user)
      ensures response.Rejected? ==>
                thrown == Some(response.thrown) && storage.items == old(storage.items) && user == old(user)
      ensures loading == old(loading)
    {
      match response
      case Rejected(t) => return Some(t);
      case Resolved(session) =>
        storage.SetItem("token", session.token);
        user := Some(session.user);
        thrown := None;
    }

    /** `signup`: the same effect on the stored token and the user as `login`. */
    method Signup(response: Fetched<Session>) returns (thrown: Option<Thrown>)
      modifies this, storage
      ensures response.Resolved? ==>
                && thrown.None?
                && storage.items == old(storage.items)["token" := response.value.token]
                && user == Some(response.value.user)
      ensures response.Rejected? ==>
                thrown == Some(response.thrown) && storage.items == old(storage.items) && user == old(user)
      ensures loading == old(loading)
    {
      match response
      case Rejected(t) => return Some(t);
      case Resolved(session) =>
        storage.SetItem("token", session.token);
        user := Some(session.user);
        thrown := None;
    }

    /** `logout`: the session keys go and nobody is logged in. */
    method Logout()
      modifies this, storage
      ensures user.None? && loading == old(loading)
      ensures storage.items == old(storage.items) - {"token", "user"}
      ensures !IsAuthenticated(storage)
    {
      ApiService.Logout(storage);
      user := None;
    }

    /** `updateUser`, `updatePassword` and `uploadPhoto` end alike: the user
        of the answer replaces the current one, a rejected call leaves it and
        is passed on, and the stored token is not touched. */
    method AdoptUpdatedUser(response: Fetched<Profile>) returns (thrown: Option<Thrown>)
      modifies this
      ensures response.Resolved? ==> thrown.None? && user == Some(response.value)
      ensures response.Rejected? ==> thrown == Some(response.thrown) && user == old(user)
      ensures loading == old(loading)
    {
      match response
      case Rejected(t) => return Some(t);
      case Resolved(u) =>
        user := Some(u);
        thrown := None;
    }
  }

  /** A full session: after a successful login the provider holds the user
      and the client sends the new token; logging out ends both. */
  method LoginThenLogout(storage: LocalStorage, session: Session)
    returns (loggedIn: Option<Profile>, authenticatedBetween: bool, authenticatedAfter: bool)
    modifies storage
    ensures loggedIn == Some(session.user)
    ensures authenticatedBetween <==> session.token != ""
    ensures !authenticatedAfter
  {
    var provider := new AuthProvider(storage);
    var thrown := provider.Login(Resolved(session));
    loggedIn := provider.user;
    authenticatedBetween := IsAuthenticated(storage);
    provider.Logout();
    authenticatedAfter := IsAuthenticated(storage);
  }
}

=== FILE: auth_controller.dfy ===
/** The authentication controller (backend/dist/controllers/auth.controller.js):
    issuing tokens, login and signup, the `protect` and `restrictTo`
    middleware, and the three password flows. jsonwebtoken is a `Jwt` value
    of uninterpreted functions; time is a parameter in milliseconds. */
module AuthController {
  import opened Common
  import opened Strings
  import opened Store
  import opened UserModel
  import opened Express

  /** The claims `jwt.verify` decodes: the user id and `iat` in seconds. */
  datatype Claims = Claims(id: Id, iat: int)

  /** What `jwt.verify` does with a token: decode it, return a falsy value,
      or throw (bad signature, expired, malformed). */
  datatype Verification = Decoded(claims: Claims) | Falsy | Threw

  /** `signToken(id)` issued at a given moment, and `jwt.verify`, both with
      the server's secret. */
  datatype Jwt = Jwt(sign: (Id, nat) -> string, verify: string -> Verification)

  /** `JWT_COOKIE_EXPIRES_IN` (days, after `parseInt`) and whether
      `NODE_ENV` is "production". */
  datatype Env = Env(cookieExpiresInDays: int, production: bool)

  const DayMs: nat := 86400000

  datatype Cookie = Cookie(name: string, value: string, expires: int, httpOnly: bool, secure: bool)

  /** The cookie and the JSON body `createSendToken` sends. */
  datatype TokenPayload = TokenPayload(token: string, cookie: Cookie, user: UserRecord)

  const NotLoggedIn := AppError(401, "You are not logged in! Please log in to get access.")
  const InvalidToken := AppError(401, "Invalid token")
  const UserGone := AppError(401, "The user belonging to this token does no longer exist.")
  const PasswordChanged := AppError(401, "User recently changed password! Please log in again.")
  const Forbidden := AppError(403, "You do not have permission to perform this action")
  const MissingCredentials := AppError(400, "Please provide email and password!")
  const BadCredentials := AppError(401, "Incorrect email or password")
  const NoSuchEmail := AppError(404, "There is no user with email address.")
  const EmailFailed := AppError(500, "There was an error sending the email. Try again later!")
  const BadResetToken := AppError(400, "Token is invalid or has expired")

  /** `createSendToken`: a token for the user, in an httpOnly cookie that is
      secure only in production and expires the configured number of days
      from now, and the user without the password in the body. */
  function CreateSendToken(jwt: Jwt, env: Env, id: Id, user: UserRecord, now: nat): (r: TokenPayload)
    ensures r.token == jwt.sign(id, now)
    ensures r.cookie.name == "jwt" && r.cookie.value == r.token
    ensures r.cookie.expires == now + env.cookieExpiresInDays * DayMs
    ensures r.cookie.httpOnly && (r.cookie.secure <==> env.production)
    ensures r.user.password.None? && r.user.(password := user.password) == user
  {
    var token := jwt.sign(id, now);
    var cookie := Cookie("jwt", token, now + env.cookieExpiresInDays * 24 * 60 * 60 * 1000, true, env.production);
    TokenPayload(token, cookie, user.(password := None))
  }

  // ---- protect ----

  /** Step 1 of `protect`: the token is the second space-separated piece of
      an Authorization header that starts with "Bearer"; a missing or empty
      piece gives no token. */
  function BearerToken(authorization: Option<string>): (token: Option<string>)
    ensures token.Some? ==> authorization.Some? && StartsWith(authorization.value, "Bearer")
    ensures token.Some? ==> token.value != "" && ' ' !in token.value
  {
    if authorization.Some? && StartsWith(authorization.value, "Bearer") then
      var pieces := Split(authorization.value, ' ');
      if |pieces| >= 2 && pieces[1] != "" then Some(pieces[1]) else None
    else None
  }

  /** The parsing is loose: the scheme word may run on past "Bearer" and
      anything after a further space is ignored; the piece after the first
      space is the token. */
  lemma BearerTokenIsSecondPiece(scheme: string, token: string, tail: string)
    requires StartsWith(scheme, "Bearer") && ' ' !in scheme
    requires token != "" && ' ' !in token
    requires tail == [] || tail[0] == ' '
    ensures BearerToken(Some(scheme + " " + token + tail)) == Some(token)
  {
    var header := scheme + " " + token + tail;
    assert header == scheme + [' '] + (token + tail);
    assert header[..|"Bearer"|] == scheme[..|"Bearer"|];
    SplitAtFirst(scheme, token + tail, ' ');
    if tail == [] {
      assert token + tail == token;
      SplitWithoutSeparator(token, ' ');
    } else {
      assert token + tail == token + [' '] + tail[1..];
      SplitAtFirst(token, tail[1..], ' ');
    }
  }

  /** The header the frontend builds gives the token back. */
  lemma BearerHeaderRoundTrip(token: string)
    requires token != "" && ' ' !in token
    ensures BearerToken(Some("Bearer " + token)) == Some(token)
  {
    BearerTokenIsSecondPiece("Bearer", token, "");
    assert "Bearer" + " " + token + "" == "Bearer " + token;
  }

  /** Without the "Bearer" prefix nothing is read, whatever follows. */
  lemma NoBearerNoToken(authorization: string)
    requires !StartsWith(authorization, "Bearer")
    ensures BearerToken(Some(authorization)) == None
  {
  }

  /** The outcome of `protect`: the user it puts on the request, or its 401. */
  datatype AuthResult = Granted(id: Id, user: UserRecord) | Refused(error: AppError)

  /** The decision `protect` takes, in its order: token present, token
      verified, user still there (and active), password not changed after
      the token was issued. */
  function Authenticate(authorization: Option<string>, records: map<Id, UserRecord>, verify: string -> Verification): (r: AuthResult)
    ensures r.Refused? ==> r.error.statusCode == 401
    ensures BearerToken(authorization).None? ==> r == Refused(NotLoggedIn)
    ensures r.Granted? ==> r.id in records && r.user == records[r.id] && r.user.active
    ensures r.Granted? <==>
              && BearerToken(authorization).Some?
              && verify(BearerToken(authorization).value).Decoded?
              && var c := verify(BearerToken(authorization).value).claims;
                 c.id in records && records[c.id].active
                 && !ChangedPasswordAfter(records[c.id].passwordChangedAt, c.iat)
  {
    match BearerToken(authorization)
    case None => Refused(NotLoggedIn)
    case Some(token) =>
      match verify(token)
      case Falsy => Refused(InvalidToken)
      case Threw => Refused(InvalidToken)
      case Decoded(claims) =>
        if claims.id !in records || !FindFilter(records[claims.id]) then Refused(UserGone)
        else if ChangedPasswordAfter(records[claims.id].passwordChangedAt, claims.iat) then Refused(PasswordChanged)
        else Granted(claims.id, records[claims.id])
  }

  /** A token issued in a second that ended before the last password change
      is refused. */
  lemma TokenBeforePasswordChangeRefused(authorization: Option<string>, records: map<Id, UserRecord>,
                                         verify: string -> Verification, id: Id, iat: int, changedAt: int)
    requires BearerToken(authorization).Some?
    requires verify(BearerToken(authorization).value) == Decoded(Claims(id, iat))
    requires id in records && records[id].passwordChangedAt == Some(changedAt) && changedAt >= 0
    requires (iat + 1) * 1000 <= changedAt
    ensures Authenticate(authorization, records, verify).Refused?
  {
    ChangedAfterIffIssuedBefore(changedAt, iat);
  }

  /** A token freshly issued for an active user, sent in the header the
      frontend builds, is accepted, provided its password last changed in a
      save that happened no later than the token was issued (and JWT
      verification gives back what signing put in). */
  lemma IssuedTokenGrantsAccess(jwt: Jwt, records: map<Id, UserRecord>, id: Id, now: nat, savedAt: nat)
    requires id in records && records[id].active
    requires jwt.sign(id, now) != "" && ' ' !in jwt.sign(id, now)
    requires jwt.verify(jwt.sign(id, now)) == Decoded(Claims(id, now / 1000))
    requires records[id].passwordChangedAt.None? || (records[id].passwordChangedAt == Some(savedAt - 1000) && savedAt <= now)
    ensures Authenticate(Some("Bearer " + jwt.sign(id, now)), records, jwt.verify) == Granted(id, records[id])
  {
    BearerHeaderRoundTrip(jwt.sign(id, now));
    if records[id].passwordChangedAt.Some? {
      TokenIssuedAfterSaveAccepted(savedAt, now);
    }
  }

  /** `protect`: on success `req.user` is set and `next()` is called; every
      failure is a 401 and leaves `req.user` alone. */
  method Protect(req: Request, users: Model<UserRecord>, jwt: Jwt) returns (next: Next)
    requires IsUserModel(users)
    modifies req`user
    ensures match Authenticate(req.authorization, users.records, jwt.verify)
            case Granted(id, u) => next == Continue && req.user == Some(LoggedIn(id, u))
            case Refused(e) => next == Abort(e) && req.user == old(req.user)
  {
    var token := BearerToken(req.authorization);
    if token.None? {
      return Abort(NotLoggedIn);
    }
    var decoded := jwt.verify(token.value);
    if !decoded.Decoded? {
      return Abort(InvalidToken);
    }
    var currentUser := users.FindById(decoded.claims.id);
    if currentUser.None? {
      return Abort(UserGone);
    }
    if ChangedPasswordAfter(currentUser.value.passwordChangedAt, decoded.claims.iat) {
      return Abort(PasswordChanged);
    }
    req.user := Some(LoggedIn(decoded.claims.id, currentUser.value));
    next := Continue;
  }

  /** `restrictTo(...roles)`: passes exactly when a user is on the request and
      its role is listed; otherwise 403. */
  function RestrictTo(roles: seq<Role>, user: Option<LoggedIn>): (next: Next)
    ensures next == Continue <==> user.Some? && user.value.user.role in roles
    ensures next.Abort? ==> next.error.statusCode == 403
  {
    if user.None? || user.value.user.role !in roles then Abort(Forbidden) else Continue
  }

  // ---- login and signup ----

  predicate Present(s: Option<string>) {
    s.Some? && s.value != ""
  }

  /** `login`: 400 without email or password; the same 401 for an unknown
      email and for a wrong password; otherwise a token for the user found.
      The query filter goes through the `lowercase` setter, so the email
      matches whatever its case. */
  method Login(users: Model<UserRecord>, email: Option<string>, password: Option<string>,
               crypto: Crypto, jwt: Jwt, env: Env, now: nat) returns (reply: Reply<TokenPayload>)
    requires IsUserModel(users)
    ensures !Present(email) || !Present(password) ==> reply == Failed(MissingCredentials)
    ensures reply.Failed? ==> reply.error in {MissingCredentials, BadCredentials}
    ensures reply.Sent? ==> reply.statusCode == 200
    ensures reply.Sent? ==>
              exists id :: id in users.records && users.records[id].active
                           && users.records[id].email == Lower(email.value)
                           && CorrectPassword(crypto, password.value, users.records[id].password)
                           && reply.payload == CreateSendToken(jwt, env, id, users.records[id], now)
    ensures Present(email) && Present(password)
            && (forall id :: id in users.records && users.records[id].active && users.records[id].email == Lower(email.value)
                             ==> !CorrectPassword(crypto, password.value, users.records[id].password))
            ==> reply == Failed(BadCredentials)
    ensures Present(email) && Present(password)
            && (exists id :: id in users.records && users.records[id].active && users.records[id].email == Lower(email.value))
            && (forall id :: id in users.records && users.records[id].active && users.records[id].email == Lower(email.value)
                             ==> CorrectPassword(crypto, password.value, users.records[id].password))
            ==> reply.Sent?
  {
    if !Present(email) || !Present(password) {
      return Failed(MissingCredentials);
    }
    var found := users.FindOne((u: UserRecord) => u.email == Lower(email.value));
    if found.None? || !CorrectPassword(crypto, password.value, users.records[found.value].password) {
      return Failed(BadCredentials);
    }
    var id := found.value;
    reply := Sent(200, CreateSendToken(jwt, env, id, users.records[id], now));
  }

  /** The schema validators for the fields `signup` passes besides the
      password ones: name required, email required and valid once lowered. */
  predicate NameEmailValid(name: Option<string>, email: Option<string>, isEmail: string -> bool) {
    Present(name) && Present(email) && isEmail(Lower(email.value))
  }

  /** `signup`: `User.create` with only name, email, password and
      passwordConfirm, so the new user always gets the default photo, role
      "user" and active; the email is stored lower-cased, the password
      hashed and the confirmation dropped. */
  method Signup(users: Model<UserRecord>, newId: Id, name: Option<string>, email: Option<string>,
                password: Option<string>, passwordConfirm: Option<string>, isEmail: string -> bool,
                crypto: Crypto, jwt: Jwt, env: Env, now: nat) returns (reply: Reply<TokenPayload>)
    requires IsUserModel(users) && newId !in users.records
    modifies users
    ensures !NameEmailValid(name, email, isEmail) || !PasswordFieldsValid(password, passwordConfirm)
            ==> reply.FailedWith(400) && users.records == old(users.records)
    ensures reply.Sent? <==> NameEmailValid(name, email, isEmail) && PasswordFieldsValid(password, passwordConfirm)
                             && !EmailTaken(old(users.records), Lower(email.value), None)
    ensures reply.Failed? ==> reply.error.statusCode == 400 && users.records == old(users.records)
    ensures EmailsLowercase(old(users.records)) ==> EmailsLowercase(users.records)
    ensures reply.Sent? ==>
              var stored := UserRecord(name.value, Lower(email.value), DefaultPhoto, User,
                                       Some(crypto.bcryptHash(password.value)), None, None, None, None, true);
              && users.records == old(users.records)[newId := stored]
              && reply == Sent(201, CreateSendToken(jwt, env, newId, stored, now))
  {
    if !NameEmailValid(name, email, isEmail) || !PasswordFieldsValid(password, passwordConfirm) {
      return Failed(ValidationError("User validation failed"));
    }
    if EmailTaken(users.records, Lower(email.value), None) {
      return Failed(DuplicateEmail);
    }
    var doc := new UserDocument.Create(newId, name.value, email.value, password, passwordConfirm);
    var err := doc.Save(users, true, crypto, now);
    assert err.None?;
    LowerIdempotent(email.value);
    reply := Sent(201, CreateSendToken(jwt, env, newId, doc.Record(), now));
  }

  /** Whoever signs up can log in straight away with the same password and
      the email written in any case, given that bcrypt accepts a password
      against its own hash. */
  method SignupThenLogin(users: Model<UserRecord>, newId: Id, name: Option<string>, email: string,
                         password: string, isEmail: string -> bool, loginEmail: string,
                         crypto: Crypto, jwt: Jwt, env: Env, now: nat)
    returns (signedUp: Reply<TokenPayload>, loggedIn: Reply<TokenPayload>)
    requires IsUserModel(users) && newId !in users.records
    requires Lower(loginEmail) == Lower(email)
    requires crypto.bcryptHash(password) != "" && crypto.bcryptCompare(password, crypto.bcryptHash(password))
    modifies users
    ensures signedUp.Sent? ==> loggedIn.Sent?
  {
    signedUp := Signup(users, newId, name, Some(email), Some(password), Some(password), isEmail, crypto, jwt, env, now);
    loggedIn := Login(users, Some(loginEmail), Some(password), crypto, jwt, env, now);
    if signedUp.Sent? {
      assert users.records[newId].email == Lower(loginEmail);
      forall id | id in users.records && users.records[id].active && users.records[id].email == Lower(loginEmail)
        ensures CorrectPassword(crypto, password, users.records[id].password)
      {
        assert id == newId;
      }
    }
  }

  // ---- the password flows ----

  /** The conditions `resetPassword` queries with. */
  predicate ResetMatches(u: UserRecord, hashedToken: string, now: nat) {
    u.passwordResetToken == Some(hashedToken) && u.passwordResetExpires.Some? && u.passwordResetExpires.value > now
  }

  /** `forgotPassword`: 404 for an unknown email (matched lower-cased, as
      in `login`); otherwise the digest of a
      fresh token and its expiry are saved (without validation) and the raw
      token is mailed. If mailing fails, both fields are cleared again and
      the answer is 500. */
  method ForgotPassword(users: Model<UserRecord>, email: string, randomHex: string, mailSucceeds: bool,
                        crypto: Crypto, now: nat) returns (reply: Reply<string>, mailed: Option<string>)
    requires IsUserModel(users)
    modifies users
    ensures reply == Failed(NoSuchEmail) <==>
              forall id :: id in old(users.records) ==> !(old(users.records)[id].active && old(users.records)[id].email == Lower(email))
    ensures reply == Failed(NoSuchEmail) ==> users.records == old(users.records) && mailed.None?
    ensures reply != Failed(NoSuchEmail) ==>
              mailed == Some(randomHex)
              && exists id :: id in old(users.records) && old(users.records)[id].active && old(users.records)[id].email == Lower(email)
                   && if mailSucceeds then
                        reply == Sent(200, "Token sent to email!")
                        && users.records == old(users.records)[id := old(users.records)[id].(
                             passwordResetToken := Some(crypto.sha256(randomHex)),
                             passwordResetExpires := Some(now + ResetTokenLifetime))]
                      else
                        reply == Failed(EmailFailed)
                        && users.records == old(users.records)[id := old(users.records)[id].(
                             passwordResetToken := None, passwordResetExpires := None)]
  {
    var found := users.FindOne((u: UserRecord) => u.email == Lower(email));
    if found.None? {
      return Failed(NoSuchEmail), None;
    }
    var id := found.value;
    // The password is not selected either, but it is not modified, so the
    // save leaves the stored one alone: the full record stands for that.
    var doc := new UserDocument.Hydrate(id, users.records[id]);
    var resetToken := doc.CreatePasswordResetToken(randomHex, crypto, now);
    var _ := doc.Save(users, false, crypto, now);
    mailed := Some(resetToken);
    if mailSucceeds {
      reply := Sent(200, "Token sent to email!");
    } else {
      doc.ClearResetToken();
      var _ := doc.Save(users, false, crypto, now);
      reply := Failed(EmailFailed);
    }
  }

  /** The stored record after `user.password = p; user.passwordConfirm = p`
      and a validated save: a new password is hashed, the confirmation
      dropped and the change recorded one second in the past. Mongoose only
      marks the path modified when the value differs, so a `p` equal to the
      stored hash is written back as it is, hooks skipped. */
  function PasswordSet(u: UserRecord, p: string, crypto: Crypto, now: nat): (r: UserRecord)
    ensures u.password != Some(p) ==>
              && r.password == Some(crypto.bcryptHash(p)) && r.passwordConfirm.None?
              && r.passwordChangedAt == Some(now - 1000)
    ensures u.password == Some(p) ==> r == u.(passwordConfirm := Some(p))
    ensures r.(password := u.password, passwordConfirm := u.passwordConfirm, passwordChangedAt := u.passwordChangedAt) == u
  {
    if u.password == Some(p) then u.(passwordConfirm := Some(p))
    else u.(password := Some(crypto.bcryptHash(p)), passwordConfirm := None, passwordChangedAt := Some(now - 1000))
  }

  /** `resetPassword`: only a user whose stored digest equals the digest of
      the token in the URL and whose expiry is still ahead can reset; on
      success the password is replaced and both reset fields are cleared,
      so the user no longer matches any reset query. The query does not
      select the password, so the document holds none and the new one is
      always hashed, whatever was stored. */
  method ResetPassword(users: Model<UserRecord>, tokenParam: string, password: Option<string>,
                       passwordConfirm: Option<string>, crypto: Crypto, jwt: Jwt, env: Env, now: nat)
    returns (reply: Reply<TokenPayload>)
    requires IsUserModel(users)
    modifies users
    ensures (forall id :: id in old(users.records) ==>
               !(old(users.records)[id].active && ResetMatches(old(users.records)[id], crypto.sha256(tokenParam), now)))
            ==> reply == Failed(BadResetToken)
    ensures reply.Failed? ==> reply.error.statusCode == 400 && users.records == old(users.records)
    ensures reply.Sent? ==>
              && reply.statusCode == 200 && PasswordFieldsValid(password, passwordConfirm)
              && exists id :: id in old(users.records) && old(users.records)[id].active
                   && ResetMatches(old(users.records)[id], crypto.sha256(tokenParam), now)
                   && var stored := old(users.records)[id].(password := Some(crypto.bcryptHash(password.value)),
                                                           passwordConfirm := None, passwordChangedAt := Some(now - 1000),
                                                           passwordResetToken := None, passwordResetExpires := None);
                      && users.records == old(users.records)[id := stored]
                      && reply.payload == CreateSendToken(jwt, env, id, stored, now)
                      && forall h, t :: !ResetMatches(users.records[id], h, t)
  {
    var hashedToken := crypto.sha256(tokenParam);
    var found := users.FindOne((u: UserRecord) => ResetMatches(u, hashedToken, now));
    if found.None? {
      return Failed(BadResetToken);
    }
    var id := found.value;
    var doc := new UserDocument.Hydrate(id, users.records[id].(password := None));
    doc.SetPassword(password, passwordConfirm);
    doc.ClearResetToken();
    var err := doc.Save(users, true, crypto, now);
    if err.Some? {
      return Failed(err.value);
    }
    reply := Sent(200, CreateSendToken(jwt, env, id, doc.Record(), now));
  }

  /** `updatePassword`: 401 when not logged in, then 404 when the user is
      gone, then 401 for a wrong current password; only after all three
      checks is the password replaced (and validated). */
  method UpdatePassword(req: Request, users: Model<UserRecord>, passwordCurrent: string,
                        password: Option<string>, passwordConfirm: Option<string>,
                        crypto: Crypto, jwt: Jwt, env: Env, now: nat) returns (reply: Reply<TokenPayload>)
    requires IsUserModel(users)
    modifies users
    ensures req.user.None? ==> reply == Failed(AppError(401, "You are not logged in!"))
    ensures req.user.Some? && old(users.FindById(req.user.value.id)).None?
            ==> reply == Failed(AppError(404, "User not found"))
    ensures req.user.Some? && old(users.FindById(req.user.value.id)).Some?
            && !CorrectPassword(crypto, passwordCurrent, old(users.FindById(req.user.value.id)).value.password)
            ==> reply == Failed(AppError(401, "Your current password is wrong."))
    ensures reply.Failed? ==> users.records == old(users.records)
    ensures reply.Sent? ==>
              && req.user.Some? && var id := req.user.value.id;
                 && id in old(users.records) && old(users.records)[id].active
                 && CorrectPassword(crypto, passwordCurrent, old(users.records)[id].password)
                 && PasswordFieldsValid(password, passwordConfirm)
                 && var stored := PasswordSet(old(users.records)[id], password.value, crypto, now);
                    && users.records == old(users.records)[id := stored]
                    && reply == Sent(200, CreateSendToken(jwt, env, id, stored, now))
  {
    if req.user.None? {
      return Failed(AppError(401, "You are not logged in!"));
    }
    var id := req.user.value.id;
    var user := users.FindById(id);
    if user.None? {
      return Failed(AppError(404, "User not found"));
    }
    if !CorrectPassword(crypto, passwordCurrent, user.value.password) {
      return Failed(AppError(401, "Your current password is wrong."));
    }
    var doc := new UserDocument.Hydrate(id, user.value);
    doc.SetPassword(password, passwordConfirm);
    var err := doc.Save(users, true, crypto, now);
    if err.Some? {
      return Failed(err.value);
    }
    reply := Sent(200, CreateSendToken(jwt, env, id, doc.Record(), now));
  }

  /** A reset token works once: when only one user holds its digest, a second
      reset with the same token is refused. */
  method ResetTwice(users: Model<UserRecord>, tokenParam: string, password: Option<string>,
                    passwordConfirm: Option<string>, crypto: Crypto, jwt: Jwt, env: Env, now: nat)
    returns (first: Reply<TokenPayload>, second: Reply<TokenPayload>)
    requires IsUserModel(users)
    requires forall i, j :: (i in users.records && j in users.records
                             && ResetMatches(users.records[i], crypto.sha256(tokenParam), now)
                             && ResetMatches(users.records[j], crypto.sha256(tokenParam), now)) ==> i == j
    modifies users
    ensures first.Sent? ==> second == Failed(BadResetToken)
  {
    first := ResetPassword(users, tokenParam, password, passwordConfirm, crypto, jwt, env, now);
    second := ResetPassword(users, tokenParam, password, passwordConfirm, crypto, jwt, env, now);
  }
}

=== FILE: common.dfy ===
/** Values shared by the backend and the frontend of Natours: optional
    values, roles, JSON-ish request values with JavaScript truthiness, and the
    error/reply shapes of the Express handlers. */
module Common {

  datatype Option<+T> = None | Some(value: T)

  /** A MongoDB ObjectId, kept as its hexadecimal text. */
  type Id = string

  predicate IsHexDigit(c: char) {
    '0' <= c <= '9' || 'a' <= c <= 'f' || 'A' <= c <= 'F'
  }

  /** A text Mongoose casts to an ObjectId: exactly 24 hexadecimal digits. */
  predicate IsObjectIdText(s: string) {
    |s| == 24 && forall i :: 0 <= i < |s| ==> IsHexDigit(s[i])
  }

  /** The `role` enum of the user schema (backend/src/models/user.model.ts:45-49). */
  datatype Role = User | Guide | LeadGuide | Admin

  function RoleName(r: Role): string {
    match r
    case User => "user"
    case Guide => "guide"
    case LeadGuide => "lead-guide"
    case Admin => "admin"
  }

  /** The schema's enum validator: only the four role names are accepted. */
  function ParseRole(s: string): (r: Option<Role>)
    ensures r.Some? <==> s in {"user", "guide", "lead-guide", "admin"}
    ensures r.Some? ==> RoleName(r.value) == s
  {
    if s == "user" then Some(User)
    else if s == "guide" then Some(Guide)
    else if s == "lead-guide" then Some(LeadGuide)
    else if s == "admin" then Some(Admin)
    else None
  }

  lemma ParseRoleName(r: Role)
    ensures ParseRole(RoleName(r)) == Some(r)
  {
  }

  /** A JSON value as it arrives in a request body. */
  datatype Value = Str(s: string) | Num(n: int) | Bool(b: bool) | Null

  /** JavaScript truthiness of a present value. */
  predicate Truthy(v: Value) {
    match v
    case Str(s) => s != ""
    case Num(n) => n != 0
    case Bool(b) => b
    case Null => false
  }

  /** A parsed request body or query object; a missing key is `undefined`. */
  type Body = map<string, Value>

  /** `if (body.key)`: the key is present and its value is truthy. */
  predicate Has(body: Body, key: string) {
    key in body && Truthy(body[key])
  }

  /** The operational error the handlers pass to `next(...)`. */
  datatype AppError = AppError(statusCode: nat, message: string)

  /** What a handler ends with: a response sent with a status code, or an
      error forwarded to the global error handler. */
  datatype Reply<+T> = Sent(statusCode: nat, payload: T) | Failed(error: AppError)
  {
    predicate FailedWith(code: nat) { Failed? && error.statusCode == code }
  }

  /** What a middleware ends with: `next()` or `next(err)`. */
  datatype Next = Continue | Abort(error: AppError)

  /** Mongoose's ValidationError, answered with a 400 (the global error
      handler that decides this is not part of this model). */
  function ValidationError(message: string): AppError {
    AppError(400, message)
  }

  /** Mongoose's CastError for a query by `_id` whose value is not an
      ObjectId text, answered with a 400 like a ValidationError. */
  function CastError(value: string): (e: AppError)
    ensures e.statusCode == 400 && e != ValidationError("Validation failed")
  {
    AppError(400, "Cast to ObjectId failed for value \"" + value + "\" at path \"_id\"")
  }
}

=== FILE: express.dfy ===
/** The parts of an Express request the Natours middleware reads and writes. */
module Express {
  import opened Common
  import opened UserModel

  /** `req.user` as `protect` leaves it: the id and the stored record. */
  datatype LoggedIn = LoggedIn(id: Id, user: UserRecord)

  /** `req.file` as multer leaves it; `filename` is set by `resizeUserPhoto`. */
  datatype UploadedFile = UploadedFile(mimetype: string, filename: Option<string>)

  class Request {
    /** `req.headers.authorization`. */
    var authorization: Option<string>
    var params: map<string, string>
    var query: map<string, string>
    var body: Body
    var user: Option<LoggedIn>
    var file: Option<UploadedFile>

    constructor (authorization: Option<string>, params: map<string, string>, query: map<string, string>, body: Body)
      ensures this.authorization == authorization && this.params == params
      ensures this.query == query && this.body == body
      ensures user.None? && file.None?
    {
      this.authorization := authorization;
      this.params := params;
      this.query := query;
      this.body := body;
      user := None;
      file := None;
    }
  }
}

=== FILE: handler_factory.dfy ===
/** The generic CRUD handlers of backend/src/controllers/handlerFactory.ts,
    over any collection. What a schema contributes (casting, defaults,
    validators, setters and document hooks) is a `Schema` value; the
    APIFeatures query pipeline is an opaque selection of ids. */
module HandlerFactory {
  import opened Common
  import opened Store
  import opened Express

  const NoDocument := AppError(404, "No document found with that ID")

  /** A schema as the generic handlers use it. */
  datatype Schema<!R> = Schema(
    /** `Model.create(body)`: the saved record, or `None` when casting or a
        validator fails. */
    create: Body -> Option<R>,
    /** The update validators (`runValidators: true`) on the paths of an update. */
    updateValid: Body -> bool,
    /** The record after the `$set` of an update body. */
    applyUpdate: (R, Body) -> R,
    /** The record's `tour` field, for the nested-route filter of `getAll`. */
    tourOf: R -> Option<Id>,
    /** Two records the schema's unique index refuses to hold together
        (MongoDB error E11000), and the path of that index. */
    sameKey: (R, R) -> bool,
    uniquePath: string)

  /** A write the unique index refuses: a 400 naming the path. */
  function DuplicateValue(path: string): AppError {
    AppError(400, "Duplicate field value: " + path)
  }

  /** Some stored record other than `except` holds the same unique key as `r`. */
  predicate KeyTaken<R>(records: map<Id, R>, r: R, sameKey: (R, R) -> bool, except: Option<Id>) {
    exists id :: id in records && Some(id) != except && (sameKey(records[id], r) || sameKey(r, records[id]))
  }

  /** What the unique index guarantees of a collection: no two stored
      records share a key. */
  predicate UniqueKeys<R>(records: map<Id, R>, sameKey: (R, R) -> bool) {
    forall i, j :: i in records && j in records && i != j ==> !sameKey(records[i], records[j])
  }

  /** `req.params.id`, `undefined` when absent. */
  function ParamId(params: map<string, string>): Option<Id> {
    if "id" in params then Some(params["id"]) else None
  }

  /** `req.params.id` is present but is not an ObjectId text: the
      find-family query casts its filter first and rejects with a CastError
      before it reads or writes the collection. */
  predicate MalformedId(params: map<string, string>) {
    "id" in params && !IsObjectIdText(params["id"])
  }

  /** The record a find-family query by `req.params.id` reaches. */
  function Target<R>(m: Model<R>, params: map<string, string>): Option<R>
    reads m
  {
    match ParamId(params)
    case None => None
    case Some(id) => m.FindById(id)
  }

  /** `deleteOne(Model)`: `findByIdAndDelete`; an id that is not an
      ObjectId is a CastError, then 404 when nothing is found (missing id,
      or hidden by the find hook), otherwise exactly that record is gone
      and the answer is 204 with no data. */
  method DeleteOne<R>(req: Request, m: Model<R>) returns (reply: Reply<()>)
    modifies m
    ensures MalformedId(req.params) ==> reply == Failed(CastError(req.params["id"])) && m.records == old(m.records)
    ensures !MalformedId(req.params) && old(Target(m, req.params)).None?
            ==> reply == Failed(NoDocument) && m.records == old(m.records)
    ensures !MalformedId(req.params) && old(Target(m, req.params)).Some? ==>
              && reply == Sent(204, ())
              && req.params["id"] in old(m.records)
              && m.records == old(m.records) - {req.params["id"]}
  {
    if MalformedId(req.params) {
      return Failed(CastError(req.params["id"]));
    }
    var doc := Target(m, req.params);
    if doc.None? {
      return Failed(NoDocument);
    }
    m.Remove(req.params["id"]);
    reply := Sent(204, ());
  }

  /** Deleting the same id twice: the second delete finds nothing. */
  method DeleteTwice<R>(req: Request, m: Model<R>) returns (first: Reply<()>, second: Reply<()>)
    modifies m
    ensures first.Sent? ==> second == Failed(NoDocument)
    ensures first.Failed? ==> second == first
  {
    first := DeleteOne(req, m);
    second := DeleteOne(req, m);
  }

  /** `updateOne(Model)`: `findByIdAndUpdate` with `runValidators` and
      `new: true`. The filter is cast first, so an id that is not an
      ObjectId is a CastError whatever the body; the update validators run
      before the query, so an invalid body is a 400 even for a missing id;
      then a missing id is a 404; then
      the unique index refuses an update that gives the record another
      record's key; otherwise the updated record is stored and sent back.
      Document hooks (pre-save) do not run on this path. */
  method UpdateOne<R>(req: Request, m: Model<R>, schema: Schema<R>) returns (reply: Reply<R>)
    modifies m
    ensures MalformedId(req.params) ==> reply == Failed(CastError(req.params["id"])) && m.records == old(m.records)
    ensures !MalformedId(req.params) && !schema.updateValid(req.body)
            ==> reply == Failed(ValidationError("Validation failed")) && m.records == old(m.records)
    ensures !MalformedId(req.params) && schema.updateValid(req.body) && old(Target(m, req.params)).None?
            ==> reply == Failed(NoDocument) && m.records == old(m.records)
    ensures !MalformedId(req.params) && schema.updateValid(req.body) && old(Target(m, req.params)).Some?
            && KeyTaken(old(m.records), schema.applyUpdate(old(Target(m, req.params)).value, req.body),
                        schema.sameKey, ParamId(req.params))
            ==> reply == Failed(DuplicateValue(schema.uniquePath)) && m.records == old(m.records)
    ensures reply.Failed? ==> m.records == old(m.records)
    ensures reply.Sent? ==>
              && !MalformedId(req.params) && schema.updateValid(req.body) && old(Target(m, req.params)).Some?
              && var id := req.params["id"];
                 && reply == Sent(200, schema.applyUpdate(old(m.records)[id], req.body))
                 && !KeyTaken(old(m.records), reply.payload, schema.sameKey, Some(id))
                 && m.records == old(m.records)[id := reply.payload]
    ensures UniqueKeys(old(m.records), schema.sameKey) ==> UniqueKeys(m.records, schema.sameKey)
  {
    if MalformedId(req.params) {
      return Failed(CastError(req.params["id"]));
    }
    if !schema.updateValid(req.body) {
      return Failed(ValidationError("Validation failed"));
    }
    var doc := Target(m, req.params);
    if doc.None? {
      return Failed(NoDocument);
    }
    var updated := schema.applyUpdate(doc.value, req.body);
    if KeyTaken(m.records, updated, schema.sameKey, Some(req.params["id"])) {
      return Failed(DuplicateValue(schema.uniquePath));
    }
    m.Put(req.params["id"], updated);
    reply := Sent(200, updated);
  }

  /** `createOne(Model)`: `Model.create(req.body)`; a body the schema rejects
      is a 400 and stores nothing, so is a record whose unique key is
      already stored; otherwise exactly one record is added under a fresh
      id and sent back with 201. */
  method CreateOne<R>(req: Request, m: Model<R>, schema: Schema<R>, newId: Id) returns (reply: Reply<R>)
    requires newId !in m.records
    modifies m
    ensures schema.create(req.body).None? ==> reply.FailedWith(400) && m.records == old(m.records)
    ensures schema.create(req.body).Some? && KeyTaken(old(m.records), schema.create(req.body).value, schema.sameKey, None)
            ==> reply == Failed(DuplicateValue(schema.uniquePath)) && m.records == old(m.records)
    ensures schema.create(req.body).Some? && !KeyTaken(old(m.records), schema.create(req.body).value, schema.sameKey, None)
            ==> && reply == Sent(201, schema.create(req.body).value)
                && m.records == old(m.records)[newId := reply.payload]
                && |m.records| == |old(m.records)| + 1
    ensures UniqueKeys(old(m.records), schema.sameKey) ==> UniqueKeys(m.records, schema.sameKey)
  {
    var doc := schema.create(req.body);
    if doc.None? {
      return Failed(ValidationError("Validation failed"));
    }
    if KeyTaken(m.records, doc.value, schema.sameKey, None) {
      return Failed(DuplicateValue(schema.uniquePath));
    }
    m.Put(newId, doc.value);
    reply := Sent(201, doc.value);
  }

  /** `getOne(Model, popOptions)`: a CastError for an id that is not an
      ObjectId, 404 when the find by id comes back empty, otherwise 200 with
      the record, populated only when options are given. */
  method GetOne<R>(req: Request, m: Model<R>, populate: Option<R -> R>) returns (reply: Reply<R>)
    ensures MalformedId(req.params) ==> reply == Failed(CastError(req.params["id"]))
    ensures !MalformedId(req.params) && Target(m, req.params).None? ==> reply == Failed(NoDocument)
    ensures !MalformedId(req.params) && Target(m, req.params).Some? ==>
              var doc := Target(m, req.params).value;
              && req.params["id"] in m.records && doc == m.records[req.params["id"]] && m.findFilter(doc)
              && reply == Sent(200, if populate.Some? then populate.value(doc) else doc)
  {
    if MalformedId(req.params) {
      return Failed(CastError(req.params["id"]));
    }
    var query := Target(m, req.params);
    if query.None? {
      return Failed(NoDocument);
    }
    var doc := query.value;
    if populate.Some? {
      doc := populate.value(doc);
    }
    reply := Sent(200, doc);
  }

  /** The body of `getAll`'s answer. */
  datatype Listing<R> = Listing(results: nat, data: seq<R>)

  /** The ids `Model.find(filter)` selects: every record the find hook lets
      through, narrowed to one tour when a tour id is given. */
  function BaseQuery<R>(m: Model<R>, tourOf: R -> Option<Id>, tourId: Option<Id>): set<Id>
    reads m
  {
    set id | id in m.records && m.findFilter(m.records[id])
                             && (tourId.Some? ==> tourOf(m.records[id]) == tourId)
  }

  /** APIFeatures' filter/sort/limitFields/paginate only select and order
      documents of the query it is given. */
  ghost predicate SelectsFromQuery(features: (set<Id>, map<string, string>) -> seq<Id>) {
    forall base, query, k :: 0 <= k < |features(base, query)| ==> features(base, query)[k] in base
  }

  /** `req.params.tourId` when truthy. */
  function NestedTourId(params: map<string, string>): (t: Option<Id>)
    ensures t.Some? <==> "tourId" in params && params["tourId"] != ""
  {
    if "tourId" in params && params["tourId"] != "" then Some(params["tourId"]) else None
  }

  /** `getAll(Model)`: on a nested route the base query keeps only the given
      tour's records, otherwise it has no filter; APIFeatures then selects
      from it, and `results` is the length of the list sent. */
  method GetAll<R(==)>(req: Request, m: Model<R>, schema: Schema<R>,
                   features: (set<Id>, map<string, string>) -> seq<Id>) returns (reply: Reply<Listing<R>>)
    requires SelectsFromQuery(features)
    ensures reply.Sent? && reply.statusCode == 200
    ensures reply.payload.results == |reply.payload.data|
    ensures |reply.payload.data| == |features(BaseQuery(m, schema.tourOf, NestedTourId(req.params)), req.query)|
    ensures forall k :: 0 <= k < |reply.payload.data| ==>
              && reply.payload.data[k] in m.records.Values && m.findFilter(reply.payload.data[k])
              && (NestedTourId(req.params).Some? ==> schema.tourOf(reply.payload.data[k]) == NestedTourId(req.params))
  {
    var filter := NestedTourId(req.params);
    var base := BaseQuery(m, schema.tourOf, filter);
    var ids := features(base, req.query);
    var recs := m.records;
    assert forall k :: 0 <= k < |ids| ==> ids[k] in base;
    var doc := seq(|ids|, k requires 0 <= k < |ids| && ids[k] in recs => recs[ids[k]]);
    forall k | 0 <= k < |doc|
      ensures doc[k] in m.records.Values && m.findFilter(doc[k])
      ensures filter.Some? ==> schema.tourOf(doc[k]) == filter
    {
      assert ids[k] in base;
      assert doc[k] == m.records[ids[k]];
    }
    reply := Sent(200, Listing(|doc|, doc));
  }
}

=== FILE: header.dfy ===
/** The page header of the frontend (frontend/src/components/Header.tsx):
    which links it shows, the avatar path and the first name. */
module Header {
  import opened Common
  import opened Strings
  import opened ApiService

  const DefaultImage := "/users/default.jpg"

  /** `getUserImage`: the user's photo under /users/ when truthy, else the
      default image. */
  function GetUserImage(user: Profile): (path: string)
    ensures user.photo.Some? && user.photo.value != "" ==> path == "/users/" + user.photo.value
    ensures !(user.photo.Some? && user.photo.value != "") ==> path == DefaultImage
    ensures StartsWith(path, "/users/")
  {
    if user.photo.Some? && user.photo.value != "" then "/users/" + user.photo.value else DefaultImage
  }

  /** `user.name.split(" ")[0]`. */
  function FirstName(name: string): (first: string)
  {
    Split(name, ' ')[0]
  }

  /** The first name is the part of the name before its first space: a
      prefix with no space in it, followed by a space or the end. */
  lemma FirstNameIsPrefix(name: string)
    ensures var first := FirstName(name);
            && StartsWith(name, first) && ' ' !in first
            && (|first| < |name| ==> name[|first|] == ' ')
  {
    FirstPiece(name, ' ');
  }

  /** A name without a space is shown whole. */
  lemma SingleNameShownWhole(name: string)
    requires ' ' !in name
    ensures FirstName(name) == name
  {
    SplitWithoutSeparator(name, ' ');
  }

  datatype Nav = Account(image: string, firstName: string) | Guest

  /** The user part of the header: logout and account links with avatar and
      first name for a logged-in user, login and signup links otherwise. */
  function UserNav(user: Option<Profile>): (nav: Nav)
    ensures nav.Account? <==> user.Some?
    ensures nav.Account? ==> nav.image == GetUserImage(user.value) && nav.firstName == FirstName(user.value.name)
  {
    if user.Some? then Account(GetUserImage(user.value), FirstName(user.value.name)) else Guest
  }
}

=== FILE: js.dfy ===
/** JSON values as the frontend's code handles them after `response.json()`:
    JavaScript truthiness, property access and `||`. Numbers are integers. */
module Js {
  import opened Common

  datatype Json =
    | JNull | JBool(b: bool) | JNum(n: int) | JStr(s: string)
    | JArr(items: seq<Json>) | JObj(fields: map<string, Json>)

  /** Truthiness of a defined value: `null`, `false`, `0` and `""` are falsy;
      arrays and objects, even empty ones, are truthy. */
  predicate JsTruthy(v: Json) {
    match v
    case JNull => false
    case JBool(b) => b
    case JNum(n) => n != 0
    case JStr(s) => s != ""
    case _ => true
  }

  /** Truthiness of a possibly `undefined` value. */
  predicate IsTruthy(v: Option<Json>) {
    v.Some? && JsTruthy(v.value)
  }

  /** `v.key` on a value that is neither `null` nor `undefined`: an object's
      own field, `undefined` for anything else. */
  function Get(v: Json, key: string): (r: Option<Json>)
    ensures r.Some? <==> v.JObj? && key in v.fields
  {
    if v.JObj? && key in v.fields then Some(v.fields[key]) else None
  }

  /** `v?.key`: `undefined` when `v` is `null` or `undefined`. */
  function OptGet(v: Option<Json>, key: string): (r: Option<Json>)
    ensures v.None? || v.value.JNull? ==> r.None?
    ensures v.Some? && !v.value.JNull? ==> r == Get(v.value, key)
  {
    if v.None? || v.value.JNull? then None else Get(v.value, key)
  }

  /** The outcome of a plain property read `base.key`: reading from `null`
      or `undefined` throws a TypeError, anything else yields the field. */
  datatype Access = Read(value: Option<Json>) | TypeError

  function Member(base: Option<Json>, key: string): (a: Access)
    ensures a.TypeError? <==> base.None? || base.value.JNull?
    ensures a.Read? ==> a.value == Get(base.value, key)
  {
    if base.None? || base.value.JNull? then TypeError else Read(Get(base.value, key))
  }

  /** `(...).key` after a read that may already have thrown. */
  function Then(a: Access, key: string): (r: Access)
    ensures a.TypeError? ==> r.TypeError?
    ensures a.Read? ==> r == Member(a.value, key)
  {
    if a.TypeError? then TypeError else Member(a.value, key)
  }

  /** `a || b`: `a` when truthy, otherwise `b`. */
  function Or(a: Option<Json>, b: Option<Json>): (r: Option<Json>)
    ensures IsTruthy(a) ==> r == a
    ensures !IsTruthy(a) ==> r == b
  {
    if IsTruthy(a) then a else b
  }
}

=== FILE: login_form.dfy ===
/** The login form of the frontend (frontend/src/components/LoginForm.tsx):
    validation, the change handler and the submit handler. The `onSubmit`
    callback is not called here: the submit returns the data it hands it. */
module LoginForm {
  import opened Common
  import opened Strings
  import AccountForm

  datatype LoginData = LoginData(email: string, password: string)
  datatype LoginErrors = LoginErrors(email: Option<string>, password: Option<string>)
  datatype LoginField = EmailInput | PasswordInput

  const NoErrors := LoginErrors(None, None)

  /** The errors `validateForm` finds: an empty email is required, any other
      must match `/\S+@\S+\.\S+/` (nothing is trimmed); an empty password is
      required, any other must be at least 8 long. */
  function LoginDataErrors(d: LoginData): (e: LoginErrors)
    ensures d.email == "" ==> e.email == Some("Email is required")
    ensures d.email != "" ==> (e.email.None? <==> EmailPatternMatches(d.email))
    ensures d.email != "" && e.email.Some? ==> e.email.value == "Email is invalid"
    ensures e.password.Some? <==> |d.password| < 8
    ensures e.password.Some? ==>
              e.password.value == if d.password == "" then "Password is required"
                                  else "Password must be at least 8 characters"
  {
    EmailPatternCorrect(d.email);
    LoginErrors(
      if d.email == "" then Some("Email is required")
      else if !TestEmailPattern(d.email) then Some("Email is invalid")
      else None,
      if d.password == "" then Some("Password is required")
      else if |d.password| < 8 then Some("Password must be at least 8 characters")
      else None)
  }

  /** An email of white space only is "required" on the account form, which
      trims, and "invalid" on the login form, which does not. */
  lemma WhitespaceEmailJudgedDifferently(email: string, name: string)
    requires email != "" && AllSpace(email)
    ensures LoginDataErrors(LoginData(email, "")).email == Some("Email is invalid")
    ensures AccountForm.UserDataErrors(AccountForm.UserData(name, email)).email == Some("Email is required")
  {
  }

  class Form {
    var formData: LoginData
    var errors: LoginErrors

    constructor ()
      ensures formData == LoginData("", "") && errors == NoErrors
    {
      formData := LoginData("", "");
      errors := NoErrors;
    }

    /** `validateForm`: records the errors and tells whether there are none. */
    method ValidateForm() returns (valid: bool)
      modifies this`errors
      ensures errors == LoginDataErrors(formData)
      ensures valid <==> errors == NoErrors
    {
      errors := LoginDataErrors(formData);
      valid := errors.email.None? && errors.password.None?;
    }

    /** `handleChange`: sets the named field and clears that field's error only. */
    method HandleChange(field: LoginField, value: string)
      modifies this
      ensures formData == if field == EmailInput then old(formData).(email := value) else old(formData).(password := value)
      ensures errors == if field == EmailInput then old(errors).(email := AccountForm.Cleared(old(errors).email))
                        else old(errors).(password := AccountForm.Cleared(old(errors).password))
    {
      match field
      case EmailInput =>
        formData := formData.(email := value);
        if errors.email.Some? && errors.email.value != "" {
          errors := errors.(email := None);
        }
      case PasswordInput =>
        formData := formData.(password := value);
        if errors.password.Some? && errors.password.value != "" {
          errors := errors.(password := None);
        }
    }

    /** `handleSubmit`: the current data go to `onSubmit` exactly when they
        pass validation. */
    method HandleSubmit() returns (sent: Option<LoginData>)
      modifies this`errors
      ensures errors == LoginDataErrors(formData)
      ensures sent.Some? <==> LoginDataErrors(formData) == NoErrors
      ensures sent.Some? ==> sent.value == formData
    {
      var valid := ValidateForm();
      sent := if valid then Some(formData) else None;
    }
  }
}

=== FILE: photo_upload.dfy ===
/** The profile-photo component (frontend/src/components/ProfilePhotoUpload.tsx):
    which selected files it accepts, the upload's effect on its state, and
    the image it shows. The browser's file reader, `fetch` and `alert` are
    replaced by inputs and outputs: the preview's data URL, the request the
    component sends, what the upload's fetch settles to and the message it
    would alert. */
module PhotoUpload {
  import opened Common
  import opened Strings
  import opened Js
  import opened ApiService
  import UserController

  /** The selected file, as far as the component looks at it. */
  datatype File = File(mimeType: string, size: nat)

  const MaxPhotoSize: nat := 5 * 1024 * 1024
  const NotAnImage := "Por favor selecciona solo archivos de imagen"
  const TooLarge := "La imagen debe ser menor a 5MB"
  const Uploaded := "Foto actualizada exitosamente!"
  const UploadFailed := "Error al subir la foto. Inténtalo de nuevo."
  const DefaultPhoto := "default.jpg"
  const PhotoBaseUrl := "http://localhost:3000/img/users/"

  /** The alert that turns a selected file away: the type is checked first,
      then the size, which may be at most 5 MiB. */
  function FileProblem(f: File): (alert: Option<string>)
    ensures alert.None? <==> StartsWith(f.mimeType, "image/") && f.size <= 5_242_880
    ensures !StartsWith(f.mimeType, "image/") ==> alert == Some(NotAnImage)
    ensures StartsWith(f.mimeType, "image/") && f.size > 5_242_880 ==> alert == Some(TooLarge)
  {
    if !StartsWith(f.mimeType, "image/") then Some(NotAnImage)
    else if f.size > MaxPhotoSize then Some(TooLarge)
    else None
  }

  /** Every file the component sends passes the backend's upload filter,
      whose test ("image") is a prefix of the component's ("image/"). */
  lemma AcceptedFilesPassMulter(f: File)
    requires FileProblem(f).None?
    ensures UserController.MulterFilter(f.mimeType) == UserController.Accept
  {
    assert f.mimeType[..|"image"|] == "image/"[..|"image"|];
  }

  /** The photo `onPhotoUpdate` is given when an upload's answer reads as a
      success (`data.data.user.photo`), `None` when the answer is not a
      success, and `TypeError` when reading it throws. */
  datatype Answer = Success(photo: Option<Json>) | NoSuccess | Throws

  /** `uploadPhoto`'s reading of the settled fetch: a rejected fetch, a
      status that is not ok, a body that is not JSON, and a property read on
      `null`/`undefined` all throw; `data.status === "success"` reads the new
      photo. */
  function ReadAnswer(response: Fetched<HttpResponse>): (a: Answer)
    ensures response.Rejected? || !response.value.ok || response.value.body.None? ==> a == Throws
    ensures a.Success? ==>
              && response.Resolved? && response.value.ok && response.value.body.Some?
              && Get(response.value.body.value, "status") == Some(JStr("success"))
    ensures a == NoSuccess <==>
              && response.Resolved? && response.value.ok && response.value.body.Some?
              && Member(response.value.body, "status").Read?
              && Get(response.value.body.value, "status") != Some(JStr("success"))
  {
    if response.Rejected? || !response.value.ok || response.value.body.None? then Throws
    else
      var data := response.value.body;
      var status := Member(data, "status");
      if status.TypeError? then Throws
      else if status.value != Some(JStr("success")) then NoSuccess
      else
        var photo := Then(Then(Member(data, "data"), "user"), "photo");
        if photo.TypeError? then Throws else Success(photo.value)
  }

  /** The answer `updateMe` sends after storing a new photo is read as a
      success carrying that photo's file name. */
  lemma UpdateMeAnswerIsSuccess(photo: string, user: map<string, Json>)
    requires "photo" in user && user["photo"] == JStr(photo)
    ensures ReadAnswer(Resolved(HttpResponse(true, "OK",
              Some(JObj(map["status" := JStr("success"), "data" := JObj(map["user" := JObj(user)])])))))
            == Success(Some(JStr(photo)))
  {
  }

  class Uploader {
    /** The `currentPhoto` prop, "default.jpg" when it is not given. */
    const currentPhoto: string
    /** Whether an `onPhotoUpdate` prop is given. */
    const notifies: bool
    var isUploading: bool
    var previewUrl: Option<string>

    constructor (currentPhoto: Option<string>, notifies: bool)
      ensures this.currentPhoto == (if currentPhoto.Some? then currentPhoto.value else DefaultPhoto)
      ensures this.notifies == notifies && !isUploading && previewUrl.None?
    {
      this.currentPhoto := if currentPhoto.Some? then currentPhoto.value else DefaultPhoto;
      this.notifies := notifies;
      isUploading := false;
      previewUrl := None;
    }

    /** `getPhotoUrl`: the preview while there is a non-empty one, otherwise
        the stored photo on the server. */
    function PhotoUrl(): (url: string)
      reads this
      ensures previewUrl.Some? && previewUrl.value != "" ==> url == previewUrl.value
      ensures previewUrl.None? || previewUrl.value == "" ==>
                StartsWith(url, PhotoBaseUrl) && url[|PhotoBaseUrl|..] == currentPhoto
    {
      if previewUrl.Some? && previewUrl.value != "" then previewUrl.value
      else PhotoBaseUrl + currentPhoto
    }

    /** `handleFileSelect` up to the upload's `await`: no file does nothing;
        a file turned away alerts and changes nothing; an accepted file's
        preview is shown (its data URL is taken to be read before the
        upload settles), the component is uploading and the request
        `uploadPhoto` sends is the one of the API service, with the stored
        token. */
    method HandleFileSelect(file: Option<File>, dataUrl: string, storage: LocalStorage)
      returns (request: Option<HttpRequest>, alert: Option<string>)
      modifies this`isUploading, this`previewUrl
      ensures file.None? ==> request.None? && alert.None? && unchanged(this)
      ensures file.Some? && FileProblem(file.value).Some? ==>
                request.None? && alert == FileProblem(file.value) && unchanged(this)
      ensures file.Some? && FileProblem(file.value).None? ==>
                && request == Some(UploadPhotoRequest(storage)) && alert.None?
                && isUploading && previewUrl == Some(dataUrl)
    {
      request, alert := None, None;
      if file.None? {
        return;
      }
      alert := FileProblem(file.value);
      if alert.Some? {
        return;
      }
      previewUrl := Some(dataUrl);
      isUploading := true;
      request := Some(UploadPhotoRequest(storage));
    }

    /** The rest of `uploadPhoto`, once the fetch settles: on a success the
        new photo goes to `onPhotoUpdate` (when given) with a success alert;
        when anything throws the preview is dropped and the error alerted;
        an answer that is not a success does neither. Uploading is over on
        every path. */
    method UploadSettled(response: Fetched<HttpResponse>)
      returns (photoUpdate: Option<Option<Json>>, alert: Option<string>)
      modifies this`isUploading, this`previewUrl
      ensures !isUploading
      ensures photoUpdate.Some? <==> notifies && ReadAnswer(response).Success?
      ensures photoUpdate.Some? ==> photoUpdate.value == ReadAnswer(response).photo
      ensures ReadAnswer(response).Success? ==> alert == Some(Uploaded) && previewUrl == old(previewUrl)
      ensures ReadAnswer(response) == NoSuccess ==> alert.None? && previewUrl == old(previewUrl)
      ensures ReadAnswer(response) == Throws ==> alert == Some(UploadFailed) && previewUrl.None?
    {
      photoUpdate, alert := None, None;
      var answer := ReadAnswer(response);
      if answer == Throws {
        alert := Some(UploadFailed);
        previewUrl := None;
      } else if answer.Success? {
        if notifies {
          photoUpdate := Some(answer.photo);
        }
        alert := Some(Uploaded);
      }
      isUploading := false;
    }
  }

  /** A failed upload falls back to the server's photo: after it the image
      shown is the stored one again. */
  method FailedUploadShowsStoredPhoto(u: Uploader, file: File, dataUrl: string, storage: LocalStorage,
                                      response: Fetched<HttpResponse>) returns (url: string)
    requires FileProblem(file).None? && ReadAnswer(response) == Throws
    modifies u
    ensures url == PhotoBaseUrl + u.currentPhoto && !u.isUploading
  {
    var request, alert := u.HandleFileSelect(Some(file), dataUrl, storage);
    var photoUpdate, failure := u.UploadSettled(response);
    url := u.PhotoUrl();
  }
}

=== FILE: protected_route.dfy ===
/** The route guard of the frontend (frontend/src/components/ProtectedRoute.tsx):
    what it renders for the session state and its two flags. The session
    check in progress is an input (`isLoading`). */
module ProtectedRoute {
  import opened Common
  import opened ApiService

  datatype View = Spinner | RedirectToLogin(from: string) | RedirectHome | Children

  /** A flag prop with its default when left out. */
  function Prop(given: Option<bool>, default: bool): bool {
    if given.Some? then given.value else default
  }

  predicate IsAdmin(user: Option<Profile>) {
    user.Some? && user.value.role == "admin"
  }

  /** The checks in source order, the first that applies deciding: the
      spinner while loading; a login redirect carrying the location for a
      protected route without user; home for an admin route without an
      admin; home for a guest-only route with a user; else the children. */
  function Guard(requireAuth: Option<bool>, adminOnly: Option<bool>, isLoading: bool, user: Option<Profile>,
                 location: string): (v: View)
    ensures v == Spinner <==> isLoading
    ensures v.RedirectToLogin? <==> !isLoading && Prop(requireAuth, true) && user.None?
    ensures v.RedirectToLogin? ==> v.from == location
    ensures v == RedirectHome <==>
              && !isLoading && !(Prop(requireAuth, true) && user.None?)
              && ((Prop(adminOnly, false) && !IsAdmin(user)) || (!Prop(requireAuth, true) && user.Some?))
    ensures v == Children <==>
              && !isLoading && !(Prop(requireAuth, true) && user.None?)
              && !(Prop(adminOnly, false) && !IsAdmin(user)) && !(!Prop(requireAuth, true) && user.Some?)
  {
    var mustLogIn := Prop(requireAuth, true);
    if isLoading then Spinner
    else if mustLogIn && user.None? then RedirectToLogin(location)
    else if Prop(adminOnly, false) && !IsAdmin(user) then RedirectHome
    else if !mustLogIn && user.Some? then RedirectHome
    else Children
  }

  /** With the flags left out a route is protected but open to every role:
      the children show exactly for a logged-in user once loading is over. */
  lemma DefaultsProtect(isLoading: bool, user: Option<Profile>, location: string)
    ensures Guard(None, None, isLoading, user, location) == Guard(Some(true), Some(false), isLoading, user, location)
    ensures Guard(None, None, isLoading, user, location) == Children <==> !isLoading && user.Some?
  {
  }

  /** Whatever the flags, an admin route shows its children only to an
      admin, and a guest-only route only to nobody. */
  lemma ChildrenOnlyForAllowed(requireAuth: Option<bool>, adminOnly: Option<bool>, isLoading: bool,
                               user: Option<Profile>, location: string)
    requires Guard(requireAuth, adminOnly, isLoading, user, location) == Children
    ensures Prop(adminOnly, false) ==> IsAdmin(user)
    ensures !Prop(requireAuth, true) ==> user.None?
    ensures Prop(requireAuth, true) ==> user.Some?
  {
  }

  /** An admin-only route that is also guest-only renders nothing ever:
      without a user the admin check sends home, with one the guest check does. */
  lemma GuestAdminRouteNeverRenders(isLoading: bool, user: Option<Profile>, location: string)
    ensures Guard(Some(false), Some(true), isLoading, user, location) != Children
  {
  }
}

=== FILE: review_controller.dfy ===
/** The review controller (backend/src/controllers/review.controller.ts):
    `setTourUserIds`, which fills in the tour and author of a new review on
    nested routes. The list/get/create/update/delete handlers are the
    generic ones of `HandlerFactory`, bound to the review collection in the
    route tables of `Routes`. */
module ReviewController {
  import opened Common
  import opened Express

  /** `if (!body[key]) body[key] = value`, where an undefined `value` leaves
      the key without a value. */
  function DefaultKey(body: Body, key: string, value: Option<string>): (r: Body)
    ensures Has(body, key) ==> r == body
    ensures !Has(body, key) && value.Some? ==> key in r && r[key] == Str(value.value)
    ensures !Has(body, key) && value.None? ==> key !in r
    ensures forall k :: k != key ==> (k in r <==> k in body) && (k in r ==> r[k] == body[k])
  {
    if Has(body, key) then body
    else if value.Some? then body[key := Str(value.value)]
    else body - {key}
  }

  /** `setTourUserIds`: a falsy `tour` becomes the route's `tourId`, a falsy
      `user` becomes the caller's id; truthy values and every other field
      stay, and the request always goes on. */
  method SetTourUserIds(req: Request) returns (next: Next)
    modifies req`body
    ensures next == Continue
    ensures req.body == DefaultKey(DefaultKey(old(req.body), "tour",
                                              if "tourId" in req.params then Some(req.params["tourId"]) else None),
                                   "user", if req.user.Some? then Some(req.user.value.id) else None)
  {
    if !Has(req.body, "tour") {
      if "tourId" in req.params {
        req.body := req.body["tour" := Str(req.params["tourId"])];
      } else {
        req.body := req.body - {"tour"};
      }
    }
    if !Has(req.body, "user") {
      if req.user.Some? {
        req.body := req.body["user" := Str(req.user.value.id)];
      } else {
        req.body := req.body - {"user"};
      }
    }
    next := Continue;
  }

  /** After `setTourUserIds` on a nested route with a logged-in caller, a
      review body names a tour and an author: its own when given, the
      route's and the caller's otherwise. */
  lemma NestedReviewHasTourAndUser(body: Body, tourId: Id, caller: Id)
    requires tourId != "" && caller != ""
    ensures var r := DefaultKey(DefaultKey(body, "tour", Some(tourId)), "user", Some(caller));
            && Has(r, "tour") && Has(r, "user")
            && (!Has(body, "tour") ==> r["tour"] == Str(tourId))
            && (!Has(body, "user") ==> r["user"] == Str(caller))
            && (Has(body, "tour") ==> r["tour"] == body["tour"])
            && (Has(body, "user") ==> r["user"] == body["user"])
  {
  }
}

=== FILE: routes.dfy ===
/** The route tables of the three files of backend/src/routes and the way Express walks
    them: layers are tried in registration order, `router.use(mw)` runs its
    middleware for every request that gets that far, a route answers only
    its own method and path, and a mounted router that answers nothing hands
    the request back to the router around it. `protect` and `restrictTo`
    decide with the functions of `AuthController`; every other middleware
    continues (what each one does to the request is modelled in its own
    controller). */
module Routes {
  import opened Common
  import opened Express
  import Auth = AuthController

  datatype Method = GET | POST | PATCH | DELETE

  /** One `/`-separated piece of a route path: a literal or a `:name`. */
  datatype Segment = Lit(text: string) | Param(name: string)

  /** The collections the generic handlers of `HandlerFactory` are bound to. */
  datatype Collection = Tours | Users | Reviews
  datatype CrudOp = GetAllOp | GetOneOp | CreateOneOp | UpdateOneOp | DeleteOneOp

  /** The handlers the tables name. */
  datatype Handler =
    // middleware: each one calls `next()` unless it fails the request
    | Protect | RestrictTo(roles: seq<Role>) | AliasTopTours | GetMe
    | UploadUserPhoto | ResizeUserPhoto | SetTourUserIds
    // endpoints: each one answers the request
    | Factory(collection: Collection, op: CrudOp)
    | GetTourBySlug | GetTourStats | GetMonthlyPlan | GetToursWithin | GetDistances
    | Signup | Login | ForgotPassword | ResetPassword | GetUserPhoto
    | UpdateMyPassword | GetMyPhoto | UpdateMe | DeleteMe | CreateUser

  predicate IsMiddleware(h: Handler) {
    h.Protect? || h.RestrictTo? || h.AliasTopTours? || h.GetMe?
    || h.UploadUserPhoto? || h.ResizeUserPhoto? || h.SetTourUserIds?
  }

  datatype Layer =
    | Use(middleware: Handler)
    | Route(pattern: seq<Segment>, verb: Method, handlers: seq<Handler>)
    | Mount(prefix: seq<Segment>, router: Router)

  /** `express.Router({ mergeParams })` with its layers. */
  datatype Router = Router(mergeParams: bool, layers: seq<Layer>)

  /** What the middleware run so far has left: `req.user`, and the
      middleware that ran, in order. */
  datatype State = State(user: Option<LoggedIn>, ran: seq<Handler>)

  /** How a request ends: an endpoint reached with the route params it
      sees, a middleware failing it, or no layer answering (Express's 404). */
  datatype Outcome =
    | Reached(endpoint: Handler, ran: seq<Handler>, params: map<string, string>, user: Option<LoggedIn>)
    | Stopped(error: AppError)
    | NoRoute(state: State)

  datatype StepResult = Go(next: State) | Halt(error: AppError)

  // ---- matching ----

  /** Matches `pattern` against the first segments of `path`; a `:name`
      takes one non-empty segment. The captured params, or `None`. */
  function MatchPrefix(pattern: seq<Segment>, path: seq<string>): (r: Option<map<string, string>>)
    ensures r.Some? ==> |pattern| <= |path|
    decreases |pattern|
  {
    if pattern == [] then Some(map[])
    else if path == [] then None
    else
      match MatchPrefix(pattern[1..], path[1..])
      case None => None
      case Some(rest) =>
        match pattern[0]
        case Lit(text) => if path[0] == text then Some(rest) else None
        case Param(name) => if path[0] != "" then Some(rest[name := path[0]]) else None
  }

  /** A route's path matches the whole request path. */
  function MatchRoute(pattern: seq<Segment>, path: seq<string>): Option<map<string, string>> {
    if |pattern| == |path| then MatchPrefix(pattern, path) else None
  }

  // ---- running middleware ----

  /** One middleware: `protect` admits exactly the requests
      `Auth.Authenticate` grants and records the caller; `restrictTo` admits
      exactly the callers whose role is listed; the others continue. */
  function Step(h: Handler, st: State, auth: Auth.AuthResult): StepResult
    requires IsMiddleware(h)
  {
    match h
    case Protect =>
      (match auth
       case Granted(id, user) => Go(State(Some(LoggedIn(id, user)), st.ran + [h]))
       case Refused(error) => Halt(error))
    case RestrictTo(roles) =>
      (match Auth.RestrictTo(roles, st.user)
       case Continue => Go(st.(ran := st.ran + [h]))
       case Abort(error) => Halt(error))
    case _ => Go(st.(ran := st.ran + [h]))
  }

  /** A route's handler chain: middleware in order until one fails the
      request or an endpoint answers it; a chain whose middleware all call
      `next()` past the end hands the request on. */
  function RunChain(hs: seq<Handler>, st: State, params: map<string, string>, auth: Auth.AuthResult): Outcome
    decreases |hs|
  {
    if hs == [] then NoRoute(st)
    else if !IsMiddleware(hs[0]) then Reached(hs[0], st.ran, params, st.user)
    else
      match Step(hs[0], st, auth)
      case Halt(error) => Stopped(error)
      case Go(next) => RunChain(hs[1..], next, params, auth)
  }

  // ---- the router ----

  /** Express's dispatch from layer `i` of `r` on: `params` are the route
      params this router inherits (its parent's, only with `mergeParams`).
      A layer that neither answers nor fails the request hands it, with
      whatever its middleware recorded, to the next one. */
  function Run(r: Router, i: nat, verb: Method, path: seq<string>, params: map<string, string>,
               st: State, auth: Auth.AuthResult): Outcome
    requires i <= |r.layers|
    decreases r, |r.layers| - i, 1
  {
    if i == |r.layers| then NoRoute(st)
    else
      var o := RunLayer(r, i, verb, path, params, st, auth);
      if o.NoRoute? then Run(r, i + 1, verb, path, params, o.state, auth) else o
  }

  /** What layer `i` of `r` does to a request: `router.use(mw)` runs its
      middleware on every request; a route runs its chain when both method
      and path match; a mounted router gets the rest of the path, with the
      mount's params only when it merges them. */
  function RunLayer(r: Router, i: nat, verb: Method, path: seq<string>, params: map<string, string>,
                    st: State, auth: Auth.AuthResult): Outcome
    requires i < |r.layers|
    decreases r, |r.layers| - i, 0
  {
    match r.layers[i]
    case Use(mw) =>
      if !IsMiddleware(mw) then NoRoute(st)
      else
        (match Step(mw, st, auth)
         case Halt(error) => Stopped(error)
         case Go(next) => NoRoute(next))
    case Route(pattern, m, hs) =>
      var captured := MatchRoute(pattern, path);
      if m != verb || captured.None? then NoRoute(st)
      else RunChain(hs, st, params + captured.value, auth)
    case Mount(prefix, sub) =>
      var captured := MatchPrefix(prefix, path);
      if captured.None? then NoRoute(st)
      else
        assert sub < r.layers[i];
        Run(sub, 0, verb, path[|prefix|..], if sub.mergeParams then params + captured.value else map[], st, auth)
  }

  /** A request arriving at router `r`, with `path` relative to its mount
      point and `auth` what `Auth.Authenticate` makes of its token. */
  function Dispatch(r: Router, verb: Method, path: seq<string>, auth: Auth.AuthResult): Outcome {
    Run(r, 0, verb, path, map[], State(None, []), auth)
  }

  // ---- the tables ----

  const ListReviewsRoute := Route([], GET, [Factory(Reviews, GetAllOp)])
  const CreateReviewRoute := Route([], POST, [RestrictTo([User]), SetTourUserIds, Factory(Reviews, CreateOneOp)])
  const GetReviewRoute := Route([Param("id")], GET, [Factory(Reviews, GetOneOp)])
  const UpdateReviewRoute := Route([Param("id")], PATCH, [RestrictTo([User, Admin]), Factory(Reviews, UpdateOneOp)])
  const DeleteReviewRoute := Route([Param("id")], DELETE, [RestrictTo([User, Admin]), Factory(Reviews, DeleteOneOp)])

  const ReviewRouter := Router(true, [
    Use(Protect),
    ListReviewsRoute, CreateReviewRoute, GetReviewRoute, UpdateReviewRoute, DeleteReviewRoute
  ])

  const NestedReviewsMount := Mount([Param("tourId"), Lit("reviews")], ReviewRouter)
  const TopToursRoute := Route([Lit("top-5-cheap")], GET, [AliasTopTours, Factory(Tours, GetAllOp)])
  const TourStatsRoute := Route([Lit("tour-stats")], GET, [GetTourStats])
  const MonthlyPlanRoute := Route([Lit("monthly-plan"), Param("year")], GET,
                                  [Protect, RestrictTo([Admin, LeadGuide, Guide]), GetMonthlyPlan])
  const ToursWithinRoute := Route([Lit("tours-within"), Param("distance"), Lit("center"), Param("latlng"),
                                   Lit("unit"), Param("unit")], GET, [GetToursWithin])
  const DistancesRoute := Route([Lit("distances"), Param("latlng"), Lit("unit"), Param("unit")], GET, [GetDistances])
  const ListToursRoute := Route([], GET, [Factory(Tours, GetAllOp)])
  const CreateTourRoute := Route([], POST, [Protect, RestrictTo([Admin, LeadGuide]), Factory(Tours, CreateOneOp)])
  const GetTourRoute := Route([Param("id")], GET, [GetTourBySlug])
  const UpdateTourRoute := Route([Param("id")], PATCH, [Protect, RestrictTo([Admin, LeadGuide]), Factory(Tours, UpdateOneOp)])
  const DeleteTourRoute := Route([Param("id")], DELETE, [Protect, RestrictTo([Admin, LeadGuide]), Factory(Tours, DeleteOneOp)])

  const TourRouter := Router(false, [
    NestedReviewsMount,
    TopToursRoute, TourStatsRoute, MonthlyPlanRoute, ToursWithinRoute, DistancesRoute,
    ListToursRoute, CreateTourRoute,
    GetTourRoute, UpdateTourRoute, DeleteTourRoute
  ])

  const SignupRoute := Route([Lit("signup")], POST, [Signup])
  const LoginRoute := Route([Lit("login")], POST, [Login])
  const ForgotPasswordRoute := Route([Lit("forgotPassword")], POST, [ForgotPassword])
  const ResetPasswordRoute := Route([Lit("resetPassword"), Param("token")], PATCH, [ResetPassword])
  const UserPhotoRoute := Route([Lit("photo"), Param("filename")], GET, [GetUserPhoto])
  const UpdateMyPasswordRoute := Route([Lit("updateMyPassword")], PATCH, [UpdateMyPassword])
  const MeRoute := Route([Lit("me")], GET, [GetMe, Factory(Users, GetOneOp)])
  const MyPhotoRoute := Route([Lit("me"), Lit("photo")], GET, [GetMyPhoto])
  const UpdateMeRoute := Route([Lit("updateMe")], PATCH, [UploadUserPhoto, ResizeUserPhoto, UpdateMe])
  const DeleteMeRoute := Route([Lit("deleteMe")], DELETE, [DeleteMe])
  const ListUsersRoute := Route([], GET, [Factory(Users, GetAllOp)])
  const CreateUserRoute := Route([], POST, [CreateUser])
  const GetUserRoute := Route([Param("id")], GET, [Factory(Users, GetOneOp)])
  const UpdateUserRoute := Route([Param("id")], PATCH, [Factory(Users, UpdateOneOp)])
  const DeleteUserRoute := Route([Param("id")], DELETE, [Factory(Users, DeleteOneOp)])

  const UserRouter := Router(false, [
    SignupRoute, LoginRoute, ForgotPasswordRoute, ResetPasswordRoute, UserPhotoRoute,
    Use(Protect),
    UpdateMyPasswordRoute, MeRoute, MyPhotoRoute, UpdateMeRoute, DeleteMeRoute,
    Use(RestrictTo([Admin])),
    ListUsersRoute, CreateUserRoute, GetUserRoute, UpdateUserRoute, DeleteUserRoute
  ])

  /** The mounts of backend/src/app.ts. */
  const App := Router(false, [
    Mount([Lit("api"), Lit("v1"), Lit("tours")], TourRouter),
    Mount([Lit("api"), Lit("v1"), Lit("users")], UserRouter),
    Mount([Lit("api"), Lit("v1"), Lit("reviews")], ReviewRouter)
  ])

  // ---- what the tables decide ----

  /** What `protect` followed by `restrictTo(roles)` decides for a request. */
  function Guard(auth: Auth.AuthResult, roles: seq<Role>): (n: Next)
    ensures n == Continue <==> auth.Granted? && auth.user.role in roles
    ensures auth.Refused? ==> n == Abort(auth.error)
    ensures auth.Granted? && n.Abort? ==> n.error.statusCode == 403
  {
    if auth.Refused? then Abort(auth.error)
    else Auth.RestrictTo(roles, Some(LoggedIn(auth.id, auth.user)))
  }

  /** What `protect` alone decides. */
  function LoginRequired(auth: Auth.AuthResult): (n: Next)
    ensures n == Continue <==> auth.Granted?
    ensures auth.Refused? ==> n == Abort(auth.error)
  {
    if auth.Refused? then Abort(auth.error) else Continue
  }

  /** The request reaches `endpoint` when the decision is to continue, and
      is failed with the decision's error otherwise. */
  predicate Decides(o: Outcome, endpoint: Handler, decision: Next) {
    && (decision == Continue ==> o.Reached? && o.endpoint == endpoint)
    && (decision.Abort? ==> o == Stopped(decision.error))
  }

  /** `protect` admits exactly the requests `Auth.Authenticate` grants and
      records the caller; `restrictTo(roles)` admits exactly the callers
      whose role is listed and refuses the others with 403; every other
      middleware continues and leaves the caller as it is. */
  lemma StepDecides(h: Handler, st: State, auth: Auth.AuthResult)
    requires IsMiddleware(h)
    ensures h.Protect? ==> (Step(h, st, auth).Go? <==> auth.Granted?)
    ensures h.Protect? && auth.Granted? ==> Step(h, st, auth).next.user == Some(LoggedIn(auth.id, auth.user))
    ensures h.Protect? && auth.Refused? ==> Step(h, st, auth) == Halt(auth.error)
    ensures h.RestrictTo? ==> (Step(h, st, auth).Go? <==> st.user.Some? && st.user.value.user.role in h.roles)
    ensures h.RestrictTo? && Step(h, st, auth).Halt? ==> Step(h, st, auth).error.statusCode == 403
    ensures !h.Protect? && !h.RestrictTo? ==> Step(h, st, auth).Go? && Step(h, st, auth).next.user == st.user
    ensures Step(h, st, auth).Go? ==> Step(h, st, auth).next.ran == st.ran + [h]
  {
  }

  /** A matched pattern's literals are in the path and each of its
      `:name`s is among the captured params. */
  lemma {:induction false} MatchPrefixSound(pattern: seq<Segment>, path: seq<string>)
    requires MatchPrefix(pattern, path).Some?
    ensures |pattern| <= |path|
    ensures forall k | 0 <= k < |pattern| && pattern[k].Lit? :: path[k] == pattern[k].text
    ensures forall k | 0 <= k < |pattern| && pattern[k].Param? :: pattern[k].name in MatchPrefix(pattern, path).value
    decreases |pattern|
  {
    if pattern != [] {
      MatchPrefixSound(pattern[1..], path[1..]);
      assert forall k | 1 <= k < |pattern| :: pattern[k] == pattern[1..][k - 1] && path[k] == path[1..][k - 1];
    }
  }

  /** A layer the request goes past without running anything. */
  predicate Passes(l: Layer, verb: Method, path: seq<string>) {
    match l
    case Use(_) => false
    case Route(pattern, m, _) => m != verb || MatchRoute(pattern, path).None?
    case Mount(prefix, _) => MatchPrefix(prefix, path).None?
  }

  lemma {:induction false} PassMany(r: Router, i: nat, j: nat, verb: Method, path: seq<string>,
                                    params: map<string, string>, st: State, auth: Auth.AuthResult)
    requires i <= j <= |r.layers|
    requires forall k | i <= k < j :: Passes(r.layers[k], verb, path)
    ensures Run(r, i, verb, path, params, st, auth) == Run(r, j, verb, path, params, st, auth)
    decreases j - i
  {
    if i < j {
      PassMany(r, i + 1, j, verb, path, params, st, auth);
    }
  }

  /** The state `protect` leaves for a granted request. */
  function Protected(st: State, auth: Auth.AuthResult): State
    requires auth.Granted?
  {
    State(Some(LoggedIn(auth.id, auth.user)), st.ran + [Protect])
  }

  /** `router.use(protect)`: a refused request is failed, a granted one
      goes on with the caller recorded. */
  lemma ProtectLayer(r: Router, i: nat, verb: Method, path: seq<string>, params: map<string, string>,
                     st: State, auth: Auth.AuthResult)
    requires i < |r.layers| && r.layers[i] == Use(Protect)
    ensures auth.Refused? ==> Run(r, i, verb, path, params, st, auth) == Stopped(auth.error)
    ensures auth.Granted? ==>
              Run(r, i, verb, path, params, st, auth) == Run(r, i + 1, verb, path, params, Protected(st, auth), auth)
  {
  }

  /** `router.use(restrictTo(roles))`: a caller without a listed role is
      failed with 403, the others go on. */
  lemma RestrictLayer(r: Router, i: nat, roles: seq<Role>, verb: Method, path: seq<string>,
                      params: map<string, string>, st: State, auth: Auth.AuthResult)
    requires i < |r.layers| && r.layers[i] == Use(RestrictTo(roles))
    ensures !(st.user.Some? && st.user.value.user.role in roles) ==>
              Run(r, i, verb, path, params, st, auth) == Stopped(Auth.Forbidden)
    ensures st.user.Some? && st.user.value.user.role in roles ==>
              Run(r, i, verb, path, params, st, auth)
              == Run(r, i + 1, verb, path, params, st.(ran := st.ran + [RestrictTo(roles)]), auth)
  {
  }

  /** A route whose method and path match and whose chain answers or fails
      the request decides it. */
  lemma RouteLayer(r: Router, i: nat, verb: Method, path: seq<string>, params: map<string, string>,
                   st: State, auth: Auth.AuthResult)
    requires i < |r.layers| && r.layers[i].Route? && r.layers[i].verb == verb
    requires MatchRoute(r.layers[i].pattern, path).Some?
    requires !RunChain(r.layers[i].handlers, st, params + MatchRoute(r.layers[i].pattern, path).value, auth).NoRoute?
    ensures Run(r, i, verb, path, params, st, auth)
            == RunChain(r.layers[i].handlers, st, params + MatchRoute(r.layers[i].pattern, path).value, auth)
  {
  }

  /** A chain of middleware that always continue, ending in an endpoint. */
  predicate OpenChain(hs: seq<Handler>) {
    && |hs| > 0 && !IsMiddleware(hs[|hs| - 1])
    && forall k | 0 <= k < |hs| - 1 :: IsMiddleware(hs[k]) && !hs[k].Protect? && !hs[k].RestrictTo?
  }

  /** An open chain reaches its endpoint after running the middleware before it. */
  lemma {:induction false} OpenChainReaches(hs: seq<Handler>, st: State, params: map<string, string>, auth: Auth.AuthResult)
    requires OpenChain(hs)
    ensures RunChain(hs, st, params, auth) == Reached(hs[|hs| - 1], st.ran + hs[..|hs| - 1], params, st.user)
    decreases |hs|
  {
    if |hs| > 1 {
      var next := Step(hs[0], st, auth).next;
      assert OpenChain(hs[1..]) by {
        forall k | 0 <= k < |hs[1..]| - 1
          ensures IsMiddleware(hs[1..][k]) && !hs[1..][k].Protect? && !hs[1..][k].RestrictTo?
        {
          assert hs[1..][k] == hs[k + 1];
        }
      }
      OpenChainReaches(hs[1..], next, params, auth);
      assert st.ran + [hs[0]] + hs[1..][..|hs[1..]| - 1] == st.ran + hs[..|hs| - 1];
    }
  }

  /** `restrictTo(roles)` in front of an open chain, with the caller
      already recorded by `protect`. */
  lemma RestrictedChain(roles: seq<Role>, rest: seq<Handler>, st: State, params: map<string, string>, auth: Auth.AuthResult)
    requires OpenChain(rest)
    ensures !(st.user.Some? && st.user.value.user.role in roles) ==>
              RunChain([RestrictTo(roles)] + rest, st, params, auth) == Stopped(Auth.Forbidden)
    ensures st.user.Some? && st.user.value.user.role in roles ==>
              RunChain([RestrictTo(roles)] + rest, st, params, auth)
              == Reached(rest[|rest| - 1], st.ran + [RestrictTo(roles)] + rest[..|rest| - 1], params, st.user)
  {
    var hs := [RestrictTo(roles)] + rest;
    assert hs[1..] == rest;
    if st.user.Some? && st.user.value.user.role in roles {
      OpenChainReaches(rest, st.(ran := st.ran + [RestrictTo(roles)]), params, auth);
    }
  }

  /** What `protect` then `restrictTo(roles)` then an endpoint do. */
  lemma GuardedChain(roles: seq<Role>, e: Handler, st: State, params: map<string, string>, auth: Auth.AuthResult)
    requires !IsMiddleware(e)
    ensures Decides(RunChain([Protect, RestrictTo(roles), e], st, params, auth), e, Guard(auth, roles))
    ensures RunChain([Protect, RestrictTo(roles), e], st, params, auth).Reached? ==>
              RunChain([Protect, RestrictTo(roles), e], st, params, auth)
                == Reached(e, st.ran + [Protect, RestrictTo(roles)], params, Some(LoggedIn(auth.id, auth.user)))
  {
    if auth.Granted? {
      var s1 := Step(Protect, st, auth).next;
      assert RunChain([Protect, RestrictTo(roles), e], st, params, auth) == RunChain([RestrictTo(roles), e], s1, params, auth);
      if auth.user.role in roles {
        var s2 := Step(RestrictTo(roles), s1, auth).next;
        assert RunChain([RestrictTo(roles), e], s1, params, auth) == RunChain([e], s2, params, auth);
      }
    }
  }

  /** A pattern matches when each literal is there and each `:name` has a
      non-empty segment. */
  lemma {:induction false} MatchPrefixSucceeds(pattern: seq<Segment>, path: seq<string>)
    requires |pattern| <= |path|
    requires forall k | 0 <= k < |pattern| :: if pattern[k].Lit? then path[k] == pattern[k].text else path[k] != ""
    ensures MatchPrefix(pattern, path).Some?
    decreases |pattern|
  {
    if pattern != [] {
      MatchPrefixSucceeds(pattern[1..], path[1..]);
    }
  }

  const Start := State(None, [])

  /** A request that goes past layers `j` to `i` of a router, and matches
      route `i` whose chain is open, reaches that route's endpoint with the
      caller it came with. */
  lemma ReachesOpenRouteFrom(r: Router, j: nat, i: nat, verb: Method, path: seq<string>, st: State, auth: Auth.AuthResult)
    requires j <= i < |r.layers| && r.layers[i].Route? && r.layers[i].verb == verb && OpenChain(r.layers[i].handlers)
    requires MatchRoute(r.layers[i].pattern, path).Some?
    requires forall k | j <= k < i :: Passes(r.layers[k], verb, path)
    ensures var hs := r.layers[i].handlers;
            Run(r, j, verb, path, map[], st, auth)
            == Reached(hs[|hs| - 1], st.ran + hs[..|hs| - 1], MatchRoute(r.layers[i].pattern, path).value, st.user)
  {
    var hs := r.layers[i].handlers;
    var captured := MatchRoute(r.layers[i].pattern, path).value;
    PassMany(r, j, i, verb, path, map[], st, auth);
    OpenChainReaches(hs, st, map[] + captured, auth);
    RouteLayer(r, i, verb, path, map[], st, auth);
    assert map[] + captured == captured;
  }

  /** The same from the start of a router, with nobody logged in. */
  lemma ReachesOpenRoute(r: Router, i: nat, verb: Method, path: seq<string>, auth: Auth.AuthResult)
    requires i < |r.layers| && r.layers[i].Route? && r.layers[i].verb == verb && OpenChain(r.layers[i].handlers)
    requires MatchRoute(r.layers[i].pattern, path).Some?
    requires forall k | 0 <= k < i :: Passes(r.layers[k], verb, path)
    ensures var hs := r.layers[i].handlers;
            Dispatch(r, verb, path, auth)
            == Reached(hs[|hs| - 1], hs[..|hs| - 1], MatchRoute(r.layers[i].pattern, path).value, None)
  {
    var hs := r.layers[i].handlers;
    ReachesOpenRouteFrom(r, 0, i, verb, path, Start, auth);
    assert Start.ran + hs[..|hs| - 1] == hs[..|hs| - 1];
  }


  // ---- backend/src/routes/tour.routes.ts ----

  /** `/top-5-cheap` is public and runs `aliasTopTours` before the list. */
  lemma TopToursRunsAliasFirst(auth: Auth.AuthResult)
    ensures var o := Dispatch(TourRouter, GET, ["top-5-cheap"], auth);
            o.Reached? && o.endpoint == Factory(Tours, GetAllOp) && o.ran == [AliasTopTours] && o.user.None?
  {
    assert Passes(TourRouter.layers[0], GET, ["top-5-cheap"]);
    ReachesOpenRoute(TourRouter, 1, GET, ["top-5-cheap"], auth);
    assert TopToursRoute.handlers[..1] == [AliasTopTours];
  }

  /** `/tour-stats` is public. */
  lemma TourStatsPublic(auth: Auth.AuthResult)
    ensures var o := Dispatch(TourRouter, GET, ["tour-stats"], auth);
            o.Reached? && o.endpoint == GetTourStats && o.ran == [] && o.user.None?
  {
    forall k | 0 <= k < 2 ensures Passes(TourRouter.layers[k], GET, ["tour-stats"]) {
      assert k in {0, 1};
    }
    ReachesOpenRoute(TourRouter, 2, GET, ["tour-stats"], auth);
  }

  /** `/monthly-plan/:year` needs a login and the role admin, lead-guide or
      guide. A year of "reviews" is taken by the nested review mount first
      (see `MonthlyPlanShadowedByReviews`). */
  lemma MonthlyPlanAccess(year: string, auth: Auth.AuthResult)
    requires year != "" && year != "reviews"
    ensures Decides(Dispatch(TourRouter, GET, ["monthly-plan", year], auth), GetMonthlyPlan,
                    Guard(auth, [Admin, LeadGuide, Guide]))
  {
    var path := ["monthly-plan", year];
    forall k | 0 <= k < 3 ensures Passes(TourRouter.layers[k], GET, path) {
      assert k in {0, 1, 2};
    }
    PassMany(TourRouter, 0, 3, GET, path, map[], Start, auth);
    MatchPrefixSucceeds(MonthlyPlanRoute.pattern, path);
    var params := map[] + MatchRoute(MonthlyPlanRoute.pattern, path).value;
    GuardedChain([Admin, LeadGuide, Guide], GetMonthlyPlan, Start, params, auth);
    RouteLayer(TourRouter, 3, GET, path, map[], Start, auth);
  }

  /** A path of three or more segments whose second one is not "reviews"
      goes past the nested mount and the routes of one or two segments. */
  lemma LongPathsPassEarlyLayers(path: seq<string>)
    requires |path| > 2 && path[1] != "reviews"
    ensures forall k | 0 <= k < 4 :: Passes(TourRouter.layers[k], GET, path)
  {
    forall k | 0 <= k < 4 ensures Passes(TourRouter.layers[k], GET, path) {
      assert k in {0, 1, 2, 3};
    }
  }

  lemma ToursWithinMatches(distance: string, latlng: string, unit: string)
    requires distance != "" && latlng != "" && unit != ""
    ensures MatchRoute(ToursWithinRoute.pattern, ["tours-within", distance, "center", latlng, "unit", unit]).Some?
  {
    MatchPrefixSucceeds(ToursWithinRoute.pattern, ["tours-within", distance, "center", latlng, "unit", unit]);
  }

  /** `/tours-within/:distance/center/:latlng/unit/:unit` is public. */
  lemma ToursWithinPublic(distance: string, latlng: string, unit: string, auth: Auth.AuthResult)
    requires distance != "" && latlng != "" && unit != "" && distance != "reviews"
    ensures var o := Dispatch(TourRouter, GET, ["tours-within", distance, "center", latlng, "unit", unit], auth);
            o.Reached? && o.endpoint == GetToursWithin && o.ran == [] && o.user.None?
  {
    var path := ["tours-within", distance, "center", latlng, "unit", unit];
    LongPathsPassEarlyLayers(path);
    ToursWithinMatches(distance, latlng, unit);
    ReachesOpenRoute(TourRouter, 4, GET, path, auth);
  }

  /** `/distances/:latlng/unit/:unit` is public. */
  lemma DistancesPublic(latlng: string, unit: string, auth: Auth.AuthResult)
    requires latlng != "" && unit != "" && latlng != "reviews"
    ensures var o := Dispatch(TourRouter, GET, ["distances", latlng, "unit", unit], auth);
            o.Reached? && o.endpoint == GetDistances && o.ran == [] && o.user.None?
  {
    var path := ["distances", latlng, "unit", unit];
    LongPathsPassEarlyLayers(path);
    assert Passes(TourRouter.layers[4], GET, path);
    MatchPrefixSucceeds(DistancesRoute.pattern, path);
    ReachesOpenRoute(TourRouter, 5, GET, path, auth);
  }

  /** Listing the tours is public. */
  lemma AllToursPublic(auth: Auth.AuthResult)
    ensures var o := Dispatch(TourRouter, GET, [], auth);
            o.Reached? && o.endpoint == Factory(Tours, GetAllOp) && o.ran == [] && o.user.None?
  {
    forall k | 0 <= k < 6 ensures Passes(TourRouter.layers[k], GET, []) {
      assert k in {0, 1, 2, 3, 4, 5};
    }
    ReachesOpenRoute(TourRouter, 6, GET, [], auth);
  }

  /** Creating a tour needs a login and the role admin or lead-guide. */
  lemma CreateTourAccess(auth: Auth.AuthResult)
    ensures Decides(Dispatch(TourRouter, POST, [], auth), Factory(Tours, CreateOneOp), Guard(auth, [Admin, LeadGuide]))
  {
    forall k | 0 <= k < 7 ensures Passes(TourRouter.layers[k], POST, []) {
      assert k in {0, 1, 2, 3, 4, 5, 6};
    }
    PassMany(TourRouter, 0, 7, POST, [], map[], Start, auth);
    GuardedChain([Admin, LeadGuide], Factory(Tours, CreateOneOp), Start, map[] + map[], auth);
    RouteLayer(TourRouter, 7, POST, [], map[], Start, auth);
  }

  /** A one-segment path goes past the first eight layers of the tour
      router, unless it is one of the two named `GET` routes. */
  lemma OneIdPassesEarlyLayers(verb: Method, id: string)
    requires id != "" && (verb == GET ==> id != "top-5-cheap" && id != "tour-stats")
    ensures forall k | 0 <= k < 8 :: Passes(TourRouter.layers[k], verb, [id])
  {
    forall k | 0 <= k < 8 ensures Passes(TourRouter.layers[k], verb, [id]) {
      assert k in {0, 1, 2, 3, 4, 5, 6, 7};
    }
  }

  /** Reading one tour by id is public. */
  lemma TourLookupPublic(id: string, auth: Auth.AuthResult)
    requires id != "" && id != "top-5-cheap" && id != "tour-stats"
    ensures var o := Dispatch(TourRouter, GET, [id], auth);
            o.Reached? && o.endpoint == GetTourBySlug && o.ran == [] && o.user.None?
            && "id" in o.params && o.params["id"] == id
  {
    OneIdPassesEarlyLayers(GET, id);
    ReachesOpenRoute(TourRouter, 8, GET, [id], auth);
  }

  /** Updating a tour needs a login and the role admin or lead-guide. */
  lemma UpdateTourAccess(id: string, auth: Auth.AuthResult)
    requires id != ""
    ensures Decides(Dispatch(TourRouter, PATCH, [id], auth), Factory(Tours, UpdateOneOp), Guard(auth, [Admin, LeadGuide]))
  {
    OneIdPassesEarlyLayers(PATCH, id);
    PassMany(TourRouter, 0, 9, PATCH, [id], map[], Start, auth);
    GuardedChain([Admin, LeadGuide], Factory(Tours, UpdateOneOp), Start, map[] + map["id" := id], auth);
    RouteLayer(TourRouter, 9, PATCH, [id], map[], Start, auth);
  }

  /** Deleting a tour needs a login and the role admin or lead-guide. */
  lemma DeleteTourAccess(id: string, auth: Auth.AuthResult)
    requires id != ""
    ensures Decides(Dispatch(TourRouter, DELETE, [id], auth), Factory(Tours, DeleteOneOp), Guard(auth, [Admin, LeadGuide]))
  {
    OneIdPassesEarlyLayers(DELETE, id);
    assert Passes(TourRouter.layers[8], DELETE, [id]) && Passes(TourRouter.layers[9], DELETE, [id]);
    PassMany(TourRouter, 0, 10, DELETE, [id], map[], Start, auth);
    GuardedChain([Admin, LeadGuide], Factory(Tours, DeleteOneOp), Start, map[] + map["id" := id], auth);
    RouteLayer(TourRouter, 10, DELETE, [id], map[], Start, auth);
  }

  /** Outside the nested review mount, every request of the tour router
      that changes something and reaches an endpoint came from an admin or
      lead-guide. */
  lemma TourChangesNeedStaff(verb: Method, path: seq<string>, auth: Auth.AuthResult)
    requires verb != GET
    requires MatchPrefix(NestedReviewsMount.prefix, path).None?
    ensures Dispatch(TourRouter, verb, path, auth).Reached? ==> Guard(auth, [Admin, LeadGuide]) == Continue
  {
    forall k | 0 <= k < 7 ensures Passes(TourRouter.layers[k], verb, path) {
      assert k in {0, 1, 2, 3, 4, 5, 6};
    }
    PassMany(TourRouter, 0, 7, verb, path, map[], Start, auth);
    var i := if verb == POST then 7 else if verb == PATCH then 9 else 10;
    OtherVerbsPass(verb, path, i);
    PassMany(TourRouter, 7, i, verb, path, map[], Start, auth);
    PassMany(TourRouter, i + 1, 11, verb, path, map[], Start, auth);
    var l := TourRouter.layers[i];
    if MatchRoute(l.pattern, path).Some? {
      GuardedChain([Admin, LeadGuide], l.handlers[2], Start, map[] + MatchRoute(l.pattern, path).value, auth);
    }
  }

  /** Among the last four layers of the tour router, only the one of its
      own method can take a request. */
  lemma OtherVerbsPass(verb: Method, path: seq<string>, i: nat)
    requires verb != GET && i == (if verb == POST then 7 else if verb == PATCH then 9 else 10)
    ensures forall k | 7 <= k < 11 && k != i :: Passes(TourRouter.layers[k], verb, path)
  {
    forall k | 7 <= k < 11 && k != i ensures Passes(TourRouter.layers[k], verb, path) {
      assert k in {7, 8, 9, 10};
    }
  }

  /** The nested mount: `/:tourId/reviews...` is handed to the review
      router with the tour id as a route param; only when that router
      answers nothing does the tour router try its own routes. */
  lemma NestedReviewsHandOver(tourId: string, verb: Method, rest: seq<string>, auth: Auth.AuthResult)
    requires tourId != ""
    ensures var o := Run(ReviewRouter, 0, verb, rest, map["tourId" := tourId], Start, auth);
            var path := [tourId, "reviews"] + rest;
            && (!o.NoRoute? ==> Dispatch(TourRouter, verb, path, auth) == o)
            && (o.NoRoute? ==> Dispatch(TourRouter, verb, path, auth) == Run(TourRouter, 1, verb, path, map[], o.state, auth))
  {
    var path := [tourId, "reviews"] + rest;
    assert path[1..][1..] == rest;
    assert MatchPrefix(NestedReviewsMount.prefix, path) == Some(map["tourId" := tourId]);
    assert path[2..] == rest;
    assert map[] + map["tourId" := tourId] == map["tourId" := tourId];
    var o := Run(ReviewRouter, 0, verb, rest, map["tourId" := tourId], Start, auth);
    assert RunLayer(TourRouter, 0, verb, path, map[], Start, auth) == o;
  }

  // ---- backend/src/routes/review.routes.ts ----

  /** `router.use(protect)` comes first: no review route runs without a login. */
  lemma ReviewLoginWall(r: Router, verb: Method, path: seq<string>, params: map<string, string>, auth: Auth.AuthResult)
    requires r.layers == ReviewRouter.layers && auth.Refused?
    ensures Run(r, 0, verb, path, params, Start, auth) == Stopped(auth.error)
  {
    ProtectLayer(r, 0, verb, path, params, Start, auth);
  }

  /** Listing reviews needs a login only, and the list sees the params the
      router inherits. */
  lemma ListReviewsAccess(r: Router, params: map<string, string>, auth: Auth.AuthResult)
    requires r.layers == ReviewRouter.layers
    ensures var o := Run(r, 0, GET, [], params, Start, auth);
            && Decides(o, Factory(Reviews, GetAllOp), LoginRequired(auth))
            && (o.Reached? ==> o.params == params && o.ran == [Protect])
  {
    ProtectLayer(r, 0, GET, [], params, Start, auth);
    if auth.Granted? {
      assert params + map[] == params;
      RouteLayer(r, 1, GET, [], params, Protected(Start, auth), auth);
    }
  }

  /** Reading one review needs a login only. */
  lemma GetReviewAccess(id: string, params: map<string, string>, auth: Auth.AuthResult)
    requires id != ""
    ensures Decides(Run(ReviewRouter, 0, GET, [id], params, Start, auth), Factory(Reviews, GetOneOp), LoginRequired(auth))
  {
    ProtectLayer(ReviewRouter, 0, GET, [id], params, Start, auth);
    if auth.Granted? {
      var st := Protected(Start, auth);
      PassMany(ReviewRouter, 1, 3, GET, [id], params, st, auth);
      RouteLayer(ReviewRouter, 3, GET, [id], params, st, auth);
    }
  }

  /** Writing a review needs a login and the role user; `setTourUserIds`
      runs before the handler, which sees the params the router inherits. */
  lemma CreateReviewAccess(r: Router, params: map<string, string>, auth: Auth.AuthResult)
    requires r.layers == ReviewRouter.layers
    ensures var o := Run(r, 0, POST, [], params, Start, auth);
            && Decides(o, Factory(Reviews, CreateOneOp), Guard(auth, [User]))
            && (o.Reached? ==> o.params == params && o.ran == [Protect, RestrictTo([User]), SetTourUserIds])
  {
    ProtectLayer(r, 0, POST, [], params, Start, auth);
    if auth.Granted? {
      var st := Protected(Start, auth);
      assert params + map[] == params;
      assert CreateReviewRoute.handlers == [RestrictTo([User])] + [SetTourUserIds, Factory(Reviews, CreateOneOp)];
      RestrictedChain([User], [SetTourUserIds, Factory(Reviews, CreateOneOp)], st, params, auth);
      assert Passes(r.layers[1], POST, []);
      RouteLayer(r, 2, POST, [], params, st, auth);
    }
  }

  /** Changing a review needs a login and the role user or admin. */
  lemma UpdateReviewAccess(id: string, params: map<string, string>, auth: Auth.AuthResult)
    requires id != ""
    ensures Decides(Run(ReviewRouter, 0, PATCH, [id], params, Start, auth), Factory(Reviews, UpdateOneOp),
                    Guard(auth, [User, Admin]))
  {
    ProtectLayer(ReviewRouter, 0, PATCH, [id], params, Start, auth);
    if auth.Granted? {
      var st := Protected(Start, auth);
      forall k | 1 <= k < 4 ensures Passes(ReviewRouter.layers[k], PATCH, [id]) {
        assert k in {1, 2, 3};
      }
      PassMany(ReviewRouter, 1, 4, PATCH, [id], params, st, auth);
      assert UpdateReviewRoute.handlers == [RestrictTo([User, Admin])] + [Factory(Reviews, UpdateOneOp)];
      RestrictedChain([User, Admin], [Factory(Reviews, UpdateOneOp)], st, params + map["id" := id], auth);
      RouteLayer(ReviewRouter, 4, PATCH, [id], params, st, auth);
    }
  }

  /** Deleting a review needs a login and the role user or admin. */
  lemma DeleteReviewAccess(id: string, params: map<string, string>, auth: Auth.AuthResult)
    requires id != ""
    ensures Decides(Run(ReviewRouter, 0, DELETE, [id], params, Start, auth), Factory(Reviews, DeleteOneOp),
                    Guard(auth, [User, Admin]))
  {
    ProtectLayer(ReviewRouter, 0, DELETE, [id], params, Start, auth);
    if auth.Granted? {
      var st := Protected(Start, auth);
      forall k | 1 <= k < 5 ensures Passes(ReviewRouter.layers[k], DELETE, [id]) {
        assert k in {1, 2, 3, 4};
      }
      PassMany(ReviewRouter, 1, 5, DELETE, [id], params, st, auth);
      assert DeleteReviewRoute.handlers == [RestrictTo([User, Admin])] + [Factory(Reviews, DeleteOneOp)];
      RestrictedChain([User, Admin], [Factory(Reviews, DeleteOneOp)], st, params + map["id" := id], auth);
      RouteLayer(ReviewRouter, 5, DELETE, [id], params, st, auth);
    }
  }

  /** `GET /tours/:tourId/reviews` lists reviews for a logged-in caller, and
      thanks to `mergeParams` the list sees the tour id. */
  lemma NestedReviewListSeesTourId(tourId: string, auth: Auth.AuthResult)
    requires tourId != ""
    ensures var o := Dispatch(TourRouter, GET, [tourId, "reviews"], auth);
            && Decides(o, Factory(Reviews, GetAllOp), LoginRequired(auth))
            && (o.Reached? ==> "tourId" in o.params && o.params["tourId"] == tourId)
  {
    NestedReviewsHandOver(tourId, GET, [], auth);
    ListReviewsAccess(ReviewRouter, map["tourId" := tourId], auth);
    assert [tourId, "reviews"] + [] == [tourId, "reviews"];
  }

  /** `POST /tours/:tourId/reviews` writes a review for a caller with role
      user, after `setTourUserIds`, with the tour id in the params. */
  lemma NestedReviewCreateSeesTourId(tourId: string, auth: Auth.AuthResult)
    requires tourId != ""
    ensures var o := Dispatch(TourRouter, POST, [tourId, "reviews"], auth);
            && Decides(o, Factory(Reviews, CreateOneOp), Guard(auth, [User]))
            && (o.Reached? ==> "tourId" in o.params && o.params["tourId"] == tourId
                               && o.ran == [Protect, RestrictTo([User]), SetTourUserIds])
  {
    NestedReviewsHandOver(tourId, POST, [], auth);
    CreateReviewAccess(ReviewRouter, map["tourId" := tourId], auth);
    assert [tourId, "reviews"] + [] == [tourId, "reviews"];
  }

  /** The same tables with a review router that does not merge params:
      the nested list would no longer see the tour id. */
  lemma WithoutMergeParamsTourIdIsLost(tourId: string, auth: Auth.AuthResult)
    requires tourId != ""
    ensures var unmerged := TourRouter.(layers := TourRouter.layers[0 := NestedReviewsMount.(router := ReviewRouter.(mergeParams := false))]);
            var o := Dispatch(unmerged, GET, [tourId, "reviews"], auth);
            o.Reached? ==> "tourId" !in o.params
  {
    var sub := ReviewRouter.(mergeParams := false);
    var unmerged := TourRouter.(layers := TourRouter.layers[0 := NestedReviewsMount.(router := sub)]);
    var path := [tourId, "reviews"];
    assert path[1..][1..] == [];
    assert MatchPrefix(NestedReviewsMount.prefix, path).Some?;
    ListReviewsAccess(sub, map[], auth);
    assert path[2..] == [];
    assert RunLayer(unmerged, 0, GET, path, map[], Start, auth) == Run(sub, 0, GET, [], map[], Start, auth);
  }

  /** `GET /tours/monthly-plan/reviews` never reaches `getMonthlyPlan`: the
      nested review mount, registered first, takes it as the review list of
      a tour with id "monthly-plan". */
  lemma MonthlyPlanShadowedByReviews(auth: Auth.AuthResult)
    ensures Decides(Dispatch(TourRouter, GET, ["monthly-plan", "reviews"], auth), Factory(Reviews, GetAllOp),
                    LoginRequired(auth))
  {
    NestedReviewListSeesTourId("monthly-plan", auth);
  }

  // ---- backend/src/routes/user.routes.ts ----

  /** Signing up is public. */
  lemma SignupPublic(auth: Auth.AuthResult)
    ensures Dispatch(UserRouter, POST, ["signup"], auth) == Reached(Signup, [], map[], None)
  {
    ReachesOpenRoute(UserRouter, 0, POST, ["signup"], auth);
  }

  /** Logging in is public. */
  lemma LoginPublic(auth: Auth.AuthResult)
    ensures Dispatch(UserRouter, POST, ["login"], auth) == Reached(Login, [], map[], None)
  {
    assert Passes(UserRouter.layers[0], POST, ["login"]);
    ReachesOpenRoute(UserRouter, 1, POST, ["login"], auth);
  }

  /** Asking for a reset token is public. */
  lemma ForgotPasswordPublic(auth: Auth.AuthResult)
    ensures Dispatch(UserRouter, POST, ["forgotPassword"], auth) == Reached(ForgotPassword, [], map[], None)
  {
    forall k | 0 <= k < 2 ensures Passes(UserRouter.layers[k], POST, ["forgotPassword"]) {
      assert k in {0, 1};
    }
    ReachesOpenRoute(UserRouter, 2, POST, ["forgotPassword"], auth);
  }

  /** Resetting a password with a token is public; the token is a route param. */
  lemma ResetPasswordPublic(token: string, auth: Auth.AuthResult)
    requires token != ""
    ensures Dispatch(UserRouter, PATCH, ["resetPassword", token], auth)
            == Reached(ResetPassword, [], map["token" := token], None)
  {
    forall k | 0 <= k < 3 ensures Passes(UserRouter.layers[k], PATCH, ["resetPassword", token]) {
      assert k in {0, 1, 2};
    }
    ReachesOpenRoute(UserRouter, 3, PATCH, ["resetPassword", token], auth);
  }

  /** A stored profile photo is served without a login. */
  lemma UserPhotoPublic(filename: string, auth: Auth.AuthResult)
    requires filename != ""
    ensures Dispatch(UserRouter, GET, ["photo", filename], auth)
            == Reached(GetUserPhoto, [], map["filename" := filename], None)
  {
    forall k | 0 <= k < 4 ensures Passes(UserRouter.layers[k], GET, ["photo", filename]) {
      assert k in {0, 1, 2, 3};
    }
    ReachesOpenRoute(UserRouter, 4, GET, ["photo", filename], auth);
  }

  /** A request none of the five public user routes takes. */
  predicate NotPublicUserRoute(verb: Method, path: seq<string>) {
    && !(verb == POST && (path == ["signup"] || path == ["login"] || path == ["forgotPassword"]))
    && !(verb == PATCH && |path| == 2 && path[0] == "resetPassword" && path[1] != "")
    && !(verb == GET && |path| == 2 && path[0] == "photo" && path[1] != "")
  }

  lemma PublicUserLayersPass(verb: Method, path: seq<string>)
    requires NotPublicUserRoute(verb, path)
    ensures forall k | 0 <= k < 5 :: Passes(UserRouter.layers[k], verb, path)
  {
    forall k | 0 <= k < 5 ensures Passes(UserRouter.layers[k], verb, path) {
      assert k in {0, 1, 2, 3, 4};
    }
  }

  /** `router.use(protect)` after the public routes: every other user route
      is refused without a login, and reached with the caller recorded. */
  lemma UserLoginWall(verb: Method, path: seq<string>, auth: Auth.AuthResult)
    requires NotPublicUserRoute(verb, path)
    ensures auth.Refused? ==> Dispatch(UserRouter, verb, path, auth) == Stopped(auth.error)
    ensures auth.Granted? ==>
              Dispatch(UserRouter, verb, path, auth) == Run(UserRouter, 6, verb, path, map[], Protected(Start, auth), auth)
  {
    PublicUserLayersPass(verb, path);
    PassMany(UserRouter, 0, 5, verb, path, map[], Start, auth);
    ProtectLayer(UserRouter, 5, verb, path, map[], Start, auth);
  }

  /** Changing one's own password needs a login and no particular role. */
  lemma UpdateMyPasswordAccess(auth: Auth.AuthResult)
    ensures var o := Dispatch(UserRouter, PATCH, ["updateMyPassword"], auth);
            && Decides(o, UpdateMyPassword, LoginRequired(auth))
            && (o.Reached? ==> o.ran == [Protect] && o.user == Some(LoggedIn(auth.id, auth.user)))
  {
    UserLoginWall(PATCH, ["updateMyPassword"], auth);
    if auth.Granted? {
      ReachesOpenRouteFrom(UserRouter, 6, 6, PATCH, ["updateMyPassword"], Protected(Start, auth), auth);
    }
  }

  /** `/me` needs a login and no particular role, and runs `getMe` before
      the generic `getOne`. */
  lemma MeAccess(auth: Auth.AuthResult)
    ensures var o := Dispatch(UserRouter, GET, ["me"], auth);
            && Decides(o, Factory(Users, GetOneOp), LoginRequired(auth))
            && (o.Reached? ==> o.ran == [Protect, GetMe] && o.user == Some(LoggedIn(auth.id, auth.user)))
  {
    UserLoginWall(GET, ["me"], auth);
    if auth.Granted? {
      assert Passes(UserRouter.layers[6], GET, ["me"]);
      ReachesOpenRouteFrom(UserRouter, 6, 7, GET, ["me"], Protected(Start, auth), auth);
      assert [Protect] + MeRoute.handlers[..1] == [Protect, GetMe];
    }
  }

  /** `/me/photo` needs a login and no particular role. */
  lemma MyPhotoAccess(auth: Auth.AuthResult)
    ensures var o := Dispatch(UserRouter, GET, ["me", "photo"], auth);
            && Decides(o, GetMyPhoto, LoginRequired(auth))
            && (o.Reached? ==> o.ran == [Protect] && o.user == Some(LoggedIn(auth.id, auth.user)))
  {
    UserLoginWall(GET, ["me", "photo"], auth);
    if auth.Granted? {
      forall k | 6 <= k < 8 ensures Passes(UserRouter.layers[k], GET, ["me", "photo"]) {
        assert k in {6, 7};
      }
      ReachesOpenRouteFrom(UserRouter, 6, 8, GET, ["me", "photo"], Protected(Start, auth), auth);
    }
  }

  /** `/updateMe` needs a login and no particular role, and runs the photo
      upload, then the resize, then the update. */
  lemma UpdateMeAccess(auth: Auth.AuthResult)
    ensures var o := Dispatch(UserRouter, PATCH, ["updateMe"], auth);
            && Decides(o, UpdateMe, LoginRequired(auth))
            && (o.Reached? ==> o.ran == [Protect, UploadUserPhoto, ResizeUserPhoto]
                               && o.user == Some(LoggedIn(auth.id, auth.user)))
  {
    UserLoginWall(PATCH, ["updateMe"], auth);
    if auth.Granted? {
      forall k | 6 <= k < 9 ensures Passes(UserRouter.layers[k], PATCH, ["updateMe"]) {
        assert k in {6, 7, 8};
      }
      ReachesOpenRouteFrom(UserRouter, 6, 9, PATCH, ["updateMe"], Protected(Start, auth), auth);
      assert [Protect] + UpdateMeRoute.handlers[..2] == [Protect, UploadUserPhoto, ResizeUserPhoto];
    }
  }

  /** `/deleteMe` needs a login and no particular role. */
  lemma DeleteMeAccess(auth: Auth.AuthResult)
    ensures var o := Dispatch(UserRouter, DELETE, ["deleteMe"], auth);
            && Decides(o, DeleteMe, LoginRequired(auth))
            && (o.Reached? ==> o.ran == [Protect] && o.user == Some(LoggedIn(auth.id, auth.user)))
  {
    UserLoginWall(DELETE, ["deleteMe"], auth);
    if auth.Granted? {
      forall k | 6 <= k < 10 ensures Passes(UserRouter.layers[k], DELETE, ["deleteMe"]) {
        assert k in {6, 7, 8, 9};
      }
      ReachesOpenRouteFrom(UserRouter, 6, 10, DELETE, ["deleteMe"], Protected(Start, auth), auth);
    }
  }

  /** A request none of the five account routes takes. */
  predicate NotAccountRoute(verb: Method, path: seq<string>) {
    && !(verb == PATCH && (path == ["updateMyPassword"] || path == ["updateMe"]))
    && !(verb == GET && (path == ["me"] || path == ["me", "photo"]))
    && !(verb == DELETE && path == ["deleteMe"])
  }

  lemma AccountLayersPass(verb: Method, path: seq<string>)
    requires NotAccountRoute(verb, path)
    ensures forall k | 6 <= k < 11 :: Passes(UserRouter.layers[k], verb, path)
  {
    forall k | 6 <= k < 11 ensures Passes(UserRouter.layers[k], verb, path) {
      assert k in {6, 7, 8, 9, 10};
    }
  }

  /** The state after `protect` and `restrictTo('admin')` let an admin through. */
  function AdminState(auth: Auth.AuthResult): State
    requires auth.Granted?
  {
    State(Some(LoggedIn(auth.id, auth.user)), [Protect, RestrictTo([Admin])])
  }

  /** `router.use(restrictTo('admin'))` after the account routes: every
      later user route needs a login and the role admin. */
  lemma UserAdminWall(verb: Method, path: seq<string>, auth: Auth.AuthResult)
    requires NotPublicUserRoute(verb, path) && NotAccountRoute(verb, path)
    ensures auth.Refused? ==> Dispatch(UserRouter, verb, path, auth) == Stopped(auth.error)
    ensures auth.Granted? && auth.user.role != Admin ==> Dispatch(UserRouter, verb, path, auth) == Stopped(Auth.Forbidden)
    ensures auth.Granted? && auth.user.role == Admin ==>
              Dispatch(UserRouter, verb, path, auth) == Run(UserRouter, 12, verb, path, map[], AdminState(auth), auth)
  {
    UserLoginWall(verb, path, auth);
    if auth.Granted? {
      var st := Protected(Start, auth);
      AccountLayersPass(verb, path);
      PassMany(UserRouter, 6, 11, verb, path, map[], st, auth);
      RestrictLayer(UserRouter, 11, [Admin], verb, path, map[], st, auth);
      assert st.(ran := st.ran + [RestrictTo([Admin])]) == AdminState(auth);
    }
  }

  /** Listing the users needs a login and the role admin. */
  lemma ListUsersAccess(auth: Auth.AuthResult)
    ensures var o := Dispatch(UserRouter, GET, [], auth);
            && Decides(o, Factory(Users, GetAllOp), Guard(auth, [Admin]))
            && (o.Reached? ==> o.ran == [Protect, RestrictTo([Admin])])
  {
    UserAdminWall(GET, [], auth);
    if auth.Granted? && auth.user.role == Admin {
      ReachesOpenRouteFrom(UserRouter, 12, 12, GET, [], AdminState(auth), auth);
    }
  }

  /** `POST /users` needs a login and the role admin. */
  lemma CreateUserAccess(auth: Auth.AuthResult)
    ensures var o := Dispatch(UserRouter, POST, [], auth);
            && Decides(o, CreateUser, Guard(auth, [Admin]))
            && (o.Reached? ==> o.ran == [Protect, RestrictTo([Admin])])
  {
    UserAdminWall(POST, [], auth);
    if auth.Granted? && auth.user.role == Admin {
      ReachesOpenRouteFrom(UserRouter, 12, 13, POST, [], AdminState(auth), auth);
    }
  }

  /** Reading a user by id needs a login and the role admin. */
  lemma GetUserAccess(id: string, auth: Auth.AuthResult)
    requires id != "" && id != "me"
    ensures var o := Dispatch(UserRouter, GET, [id], auth);
            && Decides(o, Factory(Users, GetOneOp), Guard(auth, [Admin]))
            && (o.Reached? ==> o.ran == [Protect, RestrictTo([Admin])] && "id" in o.params && o.params["id"] == id)
  {
    UserAdminWall(GET, [id], auth);
    if auth.Granted? && auth.user.role == Admin {
      forall k | 12 <= k < 14 ensures Passes(UserRouter.layers[k], GET, [id]) {
        assert k in {12, 13};
      }
      ReachesOpenRouteFrom(UserRouter, 12, 14, GET, [id], AdminState(auth), auth);
    }
  }

  /** Changing a user by id needs a login and the role admin. */
  lemma UpdateUserAccess(id: string, auth: Auth.AuthResult)
    requires id != "" && id != "updateMyPassword" && id != "updateMe"
    ensures var o := Dispatch(UserRouter, PATCH, [id], auth);
            && Decides(o, Factory(Users, UpdateOneOp), Guard(auth, [Admin]))
            && (o.Reached? ==> o.ran == [Protect, RestrictTo([Admin])] && "id" in o.params && o.params["id"] == id)
  {
    UserAdminWall(PATCH, [id], auth);
    if auth.Granted? && auth.user.role == Admin {
      forall k | 12 <= k < 15 ensures Passes(UserRouter.layers[k], PATCH, [id]) {
        assert k in {12, 13, 14};
      }
      ReachesOpenRouteFrom(UserRouter, 12, 15, PATCH, [id], AdminState(auth), auth);
    }
  }

  /** Deleting a user by id needs a login and the role admin. */
  lemma DeleteUserAccess(id: string, auth: Auth.AuthResult)
    requires id != "" && id != "deleteMe"
    ensures var o := Dispatch(UserRouter, DELETE, [id], auth);
            && Decides(o, Factory(Users, DeleteOneOp), Guard(auth, [Admin]))
            && (o.Reached? ==> o.ran == [Protect, RestrictTo([Admin])] && "id" in o.params && o.params["id"] == id)
  {
    UserAdminWall(DELETE, [id], auth);
    if auth.Granted? && auth.user.role == Admin {
      forall k | 12 <= k < 16 ensures Passes(UserRouter.layers[k], DELETE, [id]) {
        assert k in {12, 13, 14, 15};
      }
      ReachesOpenRouteFrom(UserRouter, 12, 16, DELETE, [id], AdminState(auth), auth);
    }
  }

  // ---- backend/src/app.ts ----

  /** `/api/v1/tours...` is decided by the tour router alone. */
  lemma AppToursMount(verb: Method, rest: seq<string>, auth: Auth.AuthResult)
    ensures Dispatch(App, verb, ["api", "v1", "tours"] + rest, auth) == Dispatch(TourRouter, verb, rest, auth)
  {
    var path := ["api", "v1", "tours"] + rest;
    assert path[1..][1..][1..] == rest && path[3..] == rest;
    assert MatchPrefix(App.layers[0].prefix, path) == Some(map[]);
    var o := Dispatch(TourRouter, verb, rest, auth);
    assert RunLayer(App, 0, verb, path, map[], Start, auth) == o;
    if o.NoRoute? {
      forall k | 1 <= k < 3 ensures Passes(App.layers[k], verb, path) {
        assert k in {1, 2};
      }
      PassMany(App, 1, 3, verb, path, map[], o.state, auth);
    }
  }

  /** `/api/v1/users...` is decided by the user router alone. */
  lemma AppUsersMount(verb: Method, rest: seq<string>, auth: Auth.AuthResult)
    ensures Dispatch(App, verb, ["api", "v1", "users"] + rest, auth) == Dispatch(UserRouter, verb, rest, auth)
  {
    var path := ["api", "v1", "users"] + rest;
    assert path[1..][1..][1..] == rest && path[3..] == rest;
    assert Passes(App.layers[0], verb, path);
    PassMany(App, 0, 1, verb, path, map[], Start, auth);
    assert MatchPrefix(App.layers[1].prefix, path) == Some(map[]);
    var o := Dispatch(UserRouter, verb, rest, auth);
    assert RunLayer(App, 1, verb, path, map[], Start, auth) == o;
    if o.NoRoute? {
      assert Passes(App.layers[2], verb, path);
      PassMany(App, 2, 3, verb, path, map[], o.state, auth);
    }
  }

  /** `/api/v1/reviews...` is decided by the review router alone, with no
      tour id among its params. */
  lemma AppReviewsMount(verb: Method, rest: seq<string>, auth: Auth.AuthResult)
    ensures Dispatch(App, verb, ["api", "v1", "reviews"] + rest, auth) == Dispatch(ReviewRouter, verb, rest, auth)
  {
    var path := ["api", "v1", "reviews"] + rest;
    assert path[1..][1..][1..] == rest && path[3..] == rest;
    forall k | 0 <= k < 2 ensures Passes(App.layers[k], verb, path) {
      assert k in {0, 1};
    }
    PassMany(App, 0, 2, verb, path, map[], Start, auth);
    assert MatchPrefix(App.layers[2].prefix, path) == Some(map[]);
    var noParams: map<string, string> := map[];
    assert noParams + noParams == noParams;
    assert RunLayer(App, 2, verb, path, map[], Start, auth) == Dispatch(ReviewRouter, verb, rest, auth);
  }
}

=== FILE: signup_page.dfy ===
/** The signup page of the frontend (frontend/src/pages/Signup.tsx): the
    submit handler's checks, the calls it makes and what it shows. The
    signup call and the session's login are inputs: what each resolves to
    or rejects with. */
module SignupPage {
  import opened Common
  import opened ApiService
  import opened AuthContext
  import UserModel

  datatype SignupData = SignupData(name: string, email: string, password: string, passwordConfirm: string)

  /** The calls `handleSubmit` makes, in order. */
  datatype Call = SignupCall(data: SignupData) | LoginCall(email: string, password: string)

  const Mismatch := "Passwords do not match"
  const TooShort := "Password must be at least 8 characters long"
  const SignupFailed := "Failed to create account. Please try again."

  /** The page's own check: the confirmation must equal the password, and
      then the password must be at least 8 long. */
  function PasswordProblem(d: SignupData): (problem: Option<string>)
    ensures problem.None? <==> d.password == d.passwordConfirm && |d.password| >= 8
    ensures d.password != d.passwordConfirm ==> problem == Some(Mismatch)
    ensures d.password == d.passwordConfirm && |d.password| < 8 ==> problem == Some(TooShort)
  {
    if d.password != d.passwordConfirm then Some(Mismatch)
    else if |d.password| < 8 then Some(TooShort)
    else None
  }

  /** The page lets a password pair through exactly when the backend's
      password validators would accept it. */
  lemma PasswordCheckMatchesBackend(d: SignupData)
    ensures PasswordProblem(d).None? <==> UserModel.PasswordFieldsValid(Some(d.password), Some(d.passwordConfirm))
  {
  }

  class Page {
    var formData: SignupData
    var isLoading: bool
    var error: Option<string>

    constructor ()
      ensures formData == SignupData("", "", "", "") && !isLoading && error.None?
    {
      formData := SignupData("", "", "", "");
      isLoading := false;
      error := None;
    }

    /** `handleSubmit`: a failed check shows its message and calls nothing;
        otherwise it signs up, then logs in with the same email and
        password, then goes to "/"; the first call that rejects stops it and
        shows its message. Loading is over on every path. */
    method HandleSubmit(session: AuthProvider, signup: Fetched<Session>, login: Fetched<Session>)
      returns (calls: seq<Call>, navigatedTo: Option<string>)
      modifies this`isLoading, this`error, session, session.storage
      ensures !isLoading
      ensures PasswordProblem(formData).Some? ==>
                && error == PasswordProblem(formData) && calls == [] && navigatedTo.None?
                && session.user == old(session.user) && session.storage.items == old(session.storage.items)
      ensures PasswordProblem(formData).None? && signup.Rejected? ==>
                && calls == [SignupCall(formData)] && navigatedTo.None?
                && error == Some(ErrorText(signup.thrown, SignupFailed))
                && session.user == old(session.user) && session.storage.items == old(session.storage.items)
      ensures PasswordProblem(formData).None? && signup.Resolved? ==>
                calls == [SignupCall(formData), LoginCall(formData.email, formData.password)]
      ensures PasswordProblem(formData).None? && signup.Resolved? && login.Rejected? ==>
                && navigatedTo.None? && error == Some(ErrorText(login.thrown, SignupFailed))
                && session.user == old(session.user) && session.storage.items == old(session.storage.items)
      ensures PasswordProblem(formData).None? && signup.Resolved? && login.Resolved? ==>
                && navigatedTo == Some("/") && error.None?
                && session.user == Some(login.value.user)
                && session.storage.items == old(session.storage.items)["token" := login.value.token]
    {
      isLoading := true;
      error := None;
      calls := [];
      navigatedTo := None;
      var problem := PasswordProblem(formData);
      if problem.Some? {
        error := problem;
        isLoading := false;
        return;
      }
      calls := calls + [SignupCall(formData)];
      if signup.Rejected? {
        error := Some(ErrorText(signup.thrown, SignupFailed));
        isLoading := false;
        return;
      }
      calls := calls + [LoginCall(formData.email, formData.password)];
      var thrown := session.Login(login);
      if thrown.Some? {
        error := Some(ErrorText(thrown.value, SignupFailed));
        isLoading := false;
        return;
      }
      navigatedTo := Some("/");
      isLoading := false;
    }
  }
}

=== FILE: store.dfy ===
/** The database as the handlers see it: a MongoDB collection is a finite map
    from document id to record, together with the schema's `/^find/` query
    middleware, which narrows every find-family query (find, findOne,
    findById, findByIdAndUpdate, findByIdAndDelete) to the records it
    accepts. `Model.create` does not go through that middleware. */
module Store {
  import opened Common
  import opened Strings

  /** Mongoose's cast of a request value to a `String` path: numbers and
      booleans become their text, `null` stays null (`None`). */
  function StringCast(v: Value): (r: Option<string>)
    ensures r.None? <==> v.Null?
    ensures v.Str? ==> r == Some(v.s)
    ensures v.Num? ==> r == Some(IntToDecimal(v.n))
  {
    match v
    case Str(s) => Some(s)
    case Num(n) => Some(IntToDecimal(n))
    case Bool(b) => Some(if b then "true" else "false")
    case Null => None
  }

  /** The value a string path gets from an update: the cast value when the
      key is present and not null, the current value otherwise. */
  function StringPath(update: Body, key: string, current: string): (v: string)
    ensures key !in update ==> v == current
    ensures key in update && update[key].Str? ==> v == update[key].s
  {
    if key in update && StringCast(update[key]).Some? then StringCast(update[key]).value else current
  }

  /** JavaScript's `Number(v)` on a request value: null is 0, booleans are
      0 and 1, text is read by `NumberText`; `None` is NaN. */
  function JsNumber(v: Value): (r: Option<int>)
    ensures v.Null? ==> r == Some(0)
    ensures v.Bool? ==> r == Some(if v.b then 1 else 0)
    ensures v.Num? ==> r == Some(v.n)
    ensures v.Str? ==> r == NumberText(v.s)
  {
    match v
    case Null => Some(0)
    case Bool(b) => Some(if b then 1 else 0)
    case Num(n) => Some(n)
    case Str(s) => NumberText(s)
  }

  /** The outcome of Mongoose's cast of a value to a path's type: the value
      to store (`None` is null), or a CastError. */
  datatype CastResult<+T> = Cast(value: Option<T>) | CastFailed

  const CastToNumberFailed := "Cast to Number failed"
  const CastToBooleanFailed := "Cast to Boolean failed"

  /** The cast to a `Number` path: null and the empty text stay null; any
      other value goes through `Number()` and must not be NaN. */
  function NumberCast(v: Value): (r: CastResult<int>)
    ensures r == Cast(None) <==> v.Null? || v == Str("")
    ensures v.Num? ==> r == Cast(Some(v.n))
    ensures v.Bool? ==> r == Cast(Some(if v.b then 1 else 0))
    ensures r == CastFailed <==> v.Str? && v.s != "" && NumberText(v.s).None?
    ensures r.Cast? && r.value.Some? ==> JsNumber(v) == r.value
  {
    if v.Null? || v == Str("") then Cast(None)
    else match JsNumber(v)
      case None => CastFailed
      case Some(n) => Cast(Some(n))
  }

  /** A number stored as text comes back as that number. */
  lemma NumberCastOfText(n: int)
    ensures NumberCast(Str(IntToDecimal(n))) == Cast(Some(n))
  {
    NumberTextRoundTrip(n);
  }

  /** The values Mongoose's Boolean cast reads as true and as false. */
  predicate CastsToTrue(v: Value) {
    v == Bool(true) || v == Str("true") || v == Num(1) || v == Str("1") || v == Str("yes")
  }

  predicate CastsToFalse(v: Value) {
    v == Bool(false) || v == Str("false") || v == Num(0) || v == Str("0") || v == Str("no")
  }

  /** The cast to a `Boolean` path: the two lists above, null stays null,
      anything else is a CastError. */
  function BooleanCast(v: Value): (r: CastResult<bool>)
    ensures r == Cast(Some(true)) <==> CastsToTrue(v)
    ensures r == Cast(Some(false)) <==> CastsToFalse(v)
    ensures r == Cast(None) <==> v.Null?
  {
    if CastsToTrue(v) then Cast(Some(true))
    else if CastsToFalse(v) then Cast(Some(false))
    else if v.Null? then Cast(None)
    else CastFailed
  }

  /** A boolean, and the text `String(b)` gives it, both cast back to it. */
  lemma BooleanCastOfText(b: bool)
    ensures BooleanCast(Bool(b)) == Cast(Some(b))
    ensures BooleanCast(Str(StringCast(Bool(b)).value)) == Cast(Some(b))
  {
  }

  class Model<R> {
    var records: map<Id, R>
    /** The condition the schema's `/^find/` pre-hook adds to every query. */
    const findFilter: R -> bool

    constructor (records: map<Id, R>, findFilter: R -> bool)
      ensures this.records == records && this.findFilter == findFilter
    {
      this.records := records;
      this.findFilter := findFilter;
    }

    /** The record a find-family query by id reaches, if any. */
    function FindById(id: Id): Option<R>
      reads this
    {
      if id in records && findFilter(records[id]) then Some(records[id]) else None
    }

    /** `Model.findOne(conditions)`: some record that meets the conditions and
        the find filter; which one, when several do, is up to the database. */
    method FindOne(conditions: R -> bool) returns (found: Option<Id>)
      ensures found.Some? ==> found.value in records
                              && findFilter(records[found.value]) && conditions(records[found.value])
      ensures found.None? ==> forall id :: id in records ==> !(findFilter(records[id]) && conditions(records[id]))
    {
      if exists id | id in records :: findFilter(records[id]) && conditions(records[id]) {
        var id :| id in records && findFilter(records[id]) && conditions(records[id]);
        found := Some(id);
      } else {
        found := None;
      }
    }

    /** Writes one document (an insert or a `save()` of an existing one). */
    method Put(id: Id, r: R)
      modifies this
      ensures records == old(records)[id := r]
    {
      records := records[id := r];
    }

    /** Removes one document. */
    method Remove(id: Id)
      modifies this
      ensures records == old(records) - {id}
    {
      records := records - {id};
    }
  }
}

=== FILE: strings.dfy ===
/** String operations of JavaScript that the Natours code relies on:
    `trim`, `startsWith`, `split` on one character, the regular-expression
    test `/\S+@\S+\.\S+/` and number-to-decimal conversion. */
module Strings {
  import opened Common

  /** The characters JavaScript counts as white space in `trim` and in `\s`
      (WhiteSpace and LineTerminator of ECMA-262). */
  predicate IsSpace(c: char) {
    c == ' ' || ('\t' <= c <= '\r') || c == '\U{00A0}' || c == '\U{1680}'
    || ('\U{2000}' <= c <= '\U{200A}') || c == '\U{2028}' || c == '\U{2029}'
    || c == '\U{202F}' || c == '\U{205F}' || c == '\U{3000}' || c == '\U{FEFF}'
  }

  predicate AllSpace(s: string) {
    forall i :: 0 <= i < |s| ==> IsSpace(s[i])
  }

  predicate StartsWith(s: string, prefix: string) {
    |prefix| <= |s| && s[..|prefix|] == prefix
  }

  /** `s.trimStart()`: drops the leading white space and nothing else. */
  function TrimStart(s: string): (r: string)
    ensures |r| <= |s| && r == s[|s| - |r|..]
    ensures AllSpace(s[..|s| - |r|])
    ensures r != [] ==> !IsSpace(r[0])
  {
    if |s| > 0 && IsSpace(s[0]) then
      var r := TrimStart(s[1..]);
      assert s[..|s| - |r|] == [s[0]] + s[1..][..|s| - 1 - |r|];
      r
    else s
  }

  /** `s.trimEnd()`: drops the trailing white space and nothing else. */
  function TrimEnd(s: string): (r: string)
    ensures |r| <= |s| && r == s[..|r|]
    ensures AllSpace(s[|r|..])
    ensures r != [] ==> !IsSpace(r[|r| - 1])
  {
    if |s| > 0 && IsSpace(s[|s| - 1]) then
      var r := TrimEnd(s[..|s| - 1]);
      assert s[|r|..] == s[..|s| - 1][|r|..] + [s[|s| - 1]];
      r
    else s
  }

  /** `s.trim()`. */
  function Trim(s: string): string {
    TrimEnd(TrimStart(s))
  }

  /** A trimmed string has nothing left to trim at either end, so the
      `trim` setter passes it unchanged. */
  lemma TrimmedIsFixpoint(s: string)
    ensures TrimStart(Trim(s)) == Trim(s) && TrimEnd(Trim(s)) == Trim(s)
  {
    var t := Trim(s);
    if t != [] {
      var u := TrimStart(s);
      assert t == u[..|t|];
      assert t[0] == u[0];
      assert !IsSpace(t[|t| - 1]);
    }
  }

  /** `!s.trim()` holds exactly for strings made only of white space. */
  lemma TrimEmptyIffAllSpace(s: string)
    ensures Trim(s) == "" <==> AllSpace(s)
  {
    if Trim(s) == "" {
      TrimmedAwayIsSpace(s);
    } else if AllSpace(s) {
      AllSpaceTrimsAway(s);
    }
  }

  lemma TrimmedAwayIsSpace(s: string)
    requires Trim(s) == ""
    ensures AllSpace(s)
  {
    var t := TrimStart(s);
    assert t[0..] == t;
    // `t` is all white space, yet cannot start with any.
    assert t == [];
    assert s[..|s|] == s;
  }

  lemma {:induction false} AllSpaceTrimsAway(s: string)
    requires AllSpace(s)
    ensures TrimStart(s) == []
  {
    if |s| > 0 {
      assert AllSpace(s[1..]) by { forall i | 0 <= i < |s| - 1 ensures IsSpace(s[1..][i]) { assert s[1..][i] == s[i + 1]; } }
      AllSpaceTrimsAway(s[1..]);
    }
  }

  /** `s.split(sep)` for a one-character separator: the pieces between the
      separators, in order, with empty pieces kept. */
  function Split(s: string, sep: char): (r: seq<string>)
    ensures |r| >= 1
    ensures forall i :: 0 <= i < |r| ==> sep !in r[i]
    decreases |s|
  {
    if |s| == 0 then [""]
    else
      var rest := Split(s[1..], sep);
      if s[0] == sep then [""] + rest
      else [[s[0]] + rest[0]] + rest[1..]
  }

  /** `parts.join(sep)`. */
  function Join(parts: seq<string>, sep: char): string
    requires |parts| >= 1
  {
    if |parts| == 1 then parts[0] else parts[0] + [sep] + Join(parts[1..], sep)
  }

  /** Splitting loses nothing: joining the pieces gives the string back. */
  lemma {:induction false} JoinSplit(s: string, sep: char)
    ensures Join(Split(s, sep), sep) == s
    decreases |s|
  {
    if |s| > 0 {
      var rest := Split(s[1..], sep);
      JoinSplit(s[1..], sep);
      if s[0] == sep {
        assert s == [sep] + s[1..];
      } else if |rest| == 1 {
        assert s == [s[0]] + s[1..];
      } else {
        assert Split(s, sep)[1..] == rest[1..];
        assert s == [s[0]] + s[1..];
      }
    }
  }

  /** A string without the separator is one piece. */
  lemma {:induction false} SplitWithoutSeparator(a: string, sep: char)
    requires sep !in a
    ensures Split(a, sep) == [a]
    decreases |a|
  {
    if |a| > 0 {
      assert sep !in a[1..];
      SplitWithoutSeparator(a[1..], sep);
      assert [a[0]] + a[1..] == a;
    }
  }

  /** The text before the first separator is the first piece, and the rest
      is split on its own. */
  lemma {:induction false} SplitAtFirst(a: string, b: string, sep: char)
    requires sep !in a
    ensures Split(a + [sep] + b, sep) == [a] + Split(b, sep)
    decreases |a|
  {
    if |a| == 0 {
      assert a + [sep] + b == [sep] + b;
      assert ([sep] + b)[1..] == b;
    } else {
      assert (a + [sep] + b)[1..] == a[1..] + [sep] + b;
      assert sep !in a[1..];
      SplitAtFirst(a[1..], b, sep);
      assert [a[0]] + a[1..] == a;
    }
  }

  /** Splitting the joined pieces gives the pieces back, when no piece holds
      the separator. */
  lemma {:induction false} SplitJoin(parts: seq<string>, sep: char)
    requires |parts| >= 1
    requires forall i :: 0 <= i < |parts| ==> sep !in parts[i]
    ensures Split(Join(parts, sep), sep) == parts
    decreases |parts|
  {
    if |parts| == 1 {
      SplitWithoutSeparator(parts[0], sep);
    } else {
      SplitJoin(parts[1..], sep);
      SplitAtFirst(parts[0], Join(parts[1..], sep), sep);
      assert [parts[0]] + parts[1..] == parts;
    }
  }

  /** The first piece is the longest prefix free of the separator. */
  lemma {:induction false} FirstPiece(s: string, sep: char)
    ensures StartsWith(s, Split(s, sep)[0])
    ensures |Split(s, sep)[0]| < |s| ==> s[|Split(s, sep)[0]|] == sep
    ensures sep !in s ==> Split(s, sep)[0] == s
    decreases |s|
  {
    if |s| > 0 {
      FirstPiece(s[1..], sep);
      if sep !in s { SplitWithoutSeparator(s, sep); }
    }
  }

  // ---- the pattern /\S+@\S+\.\S+/ matched without anchors ----

  /** The regular-expression semantics: some '@' has a non-space character
      before it, one or more non-space characters lead from it to a later
      '.', and a non-space character follows that '.'. */
  ghost predicate EmailPatternMatches(s: string) {
    exists at, dot {:trigger s[at], s[dot]} ::
      0 < at && at + 1 < dot && dot + 1 < |s| && s[at] == '@' && s[dot] == '.'
      && !IsSpace(s[at - 1]) && !IsSpace(s[dot + 1]) && NoSpaceIn(s, at + 1, dot)
  }

  /** No white space in `s[i..j]`. */
  predicate NoSpaceIn(s: string, i: int, j: int)
    requires 0 <= i <= j <= |s|
  {
    forall k :: i <= k < j ==> !IsSpace(s[k])
  }

  /** From position `i`, a run of non-space characters reaches a '.' that is
      followed by a non-space character. */
  function DotTailFrom(s: string, i: nat): bool
    decreases |s| - i
  {
    if i + 1 >= |s| || IsSpace(s[i]) then false
    else (s[i] == '.' && !IsSpace(s[i + 1])) || DotTailFrom(s, i + 1)
  }

  /** Scans the positions from `at` on for an '@' that starts a match. */
  function MatchFrom(s: string, at: nat): bool
    decreases |s| - at
  {
    if at + 1 >= |s| then false
    else (0 < at && s[at] == '@' && !IsSpace(s[at - 1]) && !IsSpace(s[at + 1])
          && DotTailFrom(s, at + 2))
         || MatchFrom(s, at + 1)
  }

  /** `/\S+@\S+\.\S+/.test(s)`. */
  function TestEmailPattern(s: string): bool {
    MatchFrom(s, 0)
  }

  lemma {:induction false} DotTailFromSound(s: string, i: nat)
    requires DotTailFrom(s, i)
    ensures exists dot :: i <= dot && dot + 1 < |s| && s[dot] == '.' && !IsSpace(s[dot + 1])
                          && NoSpaceIn(s, i, dot) && !IsSpace(s[i])
    decreases |s| - i
  {
    if s[i] == '.' && !IsSpace(s[i + 1]) {
      assert NoSpaceIn(s, i, i);
    } else {
      DotTailFromSound(s, i + 1);
      var dot :| i + 1 <= dot && dot + 1 < |s| && s[dot] == '.' && !IsSpace(s[dot + 1])
                 && NoSpaceIn(s, i + 1, dot) && !IsSpace(s[i + 1]);
      assert NoSpaceIn(s, i, dot);
    }
  }

  lemma {:induction false} DotTailFromComplete(s: string, i: nat, dot: int)
    requires i <= dot && dot + 1 < |s| && s[dot] == '.' && !IsSpace(s[dot + 1])
    requires forall k :: i <= k < dot ==> !IsSpace(s[k])
    ensures DotTailFrom(s, i)
    decreases dot - i
  {
    if i < dot {
      DotTailFromComplete(s, i + 1, dot);
    }
  }

  lemma {:induction false} MatchFromSound(s: string, at: nat)
    requires MatchFrom(s, at)
    ensures EmailPatternMatches(s)
    decreases |s| - at
  {
    if 0 < at && s[at] == '@' && !IsSpace(s[at - 1]) && !IsSpace(s[at + 1]) && DotTailFrom(s, at + 2) {
      DotTailFromSound(s, at + 2);
      var dot :| at + 2 <= dot && dot + 1 < |s| && s[dot] == '.' && !IsSpace(s[dot + 1])
                 && NoSpaceIn(s, at + 2, dot) && !IsSpace(s[at + 2]);
      assert NoSpaceIn(s, at + 1, dot);
      assert s[at] == '@' && s[dot] == '.';
    } else {
      MatchFromSound(s, at + 1);
    }
  }

  lemma {:induction false} MatchFromComplete(s: string, start: nat, at: int, dot: int)
    requires start <= at
    requires 0 < at && at + 1 < dot && dot + 1 < |s| && s[at] == '@' && s[dot] == '.'
    requires !IsSpace(s[at - 1]) && !IsSpace(s[dot + 1]) && NoSpaceIn(s, at + 1, dot)
    ensures MatchFrom(s, start)
    decreases at - start
  {
    if start < at {
      MatchFromComplete(s, start + 1, at, dot);
    } else {
      DotTailFromComplete(s, at + 2, dot);
    }
  }

  /** The scanner decides exactly the regular expression, both ways. */
  lemma EmailPatternCorrect(s: string)
    ensures TestEmailPattern(s) <==> EmailPatternMatches(s)
  {
    if TestEmailPattern(s) {
      MatchFromSound(s, 0);
    }
    if EmailPatternMatches(s) {
      var at, dot :| 0 < at && at + 1 < dot && dot + 1 < |s| && s[at] == '@' && s[dot] == '.'
        && !IsSpace(s[at - 1]) && !IsSpace(s[dot + 1]) && NoSpaceIn(s, at + 1, dot);
      MatchFromComplete(s, 0, at, dot);
    }
  }

  // ---- numbers as text ----

  function DigitChar(d: nat): (c: char)
    requires d < 10
    ensures '0' <= c <= '9' && c as int - '0' as int == d
  {
    ('0' as int + d) as char
  }

  /** `String(n)` for a non-negative integer. */
  function NatToDecimal(n: nat): (r: string)
    ensures |r| >= 1 && forall i :: 0 <= i < |r| ==> '0' <= r[i] <= '9'
    ensures n > 0 ==> r[0] != '0'
  {
    if n < 10 then [DigitChar(n)] else NatToDecimal(n / 10) + [DigitChar(n % 10)]
  }

  /** `String(n)` for any integer. */
  function IntToDecimal(n: int): (r: string)
    ensures r != [] && (n < 0 <==> r[0] == '-')
  {
    if n >= 0 then NatToDecimal(n) else "-" + NatToDecimal(-n)
  }

  /** The value of a string of decimal digits, the inverse of `NatToDecimal`. */
  function DecimalValue(s: string): nat
    requires forall i :: 0 <= i < |s| ==> '0' <= s[i] <= '9'
  {
    if s == [] then 0 else DecimalValue(s[..|s| - 1]) * 10 + (s[|s| - 1] as int - '0' as int)
  }

  lemma {:induction false} DecimalRoundTrip(n: nat)
    ensures DecimalValue(NatToDecimal(n)) == n
  {
    if n >= 10 {
      var r := NatToDecimal(n);
      assert r[..|r| - 1] == NatToDecimal(n / 10);
      DecimalRoundTrip(n / 10);
    }
  }

  /** Different numbers have different decimal texts. */
  lemma NatToDecimalInjective(m: nat, n: nat)
    requires NatToDecimal(m) == NatToDecimal(n)
    ensures m == n
  {
    DecimalRoundTrip(m);
    DecimalRoundTrip(n);
  }

  predicate AllDigits(s: string) {
    forall i :: 0 <= i < |s| ==> '0' <= s[i] <= '9'
  }

  /** An optional sign and one or more decimal digits, read as an integer. */
  function IntegerText(t: string): (r: Option<int>)
    ensures t != [] && AllDigits(t) ==> r == Some(DecimalValue(t))
    ensures r.Some? ==> t != [] && '0' <= t[|t| - 1] <= '9'
  {
    if t == [] then None
    else if AllDigits(t) then Some(DecimalValue(t))
    else if |t| > 1 && (t[0] == '+' || t[0] == '-') && AllDigits(t[1..]) then
      assert t[|t| - 1] == t[1..][|t| - 2];
      var magnitude: int := DecimalValue(t[1..]);
      Some(if t[0] == '-' then -magnitude else magnitude)
    else None
  }

  /** `Number(s)` for the texts that denote an integer in decimal: an
      optional sign and one or more digits, with white space around them; a
      blank text is 0. `None` is NaN, and also stands for the numeric forms
      that are not modelled (fractions, exponents, hexadecimal, Infinity). */
  function NumberText(s: string): (r: Option<int>)
    ensures Trim(s) == "" ==> r == Some(0)
    ensures Trim(s) != "" ==> r == IntegerText(Trim(s))
  {
    var t := Trim(s);
    if t == "" then Some(0) else IntegerText(t)
  }

  /** A text without white space at either end is its own trim. */
  lemma TrimOfUnpadded(s: string)
    requires s != [] && !IsSpace(s[0]) && !IsSpace(s[|s| - 1])
    ensures Trim(s) == s
  {
  }

  /** The text `String(n)` gives reads back as `n`: a number survives the
      round trip through its decimal text. */
  lemma NumberTextRoundTrip(n: int)
    ensures NumberText(IntToDecimal(n)) == Some(n)
  {
    var t := IntToDecimal(n);
    var digits := NatToDecimal(if n >= 0 then n else -n);
    assert t[|t| - 1] == digits[|digits| - 1];
    TrimOfUnpadded(t);
    IntegerTextOfDecimal(n);
  }

  lemma IntegerTextOfDecimal(n: int)
    ensures IntegerText(IntToDecimal(n)) == Some(n)
  {
    var t := IntToDecimal(n);
    var m: nat := if n >= 0 then n else -n;
    DecimalRoundTrip(m);
    if n < 0 {
      assert t[1..] == NatToDecimal(m);
      assert !AllDigits(t) by { assert t[0] == '-'; }
    }
  }

  // ---- case ----

  /** `c.toLowerCase()` on ASCII: 'A'..'Z' become 'a'..'z'. */
  function LowerChar(c: char): (d: char)
    ensures 'A' <= c <= 'Z' ==> d as int == c as int + 32
    ensures !('A' <= c <= 'Z') ==> d == c
  {
    if 'A' <= c <= 'Z' then (c as int + 32) as char else c
  }

  /** `s.toLowerCase()`, character by character. */
  function Lower(s: string): (r: string)
    ensures |r| == |s|
    ensures forall i :: 0 <= i < |s| ==> r[i] == LowerChar(s[i])
  {
    if s == [] then [] else [LowerChar(s[0])] + Lower(s[1..])
  }

  /** Lowering twice changes nothing more: a lowercased value passes the
      `lowercase` setter unchanged. */
  lemma LowerIdempotent(s: string)
    ensures Lower(Lower(s)) == Lower(s)
  {
    assert forall i :: 0 <= i < |s| ==> LowerChar(LowerChar(s[i])) == LowerChar(s[i]);
  }
}

=== FILE: tour_controller.dfy ===
/** The tour controller (backend/src/controllers/tour.controller.ts): the
    factory handlers bound to the tour collection, the lookup by slug, the
    top-tours alias, and the lat,lng guard and unit choice of the two
    geospatial handlers. The geospatial arithmetic and the statistics
    pipelines are not modelled. */
module TourController {
  import opened Common
  import opened Strings
  import opened Store
  import opened Express
  import opened HandlerFactory
  import opened TourModel

  const NoTourWithSlug := AppError(404, "No tour found with that slug")
  const BadLatLng := AppError(400, "Please provide latitude and longitude in the format lat,lng.")

  /** `aliasTopTours`: presets the query of the top-5-cheap route; every
      other query key is kept. */
  method AliasTopTours(req: Request) returns (next: Next)
    modifies req`query
    ensures next == Continue
    ensures req.query == old(req.query)["limit" := "5"]["sort" := "-ratingsAverage,price"]
                                       ["fields" := "name,price,ratingsAverage,summary,difficulty"]
    ensures forall k :: k !in {"limit", "sort", "fields"} ==>
              (k in req.query <==> k in old(req.query)) && (k in req.query ==> req.query[k] == old(req.query)[k])
  {
    req.query := req.query["limit" := "5"];
    req.query := req.query["sort" := "-ratingsAverage,price"];
    req.query := req.query["fields" := "name,price,ratingsAverage,summary,difficulty"];
    next := Continue;
  }

  /** `getTour`: `findOne({slug: req.params.id})`, which the find hook
      narrows to non-secret tours; 404 when none matches. The `:id`
      segment of the route always supplies the parameter. */
  method GetTour(req: Request, tours: Model<TourRecord>) returns (reply: Reply<TourRecord>)
    requires IsTourModel(tours) && "id" in req.params
    ensures reply.Failed? <==>
              forall id :: id in tours.records ==>
                !(!IsSecret(tours.records[id]) && tours.records[id].slug == Some(req.params["id"]))
    ensures reply.Failed? ==> reply.error == NoTourWithSlug
    ensures reply.Sent? ==> && reply.statusCode == 200 && reply.payload.slug == Some(req.params["id"])
                            && !IsSecret(reply.payload)
                            && exists id :: id in tours.records && tours.records[id] == reply.payload
  {
    var slug := req.params["id"];
    var found := tours.FindOne((t: TourRecord) => t.slug == Some(slug));
    if found.None? {
      return Failed(NoTourWithSlug);
    }
    reply := Sent(200, tours.records[found.value]);
  }

  /** `const [lat, lng] = latlng.split(",")` followed by `if (!lat || !lng)`:
      the first two comma-separated pieces, when both are non-empty. */
  function ParseLatLng(latlng: string): (r: Option<(string, string)>)
    ensures r.Some? ==> r.value.0 != "" && r.value.1 != "" && ',' !in r.value.0 && ',' !in r.value.1
    ensures r.Some? ==> StartsWith(latlng, r.value.0 + "," + r.value.1)
  {
    var pieces := Split(latlng, ',');
    if |pieces| < 2 || pieces[0] == "" || pieces[1] == "" then None
    else
      SplitPrefix(latlng, ',');
      Some((pieces[0], pieces[1]))
  }

  /** The first two pieces of a split, with the separator between them, start
      the string. */
  lemma SplitPrefix(s: string, sep: char)
    requires |Split(s, sep)| >= 2
    ensures StartsWith(s, Split(s, sep)[0] + [sep] + Split(s, sep)[1])
  {
    JoinSplit(s, sep);
    var p := Split(s, sep);
    JoinPrefix(p, sep);
  }

  /** `Join` of at least two pieces starts with the first two joined. */
  lemma {:induction false} JoinPrefix(parts: seq<string>, sep: char)
    requires |parts| >= 2
    ensures StartsWith(Join(parts, sep), parts[0] + [sep] + parts[1])
  {
    if |parts| == 2 {
      assert Join(parts, sep) == parts[0] + [sep] + Join(parts[1..], sep);
      assert Join(parts[1..], sep) == parts[1];
    } else {
      var head := parts[0] + [sep] + parts[1];
      assert Join(parts, sep) == parts[0] + [sep] + Join(parts[1..], sep);
      assert Join(parts[1..], sep) == parts[1] + [sep] + Join(parts[2..], sep);
      assert Join(parts, sep) == head + ([sep] + Join(parts[2..], sep));
    }
  }

  /** A well-formed "lat,lng" (and anything after a further comma) passes the
      guard and gives back its two parts. */
  lemma LatLngRoundTrip(lat: string, lng: string, rest: string)
    requires lat != "" && lng != "" && ',' !in lat && ',' !in lng
    requires rest == [] || rest[0] == ','
    ensures ParseLatLng(lat + "," + lng + rest) == Some((lat, lng))
  {
    var s := lat + "," + lng + rest;
    assert s == lat + [','] + (lng + rest);
    SplitAtFirst(lat, lng + rest, ',');
    if rest == [] {
      assert lng + rest == lng;
      SplitWithoutSeparator(lng, ',');
    } else {
      assert lng + rest == lng + [','] + rest[1..];
      SplitAtFirst(lng, rest[1..], ',');
    }
  }

  /** Without a comma, or with an empty side, the guard refuses. */
  lemma LatLngNeedsComma(latlng: string)
    requires ',' !in latlng
    ensures ParseLatLng(latlng).None?
  {
    SplitWithoutSeparator(latlng, ',');
  }

  datatype DistanceUnit = Miles | Kilometres

  /** `unit === "mi"` picks miles; every other unit, including "MI", "km" and
      garbage, picks kilometres. */
  function UnitOf(unit: string): (u: DistanceUnit)
    ensures u == Miles <==> unit == "mi"
  {
    if unit == "mi" then Miles else Kilometres
  }

  /** A non-empty text of lower-case ASCII letters, such as "abc". No
      numeric literal has this form (`Infinity` is spelt with a capital), so
      `Number` of it is NaN. */
  predicate LowerWord(s: string) {
    |s| > 0 && forall i :: 0 <= i < |s| ==> 'a' <= s[i] <= 'z'
  }

  /** A point MongoDB accepts: latitude within ±90, longitude within ±180. */
  predicate InBounds(lat: int, lng: int) {
    -90 <= lat <= 90 && -180 <= lng <= 180
  }

  /** What is known of how the `$centerSphere` query of `getToursWithin`
      settles, given the lat, lng and distance texts (`None` when it runs,
      otherwise the error it rejects with): Mongoose's number cast refuses a
      NaN coordinate or radius with a CastError. */
  ghost predicate WithinQueryCasts(query: (string, string, string) -> Option<AppError>) {
    forall lat, lng, distance :: LowerWord(lat) || LowerWord(lng) || LowerWord(distance)
                                 ==> query(lat, lng, distance).Some?
  }

  /** What is known of how the `$geoNear` stage at `[Number(lng),
      Number(lat)]` settles: a NaN coordinate is refused, and of two integer
      texts exactly the pairs inside the bounds run. */
  ghost predicate NearPointChecked(near: (string, string) -> Option<AppError>) {
    && (forall lat, lng :: LowerWord(lat) || LowerWord(lng) ==> near(lat, lng).Some?)
    && (forall lat, lng :: NumberText(lat).Some? && NumberText(lng).Some? ==>
          (near(lat, lng).None? <==> InBounds(NumberText(lat).value, NumberText(lng).value)))
  }

  /** `getToursWithin`: the guard comes first, so a malformed lat,lng is a
      400 and no query runs; a query the database rejects (a NaN coordinate
      or radius, among others) forwards its error; otherwise the non-secret
      tours the geospatial query selects (`geoWithin`, opaque) are listed. */
  method GetToursWithin(req: Request, tours: Model<TourRecord>,
                        geoWithin: (string, string, DistanceUnit, string) -> TourRecord -> bool,
                        query: (string, string, string) -> Option<AppError>)
    returns (reply: Reply<Listing<TourRecord>>)
    requires IsTourModel(tours)
    requires "latlng" in req.params && "unit" in req.params && "distance" in req.params
    requires WithinQueryCasts(query)
    ensures ParseLatLng(req.params["latlng"]).None? ==> reply == Failed(BadLatLng)
    ensures ParseLatLng(req.params["latlng"]).Some? ==>
              var ll := ParseLatLng(req.params["latlng"]).value;
              && (query(ll.0, ll.1, req.params["distance"]).Some?
                  ==> reply == Failed(query(ll.0, ll.1, req.params["distance"]).value))
              && (LowerWord(ll.0) || LowerWord(ll.1) || LowerWord(req.params["distance"]) ==> reply.Failed?)
    ensures reply.Sent? <==> ParseLatLng(req.params["latlng"]).Some?
                             && var ll := ParseLatLng(req.params["latlng"]).value;
                                query(ll.0, ll.1, req.params["distance"]).None?
    ensures reply.Sent? ==>
              && reply.statusCode == 200 && reply.payload.results == |reply.payload.data|
              && var ll := ParseLatLng(req.params["latlng"]).value;
                 forall k :: 0 <= k < |reply.payload.data| ==>
                   && !IsSecret(reply.payload.data[k])
                   && geoWithin(ll.0, ll.1, UnitOf(req.params["unit"]), req.params["distance"])(reply.payload.data[k])
    ensures reply.Sent? ==>
              var ll := ParseLatLng(req.params["latlng"]).value;
              forall id :: id in tours.records && !IsSecret(tours.records[id])
                           && geoWithin(ll.0, ll.1, UnitOf(req.params["unit"]), req.params["distance"])(tours.records[id])
                           ==> tours.records[id] in reply.payload.data
  {
    var ll := ParseLatLng(req.params["latlng"]);
    var unit := UnitOf(req.params["unit"]);
    if ll.None? {
      return Failed(BadLatLng);
    }
    var refused := query(ll.value.0, ll.value.1, req.params["distance"]);
    if refused.Some? {
      return Failed(refused.value);
    }
    var within := geoWithin(ll.value.0, ll.value.1, unit, req.params["distance"]);
    var recs := tours.records;
    var ids := set id | id in recs && TourFindFilter(recs[id]) && within(recs[id]);
    var found := SetToSeq(ids);
    assert forall k :: 0 <= k < |found| ==> found[k] in ids;
    var data := seq(|found|, k requires 0 <= k < |found| && found[k] in recs => recs[found[k]]);
    forall k | 0 <= k < |data|
      ensures !IsSecret(data[k]) && within(data[k])
    {
      assert found[k] in ids;
      assert data[k] == recs[found[k]];
    }
    forall id | id in recs && TourFindFilter(recs[id]) && within(recs[id])
      ensures recs[id] in data
    {
      assert id in found;
      var k :| 0 <= k < |found| && found[k] == id;
      assert data[k] == recs[id];
    }
    reply := Sent(200, Listing(|data|, data));
  }

  /** The documents of a query result in some order. */
  method SetToSeq(s: set<Id>) returns (r: seq<Id>)
    ensures forall x :: x in r <==> x in s
    ensures |r| == |s|
  {
    r := [];
    var rest := s;
    while rest != {}
      invariant rest <= s
      invariant forall x :: x in r <==> x in s && x !in rest
      invariant |r| + |rest| == |s|
      decreases rest
    {
      var x :| x in rest;
      r := r + [x];
      rest := rest - {x};
    }
  }

  /** The pipeline `getDistances` hands to `Tour.aggregate`. */
  const DistancesPipeline: seq<Stage> := [GeoNear, OtherStage("$project")]

  /** `getDistances`: the same guard before any aggregation; otherwise the
      pipeline, after the aggregate hook, is one MongoDB accepts, and the
      answer is 200 exactly when its `$geoNear` point is accepted; a NaN or
      out-of-bounds point forwards the database's error. */
  method GetDistances(req: Request, near: (string, string) -> Option<AppError>)
    returns (reply: Reply<()>, pipeline: Option<seq<Stage>>)
    requires "latlng" in req.params && "unit" in req.params
    requires NearPointChecked(near)
    ensures ParseLatLng(req.params["latlng"]).None? ==> reply == Failed(BadLatLng) && pipeline.None?
    ensures ParseLatLng(req.params["latlng"]).Some? ==>
              && pipeline == Some(AggregateHook(DistancesPipeline))
              && PipelineAccepted(pipeline.value)
              && var ll := ParseLatLng(req.params["latlng"]).value;
                 && (near(ll.0, ll.1).None? ==> reply == Sent(200, ()))
                 && (near(ll.0, ll.1).Some? ==> reply == Failed(near(ll.0, ll.1).value))
    ensures reply.Sent? ==>
              var ll := ParseLatLng(req.params["latlng"]).value;
              && !LowerWord(ll.0) && !LowerWord(ll.1)
              && (NumberText(ll.0).Some? && NumberText(ll.1).Some? ==>
                    InBounds(NumberText(ll.0).value, NumberText(ll.1).value))
  {
    var ll := ParseLatLng(req.params["latlng"]);
    var unit := UnitOf(req.params["unit"]);
    if ll.None? {
      return Failed(BadLatLng), None;
    }
    AggregateHookKeepsPipelineAccepted(DistancesPipeline);
    pipeline := Some(AggregateHook(DistancesPipeline));
    var refused := near(ll.value.0, ll.value.1);
    if refused.Some? {
      return Failed(refused.value), pipeline;
    }
    reply := Sent(200, ());
  }

  /** "abc,def" passes the lat,lng guard, but its `$geoNear` point is NaN
      and the database refuses it. */
  lemma NearRefusesNaN(near: (string, string) -> Option<AppError>)
    requires NearPointChecked(near)
    ensures ParseLatLng("abc,def") == Some(("abc", "def")) && near("abc", "def").Some?
  {
    LatLngRoundTrip("abc", "def", "");
    assert "abc,def" == "abc" + "," + "def" + "";
    assert LowerWord("abc");
  }

  /** The decimal text of an integer has no comma. */
  lemma DecimalHasNoComma(n: int)
    ensures ',' !in IntToDecimal(n)
  {
    var t := IntToDecimal(n);
    var digits := NatToDecimal(if n >= 0 then n else -n);
    if n < 0 {
      assert t == "-" + digits;
    }
    assert forall i :: 0 <= i < |t| ==> t[i] != ',';
  }

  /** Every pair of integers passes the lat,lng guard as "lat,lng"; the
      database then runs the `$geoNear` stage exactly when the point is
      inside the bounds, so "100,200" is refused and "34,-118" runs. */
  lemma NearDecidedByBounds(near: (string, string) -> Option<AppError>, lat: int, lng: int)
    requires NearPointChecked(near)
    ensures ParseLatLng(IntToDecimal(lat) + "," + IntToDecimal(lng)) == Some((IntToDecimal(lat), IntToDecimal(lng)))
    ensures near(IntToDecimal(lat), IntToDecimal(lng)).None? <==> InBounds(lat, lng)
  {
    var a, b := IntToDecimal(lat), IntToDecimal(lng);
    DecimalHasNoComma(lat);
    DecimalHasNoComma(lng);
    LatLngRoundTrip(a, b, "");
    assert a + "," + b == a + "," + b + "";
    NumberTextRoundTrip(lat);
    NumberTextRoundTrip(lng);
  }

  /** As written, the aggregate hook puts its match in front of the
      `$geoNear` of `getDistances`, which MongoDB refuses. */
  lemma DistancesPipelineRefusedAsWritten()
    ensures !PipelineAccepted(AggregateHookAsWritten(DistancesPipeline))
  {
    GeoNearPipelineRefusedAsWritten(DistancesPipeline);
  }

  // ---- the factory handlers bound to the tour collection ----

  /** `getAllTours`: secret tours are never listed. */
  method GetAllTours(req: Request, tours: Model<TourRecord>, slugify: string -> string,
                     features: (set<Id>, map<string, string>) -> seq<Id>) returns (reply: Reply<Listing<TourRecord>>)
    requires IsTourModel(tours) && SelectsFromQuery(features)
    ensures reply.Sent? && reply.payload.results == |reply.payload.data|
    ensures forall k :: 0 <= k < |reply.payload.data| ==> !IsSecret(reply.payload.data[k])
  {
    reply := GetAll(req, tours, TourSchema(slugify), features);
  }

  /** `createTour`: a created tour has a valid name and the slug of that name. */
  method CreateTour(req: Request, tours: Model<TourRecord>, slugify: string -> string, newId: Id)
    returns (reply: Reply<TourRecord>)
    requires newId !in tours.records
    modifies tours
    ensures reply.Failed? ==> reply.error.statusCode == 400 && tours.records == old(tours.records)
    ensures reply.Sent? ==>
              && reply.statusCode == 201
              && MinNameLength <= |reply.payload.name| <= MaxNameLength
              && reply.payload.slug == Some(slugify(reply.payload.name))
              && tours.records == old(tours.records)[newId := reply.payload]
              && forall id :: id in old(tours.records) ==> old(tours.records)[id].name != reply.payload.name
    ensures NewTour(req.body, slugify).Some?
            && (exists id :: id in old(tours.records) && old(tours.records)[id].name == NewTour(req.body, slugify).value.name)
            ==> reply == Failed(DuplicateValue("name"))
    ensures UniqueNames(old(tours.records)) ==> UniqueNames(tours.records)
  {
    var before := tours.records;
    var schema := TourSchema(slugify);
    var created := NewTour(req.body, slugify);
    assert schema.create(req.body) == created;
    reply := CreateOne(req, tours, schema, newId);
    if created.Some? {
      NameTakenIsKeyTaken(before, created.value, slugify, None);
    }
    UniqueNamesAreUniqueKeys(before, slugify);
    UniqueNamesAreUniqueKeys(tours.records, slugify);
  }

  /** `updateTour`: an update that sets `priceDiscount` is always refused; a
      secret tour cannot be updated; the slug stays as it was unless the
      body sets it, even when the name changes. */
  method UpdateTour(req: Request, tours: Model<TourRecord>, slugify: string -> string)
    returns (reply: Reply<TourRecord>)
    requires IsTourModel(tours)
    modifies tours
    ensures "priceDiscount" in req.body ==> reply.FailedWith(400) && tours.records == old(tours.records)
    ensures "id" in req.params && req.params["id"] in old(tours.records) && IsSecret(old(tours.records)[req.params["id"]])
            ==> reply.Failed? && tours.records == old(tours.records)
    ensures reply.Sent? ==>
              && reply.statusCode == 200 && "id" in req.params
              && var id := req.params["id"];
                 && id in old(tours.records)
                 && TourUpdateValid(req.body) && reply.payload == ApplyTourUpdate(old(tours.records)[id], req.body)
                 && tours.records == old(tours.records)[id := reply.payload]
                 && ("slug" !in req.body ==> reply.payload.slug == old(tours.records)[id].slug)
                 && forall other :: other in old(tours.records) && other != id ==>
                                      old(tours.records)[other].name != reply.payload.name
    ensures UniqueNames(old(tours.records)) ==> UniqueNames(tours.records)
  {
    var before := tours.records;
    var schema := TourSchema(slugify);
    reply := UpdateOne(req, tours, schema);
    if reply.Sent? {
      NameTakenIsKeyTaken(before, reply.payload, slugify, Some(req.params["id"]));
    }
    UniqueNamesAreUniqueKeys(before, slugify);
    UniqueNamesAreUniqueKeys(tours.records, slugify);
  }

  /** `deleteTour`: only a non-secret tour can be deleted; an id that is
      not an ObjectId is a CastError, any other failure is a 404. */
  method DeleteTour(req: Request, tours: Model<TourRecord>) returns (reply: Reply<()>)
    requires IsTourModel(tours)
    modifies tours
    ensures reply.Sent? ==> && "id" in req.params && req.params["id"] in old(tours.records)
                            && !IsSecret(old(tours.records)[req.params["id"]])
                            && tours.records == old(tours.records) - {req.params["id"]}
    ensures MalformedId(req.params) ==> reply == Failed(CastError(req.params["id"]))
    ensures reply.Failed? && !MalformedId(req.params) ==> reply.error == NoDocument
    ensures reply.Failed? ==> tours.records == old(tours.records)
  {
    reply := DeleteOne(req, tours);
  }
}

=== FILE: tour_model.dfy ===
/** The tour schema of backend/src/models/tour.model.ts: the stored record,
    its defaults, the validators of the modelled paths (on create and on
    `findByIdAndUpdate` with `runValidators`), the slug pre-save hook, the
    secret-tour find hook and the aggregate hook. Numbers are integers;
    `ratingsAverage` is kept in tenths, the precision its rounding setter
    leaves. slugify is an uninterpreted function. */
module TourModel {
  import opened Common
  import opened Strings
  import opened Store
  import opened HandlerFactory

  datatype Difficulty = Easy | Medium | Difficult

  function DifficultyName(d: Difficulty): string {
    match d
    case Easy => "easy"
    case Medium => "medium"
    case Difficult => "difficult"
  }

  /** The `difficulty` enum validator. */
  function ParseDifficulty(s: string): (d: Option<Difficulty>)
    ensures d.Some? <==> s in {"easy", "medium", "difficult"}
    ensures d.Some? ==> DifficultyName(d.value) == s
  {
    if s == "easy" then Some(Easy)
    else if s == "medium" then Some(Medium)
    else if s == "difficult" then Some(Difficult)
    else None
  }

  /** A tour document as stored (the description, location, image-list,
      date and guide paths are not modelled). */
  datatype TourRecord = TourRecord(
    name: string,
    slug: Option<string>,
    duration: int,
    maxGroupSize: int,
    difficulty: Difficulty,
    /** In tenths: 45 is 4.5. */
    ratingsAverage: int,
    /** `None` is a stored null. */
    ratingsQuantity: Option<int>,
    price: int,
    /** `None` is absent or a stored null. */
    priceDiscount: Option<int>,
    summary: string,
    imageCover: string,
    /** `None` is a stored null. */
    secretTour: Option<bool>)

  const MinNameLength: nat := 10
  const MaxNameLength: nat := 40
  /** 4.5 in tenths. */
  const DefaultRatingsAverage: int := 45

  const NameRequired := "A tour must have a name"
  const NameTooLong := "A tour name must have less or equal then 40 characters"
  const NameTooShort := "A tour name must have more or equal then 10 characters"
  const DifficultyRequired := "A tour must have a difficulty"
  const DifficultyEnum := "Difficulty is either: easy, medium, difficult"

  /** The outcome of one path's cast, setters and validators. */
  datatype Check<+T> = Valid(value: T) | Invalid(message: string)

  function Field(body: Body, key: string): Option<Value> {
    if key in body then Some(body[key]) else None
  }

  /** The `name` path: cast to string, the `trim` setter, then `required`,
      `maxlength` and `minlength` in that order. */
  function CheckName(v: Option<Value>): (r: Check<string>)
    ensures r.Valid? <==> v.Some? && StringCast(v.value).Some?
                          && MinNameLength <= |Trim(StringCast(v.value).value)| <= MaxNameLength
    ensures r.Valid? ==> r.value == Trim(StringCast(v.value).value)
    ensures r.Invalid? ==> r.message in {NameRequired, NameTooLong, NameTooShort}
  {
    if v.None? || StringCast(v.value).None? || Trim(StringCast(v.value).value) == "" then Invalid(NameRequired)
    else
      var name := Trim(StringCast(v.value).value);
      if |name| > MaxNameLength then Invalid(NameTooLong)
      else if |name| < MinNameLength then Invalid(NameTooShort)
      else Valid(name)
  }

  /** A name of white space only is reported as missing, not as too short. */
  lemma BlankNameIsMissing(s: string)
    requires AllSpace(s)
    ensures CheckName(Some(Str(s))) == Invalid(NameRequired)
  {
    TrimEmptyIffAllSpace(s);
  }

  /** A stored name passes its validators again unchanged. */
  lemma StoredNameRevalidates(s: string)
    requires CheckName(Some(Str(s))).Valid?
    ensures CheckName(Some(Str(Trim(s)))) == CheckName(Some(Str(s)))
  {
    TrimmedIsFixpoint(s);
  }

  /** The `difficulty` path: required, then the enum. */
  function CheckDifficulty(v: Option<Value>): (r: Check<Difficulty>)
    ensures r.Valid? <==> v.Some? && v.value.Str? && v.value.s in {"easy", "medium", "difficult"}
    ensures r.Valid? ==> DifficultyName(r.value) == v.value.s
    ensures v.None? || v.value == Null || v.value == Str("") ==> r == Invalid(DifficultyRequired)
  {
    if v.None? || v.value.Null? || v.value == Str("") then Invalid(DifficultyRequired)
    // the text a number or a boolean casts to is never one of the three
    else if !v.value.Str? then Invalid(DifficultyEnum)
    else match ParseDifficulty(v.value.s)
      case None => Invalid(DifficultyEnum)
      case Some(d) => Valid(d)
  }

  /** A required `Number` path: the cast, then `required`, which refuses
      null (the cast of null and of the empty text). */
  function CheckRequiredNumber(v: Option<Value>, requiredMessage: string): (r: Check<int>)
    ensures r.Valid? <==> v.Some? && v.value != Null && v.value != Str("") && JsNumber(v.value).Some?
    ensures r.Valid? ==> Some(r.value) == JsNumber(v.value)
    ensures v.None? || v.value == Null || v.value == Str("") ==> r == Invalid(requiredMessage)
    ensures v.Some? && v.value.Num? ==> r == Valid(v.value.n)
  {
    if v.None? then Invalid(requiredMessage)
    else match NumberCast(v.value)
      case CastFailed => Invalid(CastToNumberFailed)
      case Cast(None) => Invalid(requiredMessage)
      case Cast(Some(n)) => Valid(n)
  }

  /** An optional `Number` path with a default: the default when absent,
      otherwise the cast value, null included. */
  function CheckOptionalNumber(v: Option<Value>, default: int): (r: Check<Option<int>>)
    ensures v.None? ==> r == Valid(Some(default))
    ensures v.Some? && (v.value == Null || v.value == Str("")) ==> r == Valid(None)
    ensures r.Valid? && r.value.Some? && v.Some? ==> r.value == JsNumber(v.value)
    ensures r.Invalid? <==> v.Some? && NumberCast(v.value) == CastFailed
  {
    if v.None? then Valid(Some(default))
    else match NumberCast(v.value)
      case CastFailed => Invalid(CastToNumberFailed)
      case Cast(n) => Valid(n)
  }

  /** The `ratingsAverage` path: 4.5 by default. Otherwise the rounding
      setter runs first, and computes `Number()` of the value (so null
      becomes 0); then the cast refuses NaN and the range is checked. */
  function CheckRatingsAverage(v: Option<Value>): (r: Check<int>)
    ensures v.None? ==> r == Valid(DefaultRatingsAverage)
    ensures r.Valid? ==> 10 <= r.value <= 50
    ensures v.Some? ==> (r.Valid? <==> JsNumber(v.value).Some? && 1 <= JsNumber(v.value).value <= 5)
    ensures v.Some? && r.Valid? ==> r.value == JsNumber(v.value).value * 10
  {
    if v.None? then Valid(DefaultRatingsAverage)
    else match JsNumber(v.value)
      case None => Invalid(CastToNumberFailed)
      case Some(n) =>
        if n < 1 then Invalid("Rating must be above 1.0")
        else if n > 5 then Invalid("Rating must be below 5.0")
        else Valid(n * 10)
  }

  /** A null rating is refused: the setter turns it into 0. */
  lemma NullRatingRefused()
    ensures CheckRatingsAverage(Some(Null)) == Invalid("Rating must be above 1.0")
  {
  }

  /** The `priceDiscount` validator on a new document: the discount must be
      strictly below the price. */
  predicate DiscountBelowPrice(discount: int, price: int) {
    discount < price
  }

  /** The `priceDiscount` path on create: absent, or cast and then below
      the price. The custom validator also runs on null, where `null <
      this.price` compares 0 with the price. */
  function CheckPriceDiscount(v: Option<Value>, price: int): (r: Check<Option<int>>)
    ensures v.None? ==> r == Valid(None)
    ensures r.Valid? && r.value.Some? ==> v.Some? && r.value == JsNumber(v.value)
                                          && DiscountBelowPrice(r.value.value, price)
    ensures v.Some? && (v.value == Null || v.value == Str("")) ==>
              (r.Valid? <==> DiscountBelowPrice(0, price)) && (r.Valid? ==> r.value.None?)
    ensures v.Some? && NumberCast(v.value).Cast? && NumberCast(v.value).value.Some? ==>
              (r.Valid? <==> DiscountBelowPrice(NumberCast(v.value).value.value, price))
    ensures v.Some? && NumberCast(v.value) == CastFailed ==> r == Invalid(CastToNumberFailed)
  {
    if v.None? then Valid(None)
    else match NumberCast(v.value)
      case CastFailed => Invalid(CastToNumberFailed)
      case Cast(d) =>
        if DiscountBelowPrice(if d.Some? then d.value else 0, price) then Valid(d)
        else Invalid("Discount price should be below regular price")
  }

  /** A required string path with the `trim` setter. */
  function CheckRequiredText(v: Option<Value>, requiredMessage: string, trim: bool): (r: Check<string>)
    ensures r.Valid? ==> r.value != ""
    ensures r.Valid? ==> && v.Some? && StringCast(v.value).Some?
                         && r.value == if trim then Trim(StringCast(v.value).value) else StringCast(v.value).value
  {
    if v.None? || StringCast(v.value).None? then Invalid(requiredMessage)
    else
      var s := if trim then Trim(StringCast(v.value).value) else StringCast(v.value).value;
      if s == "" then Invalid(requiredMessage) else Valid(s)
  }

  /** `secretTour`: false by default, otherwise the Boolean cast. */
  function CheckSecretTour(v: Option<Value>): (r: Check<Option<bool>>)
    ensures v.None? ==> r == Valid(Some(false))
    ensures r == Valid(Some(true)) <==> v.Some? && CastsToTrue(v.value)
    ensures v.Some? ==> (r == Valid(None) <==> v.value == Null)
    ensures v.Some? && v.value.Bool? ==> r == Valid(Some(v.value.b))
    ensures r.Invalid? ==> r.message == CastToBooleanFailed
  {
    if v.None? then Valid(Some(false))
    else match BooleanCast(v.value)
      case CastFailed => Invalid(CastToBooleanFailed)
      case Cast(b) => Valid(b)
  }

  /** The slug pre-save hook: every save sets the slug from the name. */
  function SlugHook(t: TourRecord, slugify: string -> string): (r: TourRecord)
    ensures r.slug == Some(slugify(t.name)) && r.(slug := t.slug) == t
  {
    t.(slug := Some(slugify(t.name)))
  }

  /** `Tour.create(body)`: casting, defaults and validators, then the slug
      hook; `None` when any path fails (a ValidationError). */
  function NewTour(body: Body, slugify: string -> string): (r: Option<TourRecord>)
    ensures r.Some? ==> && MinNameLength <= |r.value.name| <= MaxNameLength
                        && "name" in body && StringCast(body["name"]).Some?
                        && r.value.name == Trim(StringCast(body["name"]).value)
                        && r.value.slug == Some(slugify(r.value.name))
                        && (r.value.priceDiscount.Some? ==> DiscountBelowPrice(r.value.priceDiscount.value, r.value.price))
                        && ("ratingsAverage" !in body ==> r.value.ratingsAverage == DefaultRatingsAverage)
                        && ("ratingsQuantity" !in body ==> r.value.ratingsQuantity == Some(0))
                        && ("secretTour" !in body ==> r.value.secretTour == Some(false))
    ensures CheckName(Field(body, "name")).Invalid? || CheckDifficulty(Field(body, "difficulty")).Invalid? ==> r.None?
    ensures ("price" in body && body["price"].Num? && "priceDiscount" in body && body["priceDiscount"].Num?
             && !DiscountBelowPrice(body["priceDiscount"].n, body["price"].n)) ==> r.None?
    ensures ("price" in body && body["price"].Num? && body["price"].n <= 0
             && "priceDiscount" in body && body["priceDiscount"] == Null) ==> r.None?
  {
    var name := CheckName(Field(body, "name"));
    var duration := CheckRequiredNumber(Field(body, "duration"), "A tour must have a duration");
    var maxGroupSize := CheckRequiredNumber(Field(body, "maxGroupSize"), "A tour must have a group size");
    var difficulty := CheckDifficulty(Field(body, "difficulty"));
    var ratingsAverage := CheckRatingsAverage(Field(body, "ratingsAverage"));
    var ratingsQuantity := CheckOptionalNumber(Field(body, "ratingsQuantity"), 0);
    var price := CheckRequiredNumber(Field(body, "price"), "A tour must have a price");
    var summary := CheckRequiredText(Field(body, "summary"), "A tour must have a description", true);
    var imageCover := CheckRequiredText(Field(body, "imageCover"), "A tour must have a cover image", false);
    var secretTour := CheckSecretTour(Field(body, "secretTour"));
    if !(name.Valid? && duration.Valid? && maxGroupSize.Valid? && difficulty.Valid? && ratingsAverage.Valid?
         && ratingsQuantity.Valid? && price.Valid? && summary.Valid? && imageCover.Valid? && secretTour.Valid?)
    then None
    else
      var priceDiscount := CheckPriceDiscount(Field(body, "priceDiscount"), price.value);
      if priceDiscount.Invalid? then None
      else Some(SlugHook(TourRecord(name.value, None, duration.value, maxGroupSize.value, difficulty.value,
                                    ratingsAverage.value, ratingsQuantity.value, price.value, priceDiscount.value,
                                    summary.value, imageCover.value, secretTour.value), slugify))
  }

  // ---- updates through findByIdAndUpdate ----

  /** The update validators on the paths of an update body. The
      `priceDiscount` validator reads `this.price`, but on an update `this`
      is the query, not the document: `val < undefined` is false, so every
      update that sets `priceDiscount` fails validation. */
  predicate TourUpdateValid(body: Body) {
    && ("name" in body ==> CheckName(Some(body["name"])).Valid?)
    && ("difficulty" in body ==> CheckDifficulty(Some(body["difficulty"])).Valid?)
    && ("ratingsAverage" in body ==> CheckRatingsAverage(Some(body["ratingsAverage"])).Valid?)
    && "priceDiscount" !in body
    && ("duration" in body ==> CheckRequiredNumber(Some(body["duration"]), "").Valid?)
    && ("maxGroupSize" in body ==> CheckRequiredNumber(Some(body["maxGroupSize"]), "").Valid?)
    && ("ratingsQuantity" in body ==> NumberCast(body["ratingsQuantity"]).Cast?)
    && ("price" in body ==> CheckRequiredNumber(Some(body["price"]), "").Valid?)
    && ("summary" in body ==> CheckRequiredText(Some(body["summary"]), "", true).Valid?)
    && ("imageCover" in body ==> CheckRequiredText(Some(body["imageCover"]), "", false).Valid?)
    && ("secretTour" in body ==> BooleanCast(body["secretTour"]).Cast?)
  }

  /** The value a required number path gets from an update. */
  function NumberPath(body: Body, key: string, current: int): (v: int)
    ensures key !in body ==> v == current
    ensures key in body && CheckRequiredNumber(Some(body[key]), "").Valid? ==> Some(v) == JsNumber(body[key])
  {
    if key in body && CheckRequiredNumber(Some(body[key]), "").Valid? then CheckRequiredNumber(Some(body[key]), "").value
    else current
  }

  /** The `ratingsQuantity` an update leaves: the cast value, null included. */
  function QuantityPath(body: Body, current: Option<int>): (q: Option<int>)
    requires "ratingsQuantity" in body ==> NumberCast(body["ratingsQuantity"]).Cast?
    ensures "ratingsQuantity" !in body ==> q == current
    ensures "ratingsQuantity" in body && body["ratingsQuantity"] == Null ==> q.None?
    ensures "ratingsQuantity" in body && q.Some? ==> q == JsNumber(body["ratingsQuantity"])
  {
    if "ratingsQuantity" in body then NumberCast(body["ratingsQuantity"]).value else current
  }

  /** The `secretTour` an update leaves: the Boolean cast, null included. */
  function SecretPath(body: Body, current: Option<bool>): (b: Option<bool>)
    requires "secretTour" in body ==> BooleanCast(body["secretTour"]).Cast?
    ensures "secretTour" !in body ==> b == current
    ensures "secretTour" in body ==> (b == Some(true) <==> CastsToTrue(body["secretTour"]))
  {
    if "secretTour" in body then BooleanCast(body["secretTour"]).value else current
  }

  /** The record after the `$set` of a validated update body. Setters run
      (name and summary are trimmed) but document hooks do not, so the slug
      only changes when the body sets it. */
  function ApplyTourUpdate(t: TourRecord, body: Body): (r: TourRecord)
    requires TourUpdateValid(body)
    ensures "slug" !in body ==> r.slug == t.slug
    ensures "secretTour" !in body ==> r.secretTour == t.secretTour
    ensures r.priceDiscount == t.priceDiscount
    ensures "name" in body ==> r.name == CheckName(Some(body["name"])).value
    ensures "name" !in body ==> r.name == t.name
  {
    t.(name := if "name" in body then CheckName(Some(body["name"])).value else t.name,
       slug := if "slug" in body then StringCast(body["slug"]) else t.slug,
       duration := NumberPath(body, "duration", t.duration),
       maxGroupSize := NumberPath(body, "maxGroupSize", t.maxGroupSize),
       difficulty := if "difficulty" in body then CheckDifficulty(Some(body["difficulty"])).value else t.difficulty,
       ratingsAverage := if "ratingsAverage" in body then CheckRatingsAverage(Some(body["ratingsAverage"])).value
                         else t.ratingsAverage,
       ratingsQuantity := QuantityPath(body, t.ratingsQuantity),
       price := NumberPath(body, "price", t.price),
       summary := if "summary" in body then CheckRequiredText(Some(body["summary"]), "", true).value else t.summary,
       imageCover := StringPath(body, "imageCover", t.imageCover),
       secretTour := SecretPath(body, t.secretTour))
  }

  /** What the casts leave after an update: the secret flag is set exactly
      for values that cast to true, a new price is `Number()` of the given
      value, and a null quantity is stored as null. */
  lemma ApplyTourUpdateCasts(t: TourRecord, body: Body)
    requires TourUpdateValid(body)
    ensures "secretTour" in body ==> (IsSecret(ApplyTourUpdate(t, body)) <==> CastsToTrue(body["secretTour"]))
    ensures "price" in body ==> Some(ApplyTourUpdate(t, body).price) == JsNumber(body["price"])
    ensures "ratingsQuantity" in body && body["ratingsQuantity"] == Null ==> ApplyTourUpdate(t, body).ratingsQuantity.None?
  {
  }

  /** `ApplyTourUpdate` for the generic handler, which needs a total function. */
  function TourAfterUpdate(t: TourRecord, body: Body): TourRecord {
    if TourUpdateValid(body) then ApplyTourUpdate(t, body) else t
  }

  // ---- query and aggregate middleware ----

  /** The unique index on `name`: no two stored tours share a name. */
  predicate UniqueNames(records: map<Id, TourRecord>) {
    forall i, j :: i in records && j in records && i != j ==> records[i].name != records[j].name
  }

  /** A tour's unique key is taken exactly when a stored tour has its name. */
  lemma NameTakenIsKeyTaken(records: map<Id, TourRecord>, r: TourRecord, slugify: string -> string, except: Option<Id>)
    ensures KeyTaken(records, r, TourSchema(slugify).sameKey, except)
            <==> exists id :: id in records && Some(id) != except && records[id].name == r.name
  {
    var sameKey := TourSchema(slugify).sameKey;
    if KeyTaken(records, r, sameKey, except) {
      var id :| id in records && Some(id) != except && (sameKey(records[id], r) || sameKey(r, records[id]));
      assert records[id].name == r.name;
    }
    if exists id :: id in records && Some(id) != except && records[id].name == r.name {
      var id :| id in records && Some(id) != except && records[id].name == r.name;
      assert sameKey(records[id], r);
    }
  }

  /** The unique index on names is the schema's unique key. */
  lemma UniqueNamesAreUniqueKeys(records: map<Id, TourRecord>, slugify: string -> string)
    ensures UniqueNames(records) <==> UniqueKeys(records, TourSchema(slugify).sameKey)
  {
    var sameKey := TourSchema(slugify).sameKey;
    assert forall a, b :: sameKey(a, b) <==> a.name == b.name;
  }

  /** `secretTour: true`; false and a stored null are not secret. */
  predicate IsSecret(t: TourRecord) {
    t.secretTour == Some(true)
  }

  /** The find hook: every find-family query gets `{secretTour: {$ne: true}}`. */
  predicate TourFindFilter(t: TourRecord) {
    !IsSecret(t)
  }

  ghost predicate IsTourModel(m: Model<TourRecord>)
    reads m
  {
    m.findFilter == TourFindFilter
  }

  /** The tour schema as the generic handlers use it; tours have no `tour`
      field, so the nested-route filter never applies to them. */
  function TourSchema(slugify: string -> string): (s: Schema<TourRecord>)
    ensures forall body :: s.create(body) == NewTour(body, slugify)
    ensures forall body :: s.updateValid(body) == TourUpdateValid(body)
    ensures forall t, body :: TourUpdateValid(body) ==> s.applyUpdate(t, body) == ApplyTourUpdate(t, body)
    ensures forall t :: s.tourOf(t).None?
    ensures forall t, u :: s.sameKey(t, u) <==> t.name == u.name
    ensures s.uniquePath == "name"
  {
    Schema(body => NewTour(body, slugify), TourUpdateValid, TourAfterUpdate, (t: TourRecord) => None,
           (t: TourRecord, u: TourRecord) => t.name == u.name, "name")
  }

  /** A stage of an aggregation pipeline, as far as the hook cares. */
  datatype Stage = MatchNotSecret | GeoNear | OtherStage(name: string)

  /** MongoDB accepts `$geoNear` only as the first stage of a pipeline. */
  predicate PipelineAccepted(p: seq<Stage>) {
    forall i :: 0 < i < |p| ==> p[i] != GeoNear
  }

  /** The aggregate hook as written: the secret-tour match is unshifted in
      front of every pipeline. */
  function AggregateHookAsWritten(p: seq<Stage>): (r: seq<Stage>)
    ensures |r| == |p| + 1 && r[0] == MatchNotSecret && r[1..] == p
  {
    [MatchNotSecret] + p
  }

  /** As written, every pipeline that starts with `$geoNear` (the one of
      `getDistances`) is turned into one MongoDB refuses. */
  lemma GeoNearPipelineRefusedAsWritten(p: seq<Stage>)
    requires |p| > 0 && p[0] == GeoNear
    ensures !PipelineAccepted(AggregateHookAsWritten(p))
  {
    assert AggregateHookAsWritten(p)[1] == GeoNear;
  }

  /** The aggregate hook with the match placed right after a leading
      `$geoNear`, and first otherwise. */
  function AggregateHook(p: seq<Stage>): (r: seq<Stage>)
    ensures |p| > 0 && p[0] == GeoNear ==> r == [GeoNear, MatchNotSecret] + p[1..]
    ensures !(|p| > 0 && p[0] == GeoNear) ==> r == [MatchNotSecret] + p
  {
    if |p| > 0 && p[0] == GeoNear then [GeoNear, MatchNotSecret] + p[1..] else [MatchNotSecret] + p
  }

  /** The corrected hook keeps every accepted pipeline accepted, inserts
      exactly one match, and keeps the original stages in order. */
  lemma AggregateHookKeepsPipelineAccepted(p: seq<Stage>)
    requires PipelineAccepted(p)
    ensures PipelineAccepted(AggregateHook(p))
    ensures exists k :: 0 <= k <= 1 && k <= |p| && AggregateHook(p) == p[..k] + [MatchNotSecret] + p[k..]
  {
    var r := AggregateHook(p);
    if |p| > 0 && p[0] == GeoNear {
      assert r == p[..1] + [MatchNotSecret] + p[1..];
      forall i | 0 < i < |r| ensures r[i] != GeoNear {
        if i >= 2 { assert r[i] == p[i - 1]; }
      }
    } else {
      assert r == p[..0] + [MatchNotSecret] + p[0..];
      forall i | 0 < i < |r| ensures r[i] != GeoNear {
        assert r[i] == p[i - 1];
      }
    }
  }
}

=== FILE: use_tour.dfy ===
/** The single-tour hook of frontend/src/hooks/useTour.ts, used by the
    tour page: an empty slug fetches nothing, the answer is unwrapped like
    the tour list's, and a failure keeps the tour already shown. The fetch
    is split at its `await`, as in `UseTours`. */
module UseTour {
  import opened Common
  import opened Js
  import opened ApiService
  import opened UseTours

  class Hook {
    var tour: Option<Json>
    var loading: bool
    var error: Option<string>

    constructor ()
      ensures tour.None? && loading && error.None?
    {
      tour := None;
      loading := true;
      error := None;
    }

    /** `fetchTour` before its `await`: an empty slug returns at once and
        changes nothing (so a first render stays loading); otherwise loading
        starts and the error is cleared. */
    method FetchStart(slug: string) returns (fetching: bool)
      modifies this`loading, this`error
      ensures fetching <==> slug != ""
      ensures !fetching ==> unchanged(this)
      ensures fetching ==> loading && error.None? && tour == old(tour)
    {
      if slug == "" {
        return false;
      }
      loading := true;
      error := None;
      fetching := true;
    }

    /** `fetchTour` once `getTour` settles: the tour becomes the unwrapped
        payload; a rejection or a throwing read sets the message and keeps
        the previous tour. Loading is over on every path. */
    method FetchSettled(response: Fetched<Json>, typeError: string)
      modifies this`tour, this`loading, this`error
      ensures !loading
      ensures response.Rejected? ==> tour == old(tour) && error == Some(ErrorText(response.thrown, TourFailed))
      ensures response.Resolved? && Unwrap(response.value).TypeError? ==> tour == old(tour) && error == Some(typeError)
      ensures response.Resolved? && Unwrap(response.value).Read? ==>
                tour == Unwrap(response.value).value && error == old(error)
    {
      if response.Rejected? {
        error := Some(ErrorText(response.thrown, TourFailed));
      } else {
        var tourData := Unwrap(response.value);
        if tourData.TypeError? {
          error := Some(typeError);
        } else {
          tour := tourData.value;
        }
      }
      loading := false;
    }
  }

  /** The backend's answer to a tour lookup (`data.data` holds the tour)
      unwraps to the tour itself whenever the tour is a document. */
  lemma BackendTourUnwraps(fields: map<string, Json>)
    ensures Unwrap(JObj(map["status" := JStr("success"), "data" := JObj(map["data" := JObj(fields)])]))
            == Read(Some(JObj(fields)))
  {
  }

  /** A whole fetch of a tour the backend found: the page's hook shows the
      tour itself, not the wrapper the other `useTour` keeps. */
  method FetchFoundTour(h: Hook, slug: string, fields: map<string, Json>, typeError: string)
    requires slug != ""
    modifies h
    ensures h.tour == Some(JObj(fields)) && h.error.None? && !h.loading
  {
    var fetching := h.FetchStart(slug);
    BackendTourUnwraps(fields);
    h.FetchSettled(Resolved(JObj(map["status" := JStr("success"), "data" := JObj(map["data" := JObj(fields)])])),
                   typeError);
  }
}

=== FILE: use_tours.dfy ===
/** The tour-list hook and the first single-tour hook of
    frontend/src/hooks/useTours.ts. Each async fetch is split at its one
    `await`: the part that runs before it and the part that runs when the
    API call settles. The API call's outcome is an input; a TypeError the
    code raises itself carries the runtime's message, also an input. */
module UseTours {
  import opened Common
  import opened Js
  import opened ApiService

  const InvalidFormat := "Invalid data format received from server"
  const ToursFailed := "Failed to fetch tours"
  const TourFailed := "Failed to fetch tour"

  /** `response.data?.data || response.data`: the nested `data` when it is
      truthy, else `response.data` itself (`undefined` when missing);
      reading `data` from a `null` answer throws. */
  function Unwrap(response: Json): (a: Access)
    ensures a.TypeError? <==> response.JNull?
    ensures a.Read? && IsTruthy(OptGet(Get(response, "data"), "data")) ==>
              a.value == OptGet(Get(response, "data"), "data")
    ensures a.Read? && !IsTruthy(OptGet(Get(response, "data"), "data")) ==>
              a.value == Get(response, "data")
  {
    var outer := Member(Some(response), "data");
    if outer.TypeError? then TypeError else Read(Or(OptGet(outer.value, "data"), outer.value))
  }

  /** The backend's list answer nests the documents one level deeper than
      the API service's type says; both shapes give the list, even an
      empty one (arrays are truthy). */
  lemma ListShapesUnwrap(items: seq<Json>, results: int)
    ensures Unwrap(JObj(map["status" := JStr("success"), "results" := JNum(results),
                            "data" := JObj(map["data" := JArr(items)])])) == Read(Some(JArr(items)))
    ensures Unwrap(JObj(map["status" := JStr("success"), "data" := JArr(items)])) == Read(Some(JArr(items)))
  {
  }

  /** The state of `useTours`. */
  class ToursHook {
    var tours: seq<Json>
    var loading: bool
    var error: Option<string>

    constructor ()
      ensures tours == [] && loading && error.None?
    {
      tours := [];
      loading := true;
      error := None;
    }

    /** `fetchTours` before its `await`. */
    method FetchStart()
      modifies this`loading, this`error
      ensures loading && error.None?
    {
      loading := true;
      error := None;
    }

    /** `fetchTours` once `getTours` settles: an array payload becomes the
        list and leaves the error as it was; any other payload, a rejection
        and a throwing read each empty the list and set their message.
        Loading is over on every path. */
    method FetchSettled(response: Fetched<Json>, typeError: string)
      modifies this`tours, this`loading, this`error
      ensures !loading
      ensures response.Rejected? ==> tours == [] && error == Some(ErrorText(response.thrown, ToursFailed))
      ensures response.Resolved? && Unwrap(response.value).TypeError? ==> tours == [] && error == Some(typeError)
      ensures response.Resolved? && Unwrap(response.value).Read? ==>
                var payload := Unwrap(response.value).value;
                if payload.Some? && payload.value.JArr? then tours == payload.value.items && error == old(error)
                else tours == [] && error == Some(InvalidFormat)
    {
      if response.Rejected? {
        error := Some(ErrorText(response.thrown, ToursFailed));
        tours := [];
      } else {
        var toursData := Unwrap(response.value);
        if toursData.TypeError? {
          error := Some(typeError);
          tours := [];
        } else if toursData.value.Some? && toursData.value.value.JArr? {
          tours := toursData.value.value.items;
        } else {
          error := Some(InvalidFormat);
          tours := [];
        }
      }
      loading := false;
    }
  }

  /** A whole fetch of the backend's list: the hook ends up holding exactly
      the documents sent, with no error and no loading indicator. */
  method FetchBackendList(h: ToursHook, items: seq<Json>, typeError: string)
    modifies h
    ensures h.tours == items && h.error.None? && !h.loading
  {
    h.FetchStart();
    ListShapesUnwrap(items, |items|);
    h.FetchSettled(Resolved(JObj(map["status" := JStr("success"), "results" := JNum(|items|),
                                     "data" := JObj(map["data" := JArr(items)])])), typeError);
  }

  /** The state of the `useTour` defined alongside `useTours`; a tour of
      `null` and one of `undefined` are both "no tour". */
  class TourHook {
    var tour: Option<Json>
    var isLoading: bool
    var error: Option<string>

    constructor ()
      ensures tour.None? && isLoading && error.None?
    {
      tour := None;
      isLoading := true;
      error := None;
    }

    /** The effect: a fetch starts only for a non-empty slug. */
    method SlugChanged(slug: string) returns (fetching: bool)
      modifies this`isLoading, this`error
      ensures fetching <==> slug != ""
      ensures fetching ==> isLoading && error.None?
      ensures !fetching ==> isLoading == old(isLoading) && error == old(error)
    {
      fetching := slug != "";
      if fetching {
        FetchStart();
      }
    }

    /** `fetchTour` before its `await`. */
    method FetchStart()
      modifies this`isLoading, this`error
      ensures isLoading && error.None?
    {
      isLoading := true;
      error := None;
    }

    /** `fetchTour` once `getTour` settles: the tour becomes `response.data`
        as it is, without unwrapping; a failure sets the message and keeps
        the tour loaded before. */
    method FetchSettled(response: Fetched<Json>, typeError: string)
      modifies this`tour, this`isLoading, this`error
      ensures !isLoading
      ensures response.Rejected? ==> tour == old(tour) && error == Some(ErrorText(response.thrown, TourFailed))
      ensures response.Resolved? && response.value.JNull? ==> tour == old(tour) && error == Some(typeError)
      ensures response.Resolved? && !response.value.JNull? ==>
                tour == Get(response.value, "data") && error == old(error)
    {
      if response.Rejected? {
        error := Some(ErrorText(response.thrown, TourFailed));
      } else {
        var data := Member(Some(response.value), "data");
        if data.TypeError? {
          error := Some(typeError);
        } else {
          tour := data.value;
        }
      }
      isLoading := false;
    }
  }

  /** The backend's answer to a tour lookup nests the tour under
      `data.data`; this hook keeps the wrapper object, not the tour. */
  lemma TourHookKeepsWrapper(tour: Json)
    ensures var wrapper := JObj(map["data" := tour]);
            Get(JObj(map["status" := JStr("success"), "data" := wrapper]), "data") == Some(wrapper) != Some(tour)
  {
    assert JObj(map["data" := tour]) != tour by {
      JsonSmaller(tour);
    }
  }

  /** A value is never one of its own fields. */
  lemma JsonSmaller(v: Json)
    ensures JObj(map["data" := v]) != v
  {
    var w := JObj(map["data" := v]);
    assert w.fields["data"] == v;
    assert v < w;
  }
}

=== FILE: user_controller.dfy ===
/** The user controller (backend/src/controllers/user.controller.ts): the
    upload filter and file naming of profile photos, `filterObj`, and the
    handlers a logged-in user runs on their own account. The sharp image
    pipeline and the file system are not modelled. */
module UserController {
  import opened Common
  import opened Strings
  import opened Store
  import opened UserModel
  import opened Express

  const NotLoggedIn := AppError(401, "You are not logged in!")
  const PasswordUpdateRefused :=
    AppError(400, "This route is not for password updates. Please use /updateMyPassword.")

  // ---- photo upload ----

  /** What multer's file filter tells multer. */
  datatype FileVerdict = Accept | Reject(message: string)

  /** `multerFilter`: a file is kept exactly when its MIME type starts with
      "image"; otherwise multer fails the request with the error below. */
  function MulterFilter(mimetype: string): (v: FileVerdict)
    ensures v == Accept <==> StartsWith(mimetype, "image")
    ensures v.Reject? ==> v.message == "Not an image! Please upload only images."
  {
    if StartsWith(mimetype, "image") then Accept else Reject("Not an image! Please upload only images.")
  }

  /** The name `resizeUserPhoto` gives the stored photo. */
  function PhotoFilename(id: Id, now: nat): (name: string)
    ensures StartsWith(name, "user-" + id + "-")
  {
    "user-" + id + "-" + NatToDecimal(now) + ".jpeg"
  }

  /** For ids without '-' (ObjectIds are hexadecimal), the file name
      determines both the user and the moment: two users never share a
      photo file, and one user's uploads in different milliseconds do not
      overwrite each other. */
  lemma PhotoFilenameInjective(id1: Id, t1: nat, id2: Id, t2: nat)
    requires '-' !in id1 && '-' !in id2
    requires PhotoFilename(id1, t1) == PhotoFilename(id2, t2)
    ensures id1 == id2 && t1 == t2
  {
    PhotoFilenamePieces(id1, t1);
    PhotoFilenamePieces(id2, t2);
    var d1, d2 := NatToDecimal(t1) + ".jpeg", NatToDecimal(t2) + ".jpeg";
    assert d1[..|d1| - 5] == NatToDecimal(t1);
    assert d2[..|d2| - 5] == NatToDecimal(t2);
    NatToDecimalInjective(t1, t2);
  }

  /** The name splits on '-' into "user", the id and the timestamp part. */
  lemma PhotoFilenamePieces(id: Id, t: nat)
    requires '-' !in id
    ensures Split(PhotoFilename(id, t), '-') == ["user", id, NatToDecimal(t) + ".jpeg"]
  {
    var digits := NatToDecimal(t) + ".jpeg";
    assert '-' !in digits by {
      forall i | 0 <= i < |digits| ensures digits[i] != '-' {
        if i < |NatToDecimal(t)| { assert digits[i] == NatToDecimal(t)[i]; }
      }
    }
    assert PhotoFilename(id, t) == "user" + ['-'] + (id + ['-'] + digits);
    SplitAtFirst("user", id + ['-'] + digits, '-');
    SplitAtFirst(id, digits, '-');
    SplitWithoutSeparator(digits, '-');
  }

  /** `resizeUserPhoto` (naming and guards): without a file it just
      continues; a file without a logged-in user is a 401; otherwise the
      file gets its final name. */
  method ResizeUserPhoto(req: Request, now: nat) returns (next: Next)
    modifies req`file
    ensures old(req.file).None? ==> next == Continue && req.file == old(req.file)
    ensures old(req.file).Some? && req.user.None? ==> next == Abort(NotLoggedIn) && req.file == old(req.file)
    ensures old(req.file).Some? && req.user.Some? ==>
              next == Continue && req.file == Some(old(req.file).value.(filename := Some(PhotoFilename(req.user.value.id, now))))
  {
    if req.file.None? {
      return Continue;
    }
    if req.user.None? {
      return Abort(NotLoggedIn);
    }
    req.file := Some(req.file.value.(filename := Some(PhotoFilename(req.user.value.id, now))));
    next := Continue;
  }

  // ---- filterObj ----

  /** The object `filterObj` builds: the allowed keys of `obj` with their
      values. */
  function Filtered(obj: Body, allowedFields: seq<string>): Body {
    map k | k in obj && k in allowedFields :: obj[k]
  }

  /** `filterObj(obj, ...allowedFields)`: copies, key by key, the allowed
      keys of `obj` into a new object. */
  method FilterObj(obj: Body, allowedFields: seq<string>) returns (newObj: Body)
    ensures forall k :: k in newObj <==> k in obj && k in allowedFields
    ensures forall k :: k in newObj ==> newObj[k] == obj[k]
    ensures newObj == Filtered(obj, allowedFields)
  {
    newObj := map[];
    var keys := obj.Keys;
    while keys != {}
      invariant keys <= obj.Keys
      invariant forall k :: k in newObj <==> k in obj && k !in keys && k in allowedFields
      invariant forall k :: k in newObj ==> newObj[k] == obj[k]
      decreases keys
    {
      var el :| el in keys;
      if el in allowedFields {
        newObj := newObj[el := obj[el]];
      }
      keys := keys - {el};
    }
    assert newObj.Keys == Filtered(obj, allowedFields).Keys;
  }

  // ---- handlers on the caller's own account ----

  /** `getMe`: points `req.params.id` at the caller (`undefined`, i.e. no
      id, when there is none) and always continues. */
  method GetMe(req: Request) returns (next: Next)
    modifies req`params
    ensures next == Continue
    ensures req.user.Some? ==> req.params == old(req.params)["id" := req.user.value.id]
    ensures req.user.None? ==> req.params == old(req.params) - {"id"}
  {
    if req.user.Some? {
      req.params := req.params["id" := req.user.value.id];
    } else {
      req.params := req.params - {"id"};
    }
    next := Continue;
  }

  /** `getMyPhoto`: 401 without a user, 404 when the find (which skips
      deactivated users) comes back empty, else the stored photo name. */
  function GetMyPhoto(user: Option<LoggedIn>, users: Model<UserRecord>): (reply: Reply<string>)
    requires IsUserModel(users)
    reads users
    ensures user.None? ==> reply == Failed(NotLoggedIn)
    ensures user.Some? && !(user.value.id in users.records && users.records[user.value.id].active)
            ==> reply == Failed(AppError(404, "User not found!"))
    ensures reply.Sent? ==> reply == Sent(200, users.records[user.value.id].photo)
  {
    if user.None? then Failed(NotLoggedIn)
    else match users.FindById(user.value.id)
      case None => Failed(AppError(404, "User not found!"))
      case Some(u) => Sent(200, u.photo)
  }

  const SelfUpdatable: seq<string> := ["name", "email"]

  /** The update `updateMe` sends: the name and email of the body (what
      `FilterObj` keeps of it), plus the
      photo's file name when a file was uploaded and named. */
  function SelfUpdate(body: Body, file: Option<UploadedFile>): (update: Body)
    ensures update.Keys <= {"name", "email", "photo"}
    ensures forall k :: k in update && k != "photo" ==> k in body && update[k] == body[k]
  {
    var filtered := Filtered(body, SelfUpdatable);
    if file.Some? && file.value.filename.Some? then filtered["photo" := Str(file.value.filename.value)]
    else filtered
  }

  /** The update validators of the paths a self-update can set: name
      required, email required and, once lowered by its setter, accepted by
      `validator.isEmail`. */
  predicate SelfUpdateValid(update: Body, isEmail: string -> bool) {
    && ("name" in update ==> StringCast(update["name"]).Some? && StringCast(update["name"]).value != "")
    && ("email" in update ==> StringCast(update["email"]).Some? && StringCast(update["email"]).value != ""
                              && isEmail(Lower(StringCast(update["email"]).value)))
  }

  /** The stored record after a self-update: only name, email and photo can
      differ; role, password, reset fields and `active` are untouched. The
      email goes through the `lowercase` setter. */
  function ApplySelfUpdate(u: UserRecord, update: Body): (r: UserRecord)
    ensures r.(name := u.name, email := u.email, photo := u.photo) == u
    ensures r.role == u.role && r.password == u.password && r.active == u.active
    ensures "email" in update && StringCast(update["email"]).Some? ==> r.email == Lower(StringCast(update["email"]).value)
    ensures Lower(u.email) == u.email ==> Lower(r.email) == r.email
  {
    LowerIdempotent(StringPath(update, "email", u.email));
    u.(name := StringPath(update, "name", u.name),
       email := if "email" in update && StringCast(update["email"]).Some? then Lower(StringCast(update["email"]).value)
                else u.email,
       photo := StringPath(update, "photo", u.photo))
  }

  /** A self-update keeps every stored email lower-case. */
  lemma SelfUpdateKeepsEmailsLowercase(records: map<Id, UserRecord>, id: Id, update: Body)
    requires EmailsLowercase(records) && id in records
    ensures EmailsLowercase(records[id := ApplySelfUpdate(records[id], update)])
  {
    EmailsLowercasePut(records, id, ApplySelfUpdate(records[id], update));
  }

  /** `updateMe`: password fields in the body are refused first; then the
      body is filtered; then a caller is required; then
      `findByIdAndUpdate` validates, finds the caller (if still active) and
      writes. Whatever happens, no record's role, password or active flag
      changes. */
  method UpdateMe(req: Request, users: Model<UserRecord>, isEmail: string -> bool)
    returns (reply: Reply<Option<UserRecord>>)
    requires IsUserModel(users)
    modifies users
    ensures Has(req.body, "password") || Has(req.body, "passwordConfirm") ==> reply == Failed(PasswordUpdateRefused)
    ensures !Has(req.body, "password") && !Has(req.body, "passwordConfirm") && req.user.None?
            ==> reply == Failed(NotLoggedIn)
    ensures reply.Failed? ==> users.records == old(users.records)
    ensures users.records.Keys == old(users.records).Keys
    ensures forall id :: id in users.records ==>
              users.records[id].(name := old(users.records)[id].name, email := old(users.records)[id].email,
                                 photo := old(users.records)[id].photo) == old(users.records)[id]
    ensures reply.Sent? ==>
              && reply.statusCode == 200 && req.user.Some?
              && SelfUpdateValid(SelfUpdate(req.body, req.file), isEmail)
              && var id := req.user.value.id;
                 if old(users.FindById(id)).Some? then
                   && reply.payload == Some(ApplySelfUpdate(old(users.records)[id], SelfUpdate(req.body, req.file)))
                   && users.records == old(users.records)[id := reply.payload.value]
                 else
                   reply.payload.None? && users.records == old(users.records)
  {
    if Has(req.body, "password") || Has(req.body, "passwordConfirm") {
      return Failed(PasswordUpdateRefused);
    }
    var filteredBody := FilterObj(req.body, SelfUpdatable);
    if req.file.Some? && req.file.value.filename.Some? {
      filteredBody := filteredBody["photo" := Str(req.file.value.filename.value)];
    }
    assert filteredBody == SelfUpdate(req.body, req.file);
    if req.user.None? {
      return Failed(NotLoggedIn);
    }
    if !SelfUpdateValid(filteredBody, isEmail) {
      return Failed(ValidationError("Validation failed"));
    }
    var id := req.user.value.id;
    var current := users.FindById(id);
    if current.None? {
      return Sent(200, None);
    }
    var updatedUser := ApplySelfUpdate(current.value, filteredBody);
    if updatedUser.email != current.value.email && EmailTaken(users.records, updatedUser.email, Some(id)) {
      return Failed(DuplicateEmail);
    }
    users.Put(id, updatedUser);
    reply := Sent(200, Some(updatedUser));
  }

  /** `deleteMe`: the caller's record is kept but marked inactive, after
      which no find reaches it; 204 with no data. */
  method DeleteMe(req: Request, users: Model<UserRecord>) returns (reply: Reply<()>)
    requires IsUserModel(users)
    modifies users
    ensures req.user.None? ==> reply == Failed(NotLoggedIn) && users.records == old(users.records)
    ensures req.user.Some? ==>
              && reply == Sent(204, ())
              && var id := req.user.value.id;
                 && users.records == (if old(users.FindById(id)).Some?
                                      then old(users.records)[id := old(users.records)[id].(active := false)]
                                      else old(users.records))
                 && (id in old(users.records) ==> id in users.records && users.FindById(id).None?)
  {
    if req.user.None? {
      return Failed(NotLoggedIn);
    }
    var id := req.user.value.id;
    var current := users.FindById(id);
    if current.Some? {
      users.Put(id, current.value.(active := false));
    }
    reply := Sent(204, ());
  }
}

=== FILE: user_model.dfy ===
/** The user schema of backend/src/models/user.model.ts: the stored record,
    its defaults and validators, the two pre-save hooks, the find hook and
    the three instance methods. bcrypt and SHA-256 are uninterpreted
    functions passed in as a `Crypto` value. */
module UserModel {
  import opened Common
  import opened Strings
  import opened Store

  /** A user document as stored. Dates are milliseconds since the epoch. */
  datatype UserRecord = UserRecord(
    name: string,
    email: string,
    photo: string,
    role: Role,
    password: Option<string>,
    passwordConfirm: Option<string>,
    passwordChangedAt: Option<int>,
    passwordResetToken: Option<string>,
    passwordResetExpires: Option<int>,
    active: bool)

  const DefaultPhoto: string := "default.jpg"
  const MinPasswordLength: nat := 8
  /** `10 * 60 * 1000`: a reset token lives ten minutes. */
  const ResetTokenLifetime: nat := 600000

  /** The unique index on `email` rejecting a write (MongoDB error E11000). */
  const DuplicateEmail := AppError(400, "Duplicate field value: email")

  /** Some record other than `except`, active or not, already holds the email. */
  predicate EmailTaken(records: map<Id, UserRecord>, email: string, except: Option<Id>) {
    exists id :: id in records && records[id].email == email && Some(id) != except
  }

  /** The `lowercase` setter has run on every stored email. */
  predicate EmailsLowercase(records: map<Id, UserRecord>) {
    forall id :: id in records ==> Lower(records[id].email) == records[id].email
  }

  /** Writing a record with a lower-case email keeps every email lower-case. */
  lemma EmailsLowercasePut(records: map<Id, UserRecord>, id: Id, r: UserRecord)
    requires EmailsLowercase(records) && Lower(r.email) == r.email
    ensures EmailsLowercase(records[id := r])
  {
  }

  /** bcrypt (cost 12) and SHA-256 as hex digests. */
  datatype Crypto = Crypto(
    bcryptHash: string -> string,
    bcryptCompare: (string, string) -> bool,
    sha256: string -> string)

  /** The find hook: every find-family query gets `{active: {$ne: false}}`. */
  predicate FindFilter(u: UserRecord) {
    u.active
  }

  /** The collection object really is the User model, with its find hook. */
  ghost predicate IsUserModel(m: Model<UserRecord>)
    reads m
  {
    m.findFilter == FindFilter
  }

  /** A deactivated user is invisible to every lookup by id, an active one
      is found. */
  lemma FindHookHidesInactive(m: Model<UserRecord>, id: Id)
    requires IsUserModel(m) && id in m.records
    ensures m.FindById(id).Some? <==> m.records[id].active
  {
  }

  /** The `passwordConfirm` validator: with no password it always fails,
      otherwise the confirmation must equal the password exactly. */
  predicate PasswordConfirmValid(password: Option<string>, el: string) {
    if password.None? || password.value == "" then false else el == password.value
  }

  /** The validators a `save()` with validation runs on the password paths:
      password required and at least 8 long, confirmation required and
      accepted by its validator. */
  predicate PasswordFieldsValid(password: Option<string>, confirm: Option<string>) {
    && password.Some? && password.value != "" && |password.value| >= MinPasswordLength
    && confirm.Some? && confirm.value != "" && PasswordConfirmValid(password, confirm.value)
  }

  lemma PasswordFieldsValidMeansConfirmed(password: Option<string>, confirm: Option<string>)
    requires PasswordFieldsValid(password, confirm)
    ensures confirm == password && |password.value| >= 8
  {
  }

  /** `correctPassword`: false without a stored hash, else bcrypt's verdict. */
  function CorrectPassword(crypto: Crypto, candidate: string, stored: Option<string>): (ok: bool)
    ensures stored.None? || stored == Some("") ==> !ok
  {
    if stored.None? || stored.value == "" then false else crypto.bcryptCompare(candidate, stored.value)
  }

  /** `parseInt((ms / 1000).toString(), 10)`: whole seconds, truncated toward zero. */
  function WholeSeconds(ms: int): int {
    if ms >= 0 then ms / 1000 else -((-ms) / 1000)
  }

  /** `changedPasswordAfter(JWTTimestamp)`. */
  function ChangedPasswordAfter(passwordChangedAt: Option<int>, jwtTimestamp: int): (changed: bool)
    ensures passwordChangedAt.None? ==> !changed
  {
    match passwordChangedAt
    case None => false
    case Some(ms) => jwtTimestamp < WholeSeconds(ms)
  }

  /** For a change after the epoch: a token counts as issued before the change
      exactly when the whole second it was issued in ended by the change. */
  lemma ChangedAfterIffIssuedBefore(changedAt: int, iat: int)
    requires changedAt >= 0
    ensures ChangedPasswordAfter(Some(changedAt), iat) <==> (iat + 1) * 1000 <= changedAt
  {
    var q := changedAt / 1000;
    assert changedAt == q * 1000 + changedAt % 1000;
    if iat < q {
      assert (iat + 1) * 1000 <= q * 1000;
    } else {
      assert q * 1000 <= iat * 1000;
    }
  }

  /** The pre-save hook backdates the change by one second, so a token issued
      at or after the moment of the save (its iat being the whole seconds of
      that moment) is never refused. */
  lemma TokenIssuedAfterSaveAccepted(savedAt: nat, issuedAt: nat)
    requires savedAt <= issuedAt
    ensures !ChangedPasswordAfter(Some(savedAt - 1000), issuedAt / 1000)
  {
    var ms := savedAt - 1000;
    if ms >= 0 {
      ChangedAfterIffIssuedBefore(ms, issuedAt / 1000);
      assert issuedAt < (issuedAt / 1000 + 1) * 1000;
    }
  }

  /** A hydrated Mongoose user document: the record's fields, updated in
      place by the handlers, plus the document state the hooks consult. */
  class UserDocument {
    const id: Id
    var name: string
    var email: string
    var photo: string
    var role: Role
    var password: Option<string>
    var passwordConfirm: Option<string>
    var passwordChangedAt: Option<int>
    var passwordResetToken: Option<string>
    var passwordResetExpires: Option<int>
    var active: bool
    /** `this.isNew`. */
    var isNew: bool
    /** `this.isModified("password")`. */
    var passwordModified: bool

    function Record(): UserRecord
      reads this
    {
      UserRecord(name, email, photo, role, password, passwordConfirm,
                 passwordChangedAt, passwordResetToken, passwordResetExpires, active)
    }

    /** A document loaded from the collection. */
    constructor Hydrate(id: Id, r: UserRecord)
      ensures this.id == id && Record() == r && !isNew && !passwordModified
    {
      this.id := id;
      name, email, photo, role := r.name, r.email, r.photo, r.role;
      password, passwordConfirm := r.password, r.passwordConfirm;
      passwordChangedAt := r.passwordChangedAt;
      passwordResetToken, passwordResetExpires := r.passwordResetToken, r.passwordResetExpires;
      active := r.active;
      isNew, passwordModified := false, false;
    }

    /** `new User({...})` with the schema defaults: photo "default.jpg",
        role "user", active true; nothing else is set. The `lowercase`
        setter of `email` runs on assignment. */
    constructor Create(id: Id, name: string, email: string, password: Option<string>, passwordConfirm: Option<string>)
      ensures this.id == id && isNew && passwordModified == password.Some?
      ensures Record() == UserRecord(name, Lower(email), DefaultPhoto, User, password, passwordConfirm, None, None, None, true)
    {
      this.id := id;
      this.name, this.email, this.photo, this.role := name, Lower(email), DefaultPhoto, User;
      this.password, this.passwordConfirm := password, passwordConfirm;
      passwordChangedAt, passwordResetToken, passwordResetExpires := None, None, None;
      active := true;
      isNew := true;
      passwordModified := password.Some?;
    }

    /** `doc.password = p; doc.passwordConfirm = c`; Mongoose marks the path
        modified only when the value changes. */
    method SetPassword(p: Option<string>, c: Option<string>)
      modifies this
      ensures Record() == old(Record()).(password := p, passwordConfirm := c)
      ensures passwordModified == (old(passwordModified) || p != old(password))
      ensures isNew == old(isNew)
    {
      passwordModified := passwordModified || p != password;
      password, passwordConfirm := p, c;
    }

    /** `createPasswordResetToken`: keeps the digest of the random token and an
        expiry ten minutes from now, and hands back the raw token. */
    method CreatePasswordResetToken(randomHex: string, crypto: Crypto, now: nat) returns (resetToken: string)
      modifies this
      ensures resetToken == randomHex
      ensures Record() == old(Record()).(passwordResetToken := Some(crypto.sha256(randomHex)),
                                         passwordResetExpires := Some(now + ResetTokenLifetime))
      ensures isNew == old(isNew) && passwordModified == old(passwordModified)
    {
      resetToken := randomHex;
      passwordResetToken := Some(crypto.sha256(resetToken));
      passwordResetExpires := Some(now + 10 * 60 * 1000);
    }

    /** `doc.passwordResetToken = undefined; doc.passwordResetExpires = undefined`. */
    method ClearResetToken()
      modifies this
      ensures Record() == old(Record()).(passwordResetToken := None, passwordResetExpires := None)
      ensures isNew == old(isNew) && passwordModified == old(passwordModified)
    {
      passwordResetToken, passwordResetExpires := None, None;
    }

    /** The first pre-save hook: hash a modified, non-empty password and drop
        the confirmation; otherwise leave both alone. */
    method HashPasswordHook(crypto: Crypto)
      modifies this
      ensures if old(passwordModified) && old(password).Some? && old(password).value != ""
              then Record() == old(Record()).(password := Some(crypto.bcryptHash(old(password).value)),
                                              passwordConfirm := None)
              else Record() == old(Record())
      ensures isNew == old(isNew) && passwordModified == old(passwordModified)
    {
      if !passwordModified || password.None? || password.value == "" {
        return;
      }
      password := Some(crypto.bcryptHash(password.value));
      passwordConfirm := None;
    }

    /** The second pre-save hook: record a password change on an existing
        document, one second in the past. */
    method PasswordChangedAtHook(now: nat)
      modifies this
      ensures if old(passwordModified) && !old(isNew)
              then Record() == old(Record()).(passwordChangedAt := Some(now - 1000))
              else Record() == old(Record())
      ensures isNew == old(isNew) && passwordModified == old(passwordModified)
    {
      if !passwordModified || isNew {
        return;
      }
      passwordChangedAt := Some(now - 1000);
    }

    /** `doc.save()`: the validators of the password paths when `validate`
        holds (they run before the hooks), then both pre-save hooks in
        order, then the write. A failed validation writes nothing. */
    method Save(users: Model<UserRecord>, validate: bool, crypto: Crypto, now: nat) returns (err: Option<AppError>)
      modifies this, users
      ensures err.Some? <==> validate && !PasswordFieldsValid(old(password), old(passwordConfirm))
      ensures err.Some? ==> err.value.statusCode == 400 && users.records == old(users.records)
                            && Record() == old(Record())
      ensures err.None? ==> Record() == SavedRecord(old(Record()), old(isNew), old(passwordModified), crypto, now)
                            && users.records == old(users.records)[id := Record()]
                            && !isNew && !passwordModified
    {
      if validate && !PasswordFieldsValid(password, passwordConfirm) {
        return Some(ValidationError("User validation failed"));
      }
      HashPasswordHook(crypto);
      PasswordChangedAtHook(now);
      users.Put(id, Record());
      isNew, passwordModified := false, false;
      err := None;
    }
  }

  /** The record the two pre-save hooks leave behind. */
  function SavedRecord(r: UserRecord, isNew: bool, passwordModified: bool, crypto: Crypto, now: nat): (s: UserRecord)
    ensures s.(password := r.password, passwordConfirm := r.passwordConfirm, passwordChangedAt := r.passwordChangedAt) == r
    ensures passwordModified && r.password.Some? && r.password.value != ""
            ==> s.password == Some(crypto.bcryptHash(r.password.value)) && s.passwordConfirm.None?
    ensures !(passwordModified && r.password.Some? && r.password.value != "")
            ==> s.password == r.password && s.passwordConfirm == r.passwordConfirm
    ensures s.passwordChangedAt == if passwordModified && !isNew then Some(now - 1000) else r.passwordChangedAt
  {
    var hashed := if passwordModified && r.password.Some? && r.password.value != ""
                  then r.(password := Some(crypto.bcryptHash(r.password.value)), passwordConfirm := None)
                  else r;
    if passwordModified && !isNew then hashed.(passwordChangedAt := Some(now - 1000)) else hashed
  }
}
